=== FILE: README.md ===
# SKU image pipeline — a Dafny model

This project models the decision logic of the SKU image pipeline. The pipeline takes products (SKUs) that have no picture and does the following for each:
- derives search keywords from the product's name;
- queries image providers in priority order, scoring every candidate for relevance;
- validates the chosen image;
- attaches it to the product in the inventory service;
- records the outcome in a processing-state store.

The model also covers the supporting pieces:
- the worklist helpers of the manual-SKU script;
- the case-insensitive index over a folder of local images;
- the text report of SKUs that need manual review.

Every collaborator is a value passed in, never a call out:
- each HTTP provider is a function from source and query to candidates or an exception;
- the inventory download and attach calls are functions;
- the image decoder's verdict is an input;
- the SQLite database is a pair of maps;
- the clock is a number.

Exceptions are the `Threw` case of `Outcomes.Reply`. Scores and ratios are exact reals.

Modules, one per source file, plus two helper modules:

- `PyText`: the Python string and list behaviour the code relies on:
  - `strip`, `split` and `join`;
  - `startswith`, `in` on strings, `ljust` and `str(int)`;
  - slices with negative bounds;
  - list comprehensions, as `Filter`.
- `Outcomes`: `Option` and `Reply`.
- `Models` (src/storage/models.py): the enums and their string values, and the records. Also the aspect ratio, the success rate and the per-source breakdown.
- `Keywords` (src/services/keyword_extractor.py): cleaning, splitting, stopword removal, abbreviation expansion, the number and length filters, and truncation.
- `Search` (src/services/image_search_service.py):
  - relevance scoring;
  - the stable priority sort;
  - the provider walk with early accept, the global fallback at 0.8 × minimum and the one-time relaxation to two keywords;
  - the swallowing of provider exceptions.
- `Validator` (src/services/image_validator.py): size, format, dimension and aspect-ratio checks, and the error texts.
- `StateStore` (src/storage/state_manager.py):
  - record upsert with attempt counting, and the success check;
  - the failed and needs-review queries;
  - stats and retention cleanup;
  - execution records.
- `Processor` (src/services/sku_processor.py): the per-SKU outcome tree, and the batch: a reference run that processes the SKUs in order, each against the store its predecessors left, and the tally of its results. The batch loop is written once over any per-SKU step that leaves processed SKUs alone and writes consistently, and `process_single_sku` is shown to be such a step.
- `ManualRun` (scripts/test_with_manual_skus.py):
  - file and `--skus` parsing;
  - filtering of SKUs already processed;
  - limit-after-filter;
  - result classification.
- `LocalImages` (src/services/local_image_service.py): stem and suffix rules, the first-wins lower-cased index, lookup, the available SKUs and refresh.
- `ReviewReport` (src/utils/report_writer.py): the lines of the needs-review report.

Points where the code behaves in a way a reader might not expect; the model follows the code:

- **Abbreviation values with spaces.** An abbreviation may expand to a value containing a space ("extra large"). The value stays one keyword; it is not split into two tokens.
- **Needs-review in the batch tally.** The tally counts a needs-review outcome as `failed`, because its result carries an error. The report's `needs_review` counter stays 0.
- **No review report from the batch.** `process_all_skus` does not produce the review report itself.
- **Empty keyword lists.** An empty keyword list reaching the search is not excluded by a precondition. Scoring divides by the keyword count, and the `ZeroDivisionError` is raised inside the per-source `try`, which catches it and moves to the next source. `Search.ScoreAll` models exactly that. In the pipeline itself the processor never searches with no keywords.
- **Unknown priority names.** A priority entry naming an unknown source raises `ValueError` outside that `try`. The exception leaves the search and is recorded by the processor as a failure.

## Model

| member | source | states |
|---|---|---|
| Models.ParseStatus | src/storage/models.py:10-16 | a parsed status value reads back as the same string |
| Models.StatusValueRoundTrip | src/storage/models.py:10-16 | the statuses are exactly success, failed, needs_review and pending: parsing inverts the value map, and any other string is refused |
| Models.ParseSource | src/storage/models.py:19-26 | a parsed source value reads back as the same string |
| Models.SourceValueRoundTrip | src/storage/models.py:19-26 | the sources are exactly freepik, pexels, pixabay, web_scraper and manual: parsing inverts the value map, and any other string is refused |
| Models.AspectRatio | src/storage/models.py:59-62 | the ratio times the height is the width when the height is positive; it is 0 otherwise |
| Models.NewProcessingRecord | src/storage/models.py:90-106 | a record built from id and status has one attempt, no id, source, url, score or error, and both timestamps at creation time |
| Models.NewReport | src/storage/models.py:131-149 | a fresh report has every counter at 0, an empty source breakdown and an empty error summary |
| Models.SuccessRate | src/storage/models.py:151-156 | 0 for an empty batch; otherwise rate × total = successful × 100, so it lies in [0, 100] |
| Models.Bump | src/services/sku_processor.py:42-43 | one more success for a source raises that source's count and the breakdown total by one and changes no other source |
| Keywords.ReplaceDisallowed | src/services/keyword_extractor.py:54 | every character outside `[a-z0-9\s\-_]` becomes a space, every other one is kept, and the length is unchanged |
| Keywords.CollapseSpaces | src/services/keyword_extractor.py:55 | each whitespace run becomes one space: the result is empty iff the text is, starts with a space iff the text starts with whitespace, holds no whitespace but single spaces, and keeps every other character, in order; a text over the cleaned alphabet stays over it |
| Keywords.CollapseAtVisible | src/services/keyword_extractor.py:55 | a character that is not whitespace splits the substitution: both sides are collapsed on their own and it stays between them |
| Keywords.CollapseRun | src/services/keyword_extractor.py:55 | a non-empty run of whitespace collapses to one space |
| Keywords.CollapseFixpoint | src/services/keyword_extractor.py:55 | a text with no whitespace but single spaces is left unchanged |
| Keywords.StripKeeps | src/services/keyword_extractor.py:56 | stripping keeps a cleaned, single-spaced text cleaned and single-spaced, and adds no letter or digit |
| Keywords.StripKeepsVisible | src/services/keyword_extractor.py:56 | stripping removes only whitespace: the other characters stay, in order |
| Keywords.StripFixpoint | src/services/keyword_extractor.py:56 | a text with no whitespace at either end is left unchanged |
| Keywords.CleanText | src/services/keyword_extractor.py:51-56 | the cleaned name holds only `[a-z0-9]`, `-`, `_` and single spaces, none at either end; its other characters are those of the lower-cased name with everything outside `[a-z0-9\s\-_]` replaced, in order; a name with no letter or digit cleans to a text without any |
| Keywords.CleanTextIdempotent | src/services/keyword_extractor.py:51-56 | cleaning a cleaned name changes nothing |
| Keywords.CleanTextKeepsAlnums | src/services/keyword_extractor.py:51-56 | the cleaned name keeps every letter and digit of the lower-cased name, in order, and adds none |
| Keywords.SplitAtDelims | src/services/keyword_extractor.py:60 | one more piece than the text has delimiters; the pieces interleaved with the delimiters, in order, give back the text; no piece holds a delimiter |
| Keywords.SplitAtDelimsAppend | src/services/keyword_extractor.py:60 | the pieces of a text, a delimiter and another text are the pieces of the first text followed by those of the second |
| Keywords.SplitAtDelimsOfWord | src/services/keyword_extractor.py:60 | a text without delimiters is its own single piece |
| Keywords.SplitWords | src/services/keyword_extractor.py:58-61 | every word is non-empty, free of `-`, `_` and whitespace, made of the text's characters; a text of delimiters has no words |
| Keywords.SplitWordsAtDelim | src/services/keyword_extractor.py:58-61 | a delimiter separates the words: those of a text, a delimiter and another text are the first text's words followed by the second's |
| Keywords.SplitWordsOfWord | src/services/keyword_extractor.py:58-61 | a non-empty text without delimiters is one word |
| Keywords.ConcatPieces | src/services/keyword_extractor.py:58-61 | the pieces of a cleaned text, joined, spell exactly its letters and digits, in order |
| Keywords.Tokens | src/services/keyword_extractor.py:35-36 | every token is a non-empty word over `[a-z0-9]`, and the tokens joined spell the letters and digits of the lower-cased name, in order |
| Keywords.WordsOfCleanText | src/services/keyword_extractor.py:58-61 | splitting a cleaned text yields only non-empty words over `[a-z0-9]`, which joined spell its letters and digits, in order |
| Keywords.SplitWordsOfSqueeze | src/services/keyword_extractor.py:55-61 | collapsing whitespace runs does not change the words of a text |
| Keywords.SplitWordsOfStrip | src/services/keyword_extractor.py:56-61 | stripping a text does not change its words |
| Keywords.TokensOfReplaced | src/services/keyword_extractor.py:51-61 | the tokens of a name are the words of its lower-cased, replaced form: collapsing and stripping change no word |
| Keywords.TokensAtSeparator | src/services/keyword_extractor.py:53-61 | a character that is not a letter or digit once lower-cased ends a token: the tokens of `a`, that character and `b` are those of `a` followed by those of `b` |
| Keywords.TokensOfWord | src/services/keyword_extractor.py:53-61 | a non-empty name of letters and digits is one token, its lower-cased self |
| Keywords.RemoveStopwords | src/services/keyword_extractor.py:63-65 | the result has no stopword and only words of the input, and keeps every non-stopword |
| Keywords.LookupAbbreviation | src/services/keyword_extractor.py:69 | the lookup hits iff the table has the key, and then returns that key's value |
| Keywords.ExpandAbbreviation | src/services/keyword_extractor.py:67-69 | the result is the word unchanged or one of the table's values |
| Keywords.ExpandAbbreviationLookup | src/services/keyword_extractor.py:67-69 | a word whose lower case is a key becomes that key's own value; any other word is returned unchanged |
| Keywords.LookupDistinct | src/services/keyword_extractor.py:69 | in a table with distinct keys, looking up a key returns the value stored beside it |
| Keywords.AbbreviationKeysDistinct | src/services/keyword_extractor.py:13-21 | the abbreviation keys are pairwise distinct, as dictionary keys are |
| Keywords.AbbreviationValuesAreNotStopwords | src/services/keyword_extractor.py:11-21 | no abbreviation value is a stopword |
| Keywords.ExpandAll | src/services/keyword_extractor.py:39-40 | expansion maps each word in place when enabled and leaves the list alone otherwise |
| Keywords.DropNumbers | src/services/keyword_extractor.py:42-43 | with number removal exactly the words that are not all digits survive, each from the input; without it the list is unchanged |
| Keywords.DropShort | src/services/keyword_extractor.py:45 | every surviving word has at least the minimum length, and every word that long survives |
| Keywords.ExtractKeywords | src/services/keyword_extractor.py:31-49 | the keywords are the first `max_keywords` (a Python slice) of what the name's tokens contribute, in token order: at most that many, exactly that many when enough exist; each is long enough, no stopword, not all digits when numbers are removed, and a `[a-z0-9]+` word or an abbreviation value |
| Keywords.PipelineCons | src/services/keyword_extractor.py:35-45 | the list stages act token by token: a token in front contributes its own keyword, or nothing, ahead of what the rest contribute |
| Keywords.PipelinePerToken | src/services/keyword_extractor.py:35-45 | the list stages give each token's contribution in token order |
| Keywords.CandidatesKept | src/services/keyword_extractor.py:35-45 | every token that survives the pipeline before truncation meets the length, stopword, number and origin conditions |
| Keywords.KeptTokensAcceptable | src/services/keyword_extractor.py:35-37 | tokens that passed the stopword filter are lower case and no stopword |
| Keywords.ExpansionAcceptable | src/services/keyword_extractor.py:39-40 | expanding abbreviations never turns an acceptable word into a stopword or an upper-case word |
| Keywords.PrefixKept | src/services/keyword_extractor.py:46 | cutting the list to its first `max_keywords` words keeps only words that met every filter |
| Keywords.TokenIsLower | src/services/keyword_extractor.py:53-61 | a token is already lower case, so the stopword and abbreviation lookups see it unchanged |
| Keywords.AbbreviationKeysStartWithLetters | src/services/keyword_extractor.py:13-21 | every abbreviation key is non-empty and starts with a lower-case letter |
| Keywords.DigitWordNotExpanded | src/services/keyword_extractor.py:67-69 | an all-digit token is no abbreviation key and is never expanded |
| Keywords.DigitWordNotStopword | src/services/keyword_extractor.py:11 | a word starting with a digit is no stopword |
| Keywords.DigitTokensSurvive | src/services/keyword_extractor.py:42-45 | without number removal, an all-digit token that is long enough reaches the candidates |
| Keywords.NoAlnumNoKeywords | src/services/keyword_extractor.py:51-61 | a name with no ASCII letter or digit, the empty name included, yields no keywords |
| Search.KeywordMatches | src/services/image_search_service.py:87-88 | the match count is at most the keyword count; it equals it iff every lower-cased keyword occurs in the title, and is 0 iff none does |
| Search.KeywordMatchesFilter | src/services/image_search_service.py:87-88 | the match count is the number of keywords whose lower case occurs in the title |
| Search.FractionBounds | src/services/image_search_service.py:89 | a count over a positive total lies in [0, 1], reaching 1 iff the counts are equal and 0 iff the count is 0 |
| Search.KeywordTerm | src/services/image_search_service.py:87-89 | the keyword share lies in [0, 0.6]; it is 0.6 iff every keyword occurs in the lower-cased title (a missing title read as empty) and 0 iff none does |
| Search.KeywordTermShare | src/services/image_search_service.py:87-89 | the keyword share is 0.6 × the number of keywords found in the title ÷ the keyword count |
| Search.ResolutionBonus | src/services/image_search_service.py:91-94 | the bonus is 0.2 iff the image is at least 1920×1080; 0.1 iff it is not but is at least 1280×720; 0 otherwise |
| Search.ResolutionBonusMonotone | src/services/image_search_service.py:91-94 | a wider and taller image never earns a smaller bonus, and keeps the top tier |
| Search.SourceBonus | src/services/image_search_service.py:96-97 | every source bonus, the 0.05 default included, lies in [0.05, 0.2] |
| Search.SourceBonusPerSource | src/services/image_search_service.py:96-97 | pexels earns 0.15, pixabay 0.1, and every other defined source the 0.05 default; no source earns the 0.2 table entry |
| Search.Score | src/services/image_search_service.py:83-99 | the score is the sum of keyword share, resolution bonus and source bonus, never capped, and lies in [0.05, 0.95] |
| Search.ConcatKeepsBounds | src/services/image_search_service.py:45 | joining scored lists keeps every score in range and below a threshold when both parts were |
| Search.ScoreAll | src/services/image_search_service.py:44 | scoring raises iff there are candidates and no keywords; otherwise it pairs each candidate, in order, with its own score |
| Search.ScoreSource | src/services/image_search_service.py:43-44 | scoring one source raises iff the provider gave candidates and there are no keywords; otherwise one in-range score per candidate |
| Search.ScoreSourceCandidates | src/services/image_search_service.py:43-44 | each candidate the source returned is paired, in order, with its own score |
| Search.BestIndex | src/services/image_search_service.py:47-58 | the chosen index holds a maximal score, and every earlier index a strictly smaller one (the first maximum, as `max` picks) |
| Search.EarlyAccept | src/services/image_search_service.py:47-51 | a source is accepted iff one of its candidates meets the minimum; the accepted image is its first best candidate with the score set, at least every candidate's score; otherwise every score is below the minimum |
| Search.Accept | src/services/image_search_service.py:47-62 | the returned image is the candidate with only its relevance score replaced by the computed score |
| Search.InsertByPriority | src/services/image_search_service.py:37 | insertion into a sorted priority list adds one entry and keeps it sorted |
| Search.InsertAddsOne | src/services/image_search_service.py:37 | insertion adds exactly the new entry to the multiset |
| Search.SortByPriority | src/services/image_search_service.py:37 | the priority order is ascending and a permutation of the configured entries |
| Search.WithPriorityCons | src/services/image_search_service.py:37 | the entries of one priority in a list with a new head are that head, if it has the priority, followed by the rest's |
| Search.InsertKeepsTies | src/services/image_search_service.py:37 | inserting an entry places it before every entry of equal priority and keeps their order |
| Search.SortIsStable | src/services/image_search_service.py:37 | the sort keeps the relative order of entries with equal priority |
| Search.SearchSource | src/services/image_search_service.py:71-81 | a provider that raises contributes no candidates; otherwise its candidates are used as returned |
| Search.WalkSources | src/services/image_search_service.py:37-55 | an early accept has a score at least the minimum, in [0.05, 0.95], and comes from an enabled source, the last one queried |
| Search.AcceptedOnLastSource | src/services/image_search_service.py:37-51 | an early accept is the early-accept choice of the last source queried, and no source queried before it on the way had one |
| Search.ExhaustedScoresBelowMinimum | src/services/image_search_service.py:44-48 | when no source is accepted early, every candidate scored on the way is below the minimum |
| Search.EnabledSources | src/services/image_search_service.py:37-40 | the sources the walk would query are enabled ones, in priority order |
| Search.ExhaustedQueriedAll | src/services/image_search_service.py:37-55 | a walk that runs to the end has queried every enabled source, in priority order, and nothing else |
| Search.ExhaustedScoredAll | src/services/image_search_service.py:37-55 | a walk that runs to the end has collected, after what it started with, the scored candidates of every enabled source in priority order, a source that raised contributing none |
| Search.AcceptedQueriedPrefix | src/services/image_search_service.py:37-51 | an early accept stops the walk: the sources queried are a non-empty prefix of the enabled sources, so no later source is queried |
| Search.Pass | src/services/image_search_service.py:37-62 | a walk stopped by an unknown source value raises its ValueError (Search.PassRaisesIff says exactly when); an early accept is the result; otherwise the pass finds an image iff some collected score reaches 0.8 × the minimum, and then it is the first best collected candidate with its score set |
| Search.PassWhenAccepted | src/services/image_search_service.py:37-51 | an accepted pass returns the early-accept choice of the last source queried, after a prefix of the enabled sources none of which had one |
| Search.PassWhenExhausted | src/services/image_search_service.py:37-62 | a pass that runs out of sources has scored every enabled source's candidates, all below the minimum, and finds the first best of them iff one reaches 0.8 × the minimum |
| Search.FirstUnknown | src/services/image_search_service.py:37-38 | the position of the first priority entry whose value names no image source; every entry before it, or every entry when there is none, names one |
| Search.UnknownSourceIff | src/services/image_search_service.py:37-51 | a walk raises on an unknown source value iff the order holds one and no known, enabled source before the first of them has an early accept |
| Search.UnknownSourceValue | src/services/image_search_service.py:38 | the value a walk raises on is that of the first unknown entry |
| Search.KnownNeverRaises | src/services/image_search_service.py:38 | an order whose every entry names a source never raises |
| Search.UnknownFirstRaises | src/services/image_search_service.py:37-38 | an unknown first entry raises on its own value before any provider is queried |
| Search.PassRaisesIff | src/services/image_search_service.py:37-51 | a pass raises iff the sorted order holds an unknown value and no known, enabled source before the first of them has an early accept, and it raises on that value |
| Search.SearchImage | src/services/image_search_service.py:30-69 | nothing is found iff the full pass and, with more than two keywords, the two-keyword pass both decide nothing; otherwise the outcome is that of the first pass that decided; a found image scores in [0.05, 0.95] and at least 0.8 × the minimum |
| Search.RelaxesAtMostOnce | src/services/image_search_service.py:64-69 | the search is a pass with all keywords, then, only when that decides nothing and there are more than two keywords, one pass with the first two; otherwise nothing is found |
| Search.NoKeywordsFindNothing | src/services/image_search_service.py:42-55 | with no keywords, no image is ever found: scoring raises inside the per-source handler |
| Search.NoKeywordsScoreNothing | src/services/image_search_service.py:44-55 | with no keywords, a walk scores nothing and accepts nothing |
| Search.Swallowing | src/services/image_search_service.py:77-81 | the wrapped provider never raises; it returns the provider's candidates or none |
| Search.WalkIgnoresThrows | src/services/image_search_service.py:42-55 | a walk with a raising provider ends exactly as with one returning no candidates |
| Search.ThrowingProviderIsEmpty | src/services/image_search_service.py:30-81 | replacing every provider exception by an empty candidate list changes no search outcome |
| Validator.AllowedFormats | src/services/image_validator.py:20 | the allowed formats are never empty and are the configured ones when any are given |
| Validator.SizeErrors | src/services/image_validator.py:29-31 | there is one size error iff the payload is longer than the limit in bytes; equality is allowed |
| Validator.ImageErrors | src/services/image_validator.py:39-43 | a format error comes first iff the format is not allowed (exact, case-sensitive), a dimension error last iff width or height is below its minimum, and none iff both checks pass |
| Validator.Validate | src/services/image_validator.py:24-61 | valid iff there are no errors; size errors come first; a decode failure adds one error and drops every measured field; otherwise format and dimension errors follow, and exactly one warning appears iff the aspect ratio is out of range |
| Validator.ValidIff | src/services/image_validator.py:29-49 | a decoded image is valid iff it is within the size limit, in an allowed format and at least the minimum size |
| Validator.AspectRangeNeverInvalidates | src/services/image_validator.py:45-49 | changing the aspect-ratio range changes neither the errors nor validity |
| Validator.ValidityMonotone | src/services/image_validator.py:29-49 | a smaller payload of a larger image in the same format stays valid |
| Validator.RoundHalfEven | src/services/image_validator.py:31 | the quotient is within half a unit of the exact one, and a tie rounds to even, as `.2f` formatting does |
| Validator.TwoDigits | src/services/image_validator.py:31 | the fractional part is rendered as exactly two digits |
| Validator.ErrorTexts | src/services/image_validator.py:29-61 | one text per error, in order |
| Validator.SmallImageRejected | src/services/image_validator.py:42-43 | a 100×100 JPEG against the default 800×600 minimum has exactly the dimension error and is invalid |
| Validator.OversizeRejected | src/services/image_validator.py:13-31 | 6 MB against the default 5 MB limit gives exactly the size error |
| Validator.OversizeMessage | src/services/image_validator.py:31 | the size error for 6 MB against 5 MB reads "File size 6.00MB exceeds max 5.0MB" |
| Validator.SixMegabytesText | src/services/image_validator.py:31 | 6 MB renders as "6.00" |
| Validator.FiveMegabyteLimitText | src/services/image_validator.py:31 | the 5 MB limit renders as "5.0" |
| Validator.WideImageOnlyWarns | src/services/image_validator.py:45-49 | a 3.5 aspect ratio against [0.5, 2.0] warns but the image stays valid |
| Validator.FormatCaseSensitive | src/services/image_validator.py:39-40 | a lower-case "jpeg" is refused by the default list |
| Validator.FormatMessage | src/services/image_validator.py:40 | the format error lists the allowed formats as Python prints the list |
| Validator.DefaultFormatsRepr | src/services/image_validator.py:20 | the default list prints as ['JPEG', 'PNG', 'WebP'] |
| StateStore.EmptyStore | src/storage/state_manager.py:27-84 | a new database has no records and no executions and satisfies the schema's invariants |
| StateStore.GetRecord | src/storage/state_manager.py:128-142 | a record is returned iff one is stored for the id, and it is that id's record |
| StateStore.Mark | src/storage/state_manager.py:97-119 | the id's record takes the new status, source, url, score, error and time; an existing record gets one more attempt and keeps its id and creation time, a new one starts at one attempt; no other record changes |
| StateStore.MarkDecidesProcessed | src/storage/state_manager.py:87-119 | after a write the id counts as processed iff the write said success, and no other id's answer changes |
| StateStore.FailThenSucceed | src/storage/state_manager.py:105-119 | a failure then a success leaves one record with two attempts, status success and no error |
| StateStore.GetFailedSkus | src/storage/state_manager.py:144-152 | the ids returned are exactly the failed records below the attempt limit, each once |
| StateStore.LatestExists | src/storage/state_manager.py:158 | a non-empty set of records has one with the latest processing time |
| StateStore.SkuIdsAppend | src/storage/state_manager.py:163-171 | appending a record adds exactly its id |
| StateStore.AppendLatest | src/storage/state_manager.py:158 | appending the newest remaining needs-review record keeps the list newest-first and free of duplicates |
| StateStore.GetNeedsReviewSkus | src/storage/state_manager.py:154-171 | the list holds every needs-review record exactly once, as stored, newest first |
| StateStore.SourceCounts | src/storage/state_manager.py:185-188 | each source's count is the number of successful records from it, and sources with none are absent |
| StateStore.GetStats | src/storage/state_manager.py:173-192 | total is the record count, each status count counts the records with that status, and the breakdown counts successes per source |
| StateStore.StatusCountsBounded | src/storage/state_manager.py:177-181 | the three status counts together never exceed the total |
| StateStore.BreakdownBounded | src/storage/state_manager.py:185-188 | the source breakdown sums to at most the successful count |
| StateStore.Cleanup | src/storage/state_manager.py:194-205 | exactly the success records older than the cutoff are deleted, the others kept unchanged, and the count returned is the number deleted |
| StateStore.CleanupKeepsUnfinished | src/storage/state_manager.py:199-200 | a record that is not a success survives cleanup unchanged |
| StateStore.CreateExecution | src/storage/state_manager.py:207-215 | a new execution row with a fresh id, started now, with only its trigger set; nothing else changes |
| StateStore.UpdateExecution | src/storage/state_manager.py:217-231 | an existing row gets its completion time, totals and duration, and an unknown id changes nothing |
| Processor.Fail | src/services/sku_processor.py:120-125 | a failure makes one write with the given status and error and a result carrying the same error, which counts as recorded for FAILED and for the not-found NEEDS_REVIEW |
| Processor.AttachStep | src/services/sku_processor.py:100-118 | the upload is the one call added; the outcome is recorded: success exactly for a SUCCESS write holding the image, otherwise a FAILED or NEEDS_REVIEW write with an error and no image |
| Processor.DownloadStep | src/services/sku_processor.py:90-118 | the image is downloaded first and the upload, if any, comes second; success needs the upload; the outcome is recorded as for the attach step |
| Processor.SearchStep | src/services/sku_processor.py:82-118 | the search is the first call, a download of a found image the second, an upload of `<sku>.jpg` the third; success needs all three; the outcome is recorded as for the attach step |
| Processor.ProcessSingle | src/services/sku_processor.py:64-125 | an already-processed SKU is skipped with no error, write or call; any other SKU makes exactly one write that agrees with its result: SUCCESS with the image's source, url and score, or FAILED or NEEDS_REVIEW with an error and no image, NEEDS_REVIEW only with "No suitable image found"; the calls are search, download and attach in that order, all three for a success |
| Processor.NoKeywordsNoSearch | src/services/sku_processor.py:74-80 | no keywords: one FAILED write with "No keywords extracted from SKU name", and no search |
| Processor.NotFoundNeedsReview | src/services/sku_processor.py:82-88 | nothing found: one NEEDS_REVIEW write with "No suitable image found", and no download |
| Processor.InvalidImageNotUploaded | src/services/sku_processor.py:90-98 | an invalid image: one FAILED write with the joined validation errors, and no upload |
| Processor.SuccessRecordsImage | src/services/sku_processor.py:100-113 | a successful upload: a success result and a SUCCESS write of the image's source, url and score |
| Processor.SearchRaisesFails | src/services/sku_processor.py:120-125 | a search that raises: one FAILED write and a result with the exception's text, and no other call |
| Processor.DownloadRaisesFails | src/services/sku_processor.py:120-125 | a download that raises: one FAILED write and a result with the exception's text, and no upload |
| Processor.AttachRefusedFails | src/services/sku_processor.py:100-118 | an upload answering false: no success, one FAILED write with "Failed to attach image to SKU", after all three calls |
| Processor.AttachRaisesFails | src/services/sku_processor.py:100-125 | an upload that raises: no success, one FAILED write with the exception's text, after all three calls |
| Processor.Apply | src/storage/state_manager.py:97-119 | applying an attempt's write keeps the store consistent, and a skip changes nothing |
| Processor.ProcessedAfterAttempt | src/services/sku_processor.py:69-125 | after an attempt the SKU counts as processed iff it already did or the attempt succeeded, and no other SKU's record changes |
| Processor.ApplyKeepsConsistent | src/services/sku_processor.py:64-125 | storing what processing a SKU wrote keeps every record consistent: a success holds source, url and score, a failure or a review holds an error |
| Processor.ProcessedSkuUntouched | src/services/sku_processor.py:69-71 | processing a SKU already marked successful leaves the store exactly as it was |
| Processor.Tally | src/services/sku_processor.py:40-48 | each result raises exactly one of successful, failed and skipped; a success also raises its source's count, and an error is appended to the summary |
| Processor.NeedsReviewCountsAsFailed | src/services/sku_processor.py:44-46 | a needs-review outcome is tallied as failed and not under needs_review |
| Processor.BatchRunAttempt | src/services/sku_processor.py:37-38 | in the reference batch, the j-th attempt is the processing of the j-th SKU against the store the SKUs before it left |
| Processor.TallyAllCounts | src/services/sku_processor.py:40-48 | tallying attempts raises each of successful, failed and skipped by the number of attempts whose result goes to it |
| Processor.ProcessingWellBehaved | src/services/sku_processor.py:64-125 | processing never writes for a SKU already processed, and every write it makes keeps the store consistent |
| Processor.RunBatch | src/services/sku_processor.py:37-48 | the loop leaves the store of the reference batch and the tally of its attempts; each counter is the number of SKUs whose result goes to it; the counters are balanced, and the store keeps its keys, every processed SKU's record and its consistency |
| Processor.CompletedAround | src/services/sku_processor.py:31-55 | completing the row created for the batch adds exactly one execution row (the next id, absent before, started when created, completed at the update with the duration between) and leaves every earlier row as it was |
| Processor.ProcessAll | src/services/sku_processor.py:27-62 | the "manual" execution row is created before the fetch, so a fetch failure is re-raised and leaves exactly the store with that row added; otherwise the records are those the reference batch leaves (each SKU processed against the store its predecessors left) and the report is the tally of its attempts, so each counter is the number of SKUs whose result goes to it; the counters sum to the total, the breakdown to the successes and the error summary to the failures; the execution row, triggered "manual", is the one new row (the next id, absent before), records those totals, starts at the first clock reading and completes at the last, and every earlier execution row is unchanged; every SKU already processed keeps its record unchanged, and a consistent store stays consistent |
| ManualRun.LoadSkuLines | scripts/test_with_manual_skus.py:74-83 | every loaded id is stripped, non-empty and not a comment |
| ManualRun.StripIdempotent | scripts/test_with_manual_skus.py:80 | stripping twice is stripping once |
| ManualRun.LoadSkuLinesIsFilter | scripts/test_with_manual_skus.py:79-82 | loading keeps, in file order, exactly the stripped lines that are non-empty and do not start with '#' |
| ManualRun.ParseSkuArg | scripts/test_with_manual_skus.py:151 | one id per comma-separated piece, each stripped, empty pieces kept |
| ManualRun.StripEach | scripts/test_with_manual_skus.py:151 | each item stripped, in order |
| ManualRun.ParseSkuArgRoundTrip | scripts/test_with_manual_skus.py:151 | for pieces without surrounding spaces, joining the ids with commas gives back the argument |
| ManualRun.Unprocessed | scripts/test_with_manual_skus.py:105-121 | every id kept has no successful record |
| ManualRun.UnprocessedIsFilter | scripts/test_with_manual_skus.py:105-121 | the ids kept are exactly those with no successful record, in input order |
| ManualRun.FilterAlreadyProcessed | scripts/test_with_manual_skus.py:89-127 | with force the input comes back with count 0; otherwise the ids without a successful record, in order, and kept plus counted is the input length |
| ManualRun.SelectWorklist | scripts/test_with_manual_skus.py:157-171 | with skip-check the first `limit` ids unfiltered and no skips; otherwise the limit applies after filtering |
| ManualRun.Classify | scripts/test_with_manual_skus.py:219-231 | success iff the result succeeded; review iff it failed with an error mentioning "No suitable image found"; failure otherwise |
| ManualRun.CountResults | scripts/test_with_manual_skus.py:207-231 | the three counters sum to the number of results |
| ManualRun.VerdictIndices | scripts/test_with_manual_skus.py:207-231 | exactly the positions of the results with a given verdict |
| ManualRun.VerdictsCounted | scripts/test_with_manual_skus.py:207-231 | each counter is the number of results with its verdict: successes, failures whose error mentions "No suitable image found", and every other result |
| ManualRun.SuccessfulCounted | scripts/test_with_manual_skus.py:219-220 | the success counter is the number of successful results |
| ManualRun.SuccessfulIndices | scripts/test_with_manual_skus.py:219 | exactly the positions of the successful results |
| ManualRun.SkippedCountsAsFailed | scripts/test_with_manual_skus.py:228-229 | a skipped SKU, which has no error, is counted as failed |
| ManualRun.ReviewCountedAsReview | scripts/test_with_manual_skus.py:224-225 | a SKU the processor sends to review is counted under review |
| LocalImages.RFind | src/services/local_image_service.py:56 | the index is that of the last occurrence, or -1 when there is none |
| LocalImages.Stem | src/services/local_image_service.py:56 | the stem is a prefix of the name |
| LocalImages.Suffix | src/services/local_image_service.py:56 | the suffix is a tail of the name, a dot followed by no further dot, or empty |
| LocalImages.StemSuffixSplit | src/services/local_image_service.py:56 | stem and suffix concatenate to the name |
| LocalImages.ExtensionsWellFormed | src/services/local_image_service.py:38 | every supported extension is a dot followed by at least one character and no other dot |
| LocalImages.StemOfMatch | src/services/local_image_service.py:54-56 | a file matched by an extension and longer than it has that extension as its suffix and the rest as its stem |
| LocalImages.BareExtensionIsStem | src/services/local_image_service.py:54-56 | a file named exactly like an extension has no suffix and is its own stem |
| LocalImages.Candidates | src/services/local_image_service.py:53-54 | every scanned file is in the listing |
| LocalImages.CandidatesExact | src/services/local_image_service.py:53-54 | a file is scanned iff its name ends with a supported extension |
| LocalImages.Lookup | src/services/local_image_service.py:83-87 | a lookup misses iff no entry has the key |
| LocalImages.LookupSnoc | src/services/local_image_service.py:68 | a lookup after an added entry finds the old entry if there was one, else the new one if its key matches |
| LocalImages.Insert | src/services/local_image_service.py:62-68 | scanning a file adds at most one entry at the end, keyed by the file's lower-cased stem, and keeps keys distinct |
| LocalImages.BuildFrom | src/services/local_image_service.py:53-68 | scanning files keeps every entry keyed by its file and the keys distinct |
| LocalImages.FirstFor | src/services/local_image_service.py:61-68 | the reference: the first file with a given key, or none iff no file has it |
| LocalImages.BuildKeepsFirst | src/services/local_image_service.py:53-68 | after scanning, each key maps to the first file seen with it, unless the index already held the key |
| LocalImages.InsertLookup | src/services/local_image_service.py:62-68 | a lookup after one scanned file keeps an existing entry and otherwise finds the file if its key matches |
| LocalImages.BuildIndex | src/services/local_image_service.py:49-70 | the built index has each entry under its file's lower-cased stem, with distinct keys |
| LocalImages.Open | src/services/local_image_service.py:31-47 | a missing folder or a non-directory raises its ValueError; otherwise every key maps to the first matching file in scanning order |
| LocalImages.Refresh | src/services/local_image_service.py:108-111 | the rebuilt index depends on the new listing only: every key maps to the first matching file in it |
| LocalImages.Find | src/services/local_image_service.py:72-98 | no image when the lower-cased SKU is not a key or the file cannot be read; a found image carries the SKU asked for and the indexed file for its lower-cased form |
| LocalImages.LookupFindsEntry | src/services/local_image_service.py:87 | a successful lookup returns the file of an entry with that key |
| LocalImages.FindIgnoresCase | src/services/local_image_service.py:81 | SKUs equal after lower-casing find the same file, or both find nothing |
| LocalImages.Available | src/services/local_image_service.py:100-106 | one original-case stem per index entry, whose lower case is the entry's key |
| LocalImages.AvailableAreIndexed | src/services/local_image_service.py:100-106 | each available SKU is found again by lookup, and no two differ only in case |
| LocalImages.LookupAt | src/services/local_image_service.py:83-87 | with distinct keys, looking up an entry's key finds that entry's file |
| ReviewReport.SkuCell | src/utils/report_writer.py:47-51 | the SKU column is 25 characters: the id cut to 24, then spaces |
| ReviewReport.ShownError | src/utils/report_writer.py:49 | the last error, or "Unknown error" when it is missing or empty |
| ReviewReport.ErrorCell | src/utils/report_writer.py:49-51 | the error column is 30 characters: the shown error cut to 29, then spaces |
| ReviewReport.Row | src/utils/report_writer.py:51 | a row is the SKU column, a separator, the time stamp padded to 20, a separator and the error column |
| ReviewReport.Rows | src/utils/report_writer.py:46-51 | one row per record, in input order |
| ReviewReport.Header | src/utils/report_writer.py:38-44 | eight lines: the title, "Generated: " and the time, a rule of 80 `=`, a blank line, the count line, a blank line, the column headings "SKU ID", "Processed At" and "Last Error" padded to 25, 20 and 30 between separators, and a line of `-` with the separators in the same places |
| ReviewReport.RowAlignsWithHeader | src/utils/report_writer.py:43-51 | a row whose time stamp fits 20 characters is as long as the heading lines and has its separators under theirs |
| ReviewReport.NeedsReviewReport | src/utils/report_writer.py:20-61 | nothing iff there are no records; otherwise the title, the count line, one row per record in order and the fixed footer |
| ReviewReport.CountReadsBack | src/utils/report_writer.py:41 | the count line reads back as the number of records |
| ReviewReport.SkuCellReadsBack | src/utils/report_writer.py:47-51 | a short id without trailing blanks is read back from its cell by stripping |
| ReviewReport.LongIdsCut | src/utils/report_writer.py:47 | ids agreeing on their first 24 characters get the same cell |

## Left out

- HTTP clients, retries, back-off, authentication and client construction (src/api/, src/services/image_search_service.py:15-28): providers, the download and the attach calls are function parameters. The enabled-source set and the priorities are inputs.
- Configuration loading (src/utils/config.py): the keyword, validation and search settings are records passed in.
- PIL decoding (src/services/image_validator.py:34-36): the decoder's verdict, a format and a size or an exception message, is an input.
- SQLite mechanics: connections, schema DDL, indexes, and timestamp text and its parsing. The `processing_log` table is never written by the modelled code. SQL `SUM` returning NULL on an empty table is also left out.
- Float rounding: scores and ratios are exact reals, so values exactly at a threshold may compare differently than IEEE doubles would.
- Time: clock readings are integers passed in. The `processing_time`, `started_at`, `completed_at` and `duration_seconds` fields of the report are not computed.
- The report's timestamp rendering is a parameter, and its file path, file name and file write (src/utils/report_writer.py:30-37) are left out.
- Logging and log text everywhere.
- `get_last_execution` (src/storage/state_manager.py:233-247): not used by the modelled code.
- Case mapping is ASCII only: Python's Unicode lower-casing is not modelled. Whitespace (`\s`, `str.strip`) is Python's full set (PyText.IsSpace).
- `load_skus_from_file` exits the process when the file is missing (scripts/test_with_manual_skus.py:84-86); the model takes the file's lines.
- The script's `main()`: argument parsing, SKU object construction (which relies on a field `SKU` lacks), printing and the success-rate summary.
- The local image folder is given as a listing of file names: `glob` matching directories and platform case rules are not modelled.
- Entry points, scheduling and smoke tests: src/main.py, src/scheduler/job_scheduler.py, scripts/quick_test.py, scripts/test_apis.py and scripts/setup_db.py.
- The abbreviation example "MEN-SHIRT-BLUE-L" yielding ["men", "shirt", "blue", "large"] is not evaluated as a whole; its parts are proved for all names: a `-` ends a token (Keywords.TokensAtSeparator), a run of letters and digits is one lower-cased token (Keywords.TokensOfWord), keywords follow token order (Keywords.PipelinePerToken), and a key expands to its own value (Keywords.ExpandAbbreviationLookup).
- The source breakdown is keyed by the source enum rather than by its string value; the two are in one-to-one correspondence (Models.SourceValueRoundTrip).
- SplitWords: its own contract gives the shape of the words; which words come out is stated by Keywords.SplitWordsAtDelim and Keywords.SplitWordsOfWord, which together fix the result for every text.
- Tokens: the contract fixes the letters and digits of the tokens and their order; where one token ends and the next begins is stated by Keywords.TokensAtSeparator and Keywords.TokensOfWord, which together fix the tokens of every name.
- CleanText: its contract gives the characters kept and their spacing, not the position of each space; that the spaces fall exactly where the name's separators were, as far as the words are concerned, is stated by Keywords.TokensOfReplaced and Keywords.TokensAtSeparator.
- ExpandAbbreviation: its own contract says only that the result is the word or some table value; the exact lookup is Keywords.ExpandAbbreviationLookup.
- WalkSources: its own contract bounds an accepted image's score; which candidate it is, is stated by Search.AcceptedOnLastSource, what an exhausted walk collected by Search.ExhaustedScoredAll, and when it raises on an unknown source by Search.UnknownSourceIff and Search.UnknownSourceValue.
- BatchRun and TallyAll: their own contracts give only lengths and the untouched counters; what they compute is stated by Processor.BatchRunAttempt and Processor.TallyAllCounts.
- AttachStep: the exact status and text of each failure are stated at the level of a whole attempt, by Processor.AttachRefusedFails and Processor.AttachRaisesFails.
- DownloadStep: the exact status and text of a failed download are stated by Processor.DownloadRaisesFails and Processor.InvalidImageNotUploaded.
- SearchStep: the exact status and text of a raised or empty search are stated by Processor.SearchRaisesFails and Processor.NotFoundNeedsReview.
- CountResults: its own contract gives only the sum of the counters; the count per verdict is ManualRun.VerdictsCounted.
- Models.NotAnImageSourceMessage: the value is quoted with single quotes, which is what Python's `repr` gives for strings without quotes or backslashes; `repr`'s other quoting and escaping rules are not modelled.

=== FILE: keywords.dfy ===
/** Keyword extraction: turns a SKU's display name into the ordered search
    terms that drive the image search.

    The pipeline is: lower-case; replace every character outside
    `[a-z0-9\s\-_]` by a space; collapse whitespace runs and strip; split on
    runs of `-`, `_` and whitespace; drop stopwords; expand abbreviations;
    optionally drop all-digit tokens; drop short tokens; keep the first
    `maxKeywords`.
 */
module Keywords {
  import opened PyText
  import opened Outcomes

  // ---------------------------------------------------------------------
  // Tables and configuration
  // ---------------------------------------------------------------------

  const Stopwords: set<string> :=
    {"a", "an", "the", "and", "or", "but", "in", "on", "at", "to", "for", "of", "with", "by"}

  /** The abbreviation dictionary, in its declaration order (keys are distinct). */
  const Abbreviations: seq<(string, string)> := [
    ("l", "large"), ("m", "medium"), ("s", "small"), ("xl", "extra large"),
    ("xxl", "double extra large"), ("xs", "extra small"),
    ("blu", "blue"), ("blk", "black"), ("wht", "white"), ("grn", "green"),
    ("rd", "red"), ("org", "orange"), ("ylw", "yellow"),
    ("mens", "men"), ("womens", "women"), ("kids", "children"),
    ("pc", "piece"), ("pcs", "pieces"), ("pkg", "package"),
    ("in", "inch"), ("ft", "feet"), ("cm", "centimeter")
  ]

  predicate IsAbbreviationValue(v: string) {
    exists i :: 0 <= i < |Abbreviations| && Abbreviations[i].1 == v
  }

  datatype Config = Config(minLength: int, maxKeywords: int, removeNumbers: bool,
                           expandAbbreviations: bool)

  /** The constructor defaults. */
  const DefaultConfig: Config := Config(3, 5, false, true)

  // ---------------------------------------------------------------------
  // clean_text
  // ---------------------------------------------------------------------

  /** Membership in the class `[a-z0-9\s\-_]` kept by the cleaning step. */
  predicate KeptByClean(c: char) {
    IsLowerAlnum(c) || IsSpace(c) || c == '-' || c == '_'
  }

  /** What a cleaned text may contain: `[a-z0-9]`, a single space, `-` or `_`. */
  predicate IsCleanChar(c: char) {
    IsLowerAlnum(c) || c == ' ' || c == '-' || c == '_'
  }

  /** `re.sub(r'[^a-z0-9\s\-_]', ' ', s)`. */
  function ReplaceDisallowed(s: string): (r: string)
    ensures |r| == |s|
    ensures forall i :: 0 <= i < |s| ==> r[i] == (if KeptByClean(s[i]) then s[i] else ' ')
  {
    seq(|s|, i requires 0 <= i < |s| => if KeptByClean(s[i]) then s[i] else ' ')
  }

  predicate AllKept(s: string) { forall i :: 0 <= i < |s| ==> KeptByClean(s[i]) }

  predicate AllClean(s: string) { forall i :: 0 <= i < |s| ==> IsCleanChar(s[i]) }

  predicate NoAlnum(s: string) { forall i :: 0 <= i < |s| ==> !IsLowerAlnum(s[i]) }

  /** No two spaces in a row. */
  predicate SingleSpaced(s: string) {
    forall i :: 0 <= i < |s| - 1 ==> !(s[i] == ' ' && s[i + 1] == ' ')
  }

  /** The characters of `s` that are not whitespace, in order. */
  function Visible(s: string): string
    decreases |s|
  {
    if |s| == 0 then "" else (if IsSpace(s[0]) then "" else [s[0]]) + Visible(s[1..])
  }

  /** The characters of `s` in `[a-z0-9]`, in order. */
  function Alnums(s: string): string
    decreases |s|
  {
    if |s| == 0 then "" else (if IsLowerAlnum(s[0]) then [s[0]] else "") + Alnums(s[1..])
  }

  /** The recursion behind `CollapseSpaces`, read one character at a time:
      a whitespace character followed by another is dropped, and the last
      of a run becomes a space. */
  function Squeeze(s: string): string
    decreases |s|
  {
    if |s| == 0 then ""
    else if IsSpace(s[0]) && |s| > 1 && IsSpace(s[1]) then Squeeze(s[1..])
    else [if IsSpace(s[0]) then ' ' else s[0]] + Squeeze(s[1..])
  }

  /** Squeezing leaves single spaces as the only whitespace, and keeps the
      first character unless it is whitespace, which becomes a space. */
  lemma {:induction false} SqueezeSpacing(s: string)
    ensures var r := Squeeze(s);
      && (|r| == 0 <==> |s| == 0)
      && (|s| > 0 && IsSpace(s[0]) ==> r[0] == ' ')
      && (|s| > 0 && !IsSpace(s[0]) ==> r[0] == s[0])
      && (forall i :: 0 <= i < |r| && IsSpace(r[i]) ==> r[i] == ' ')
      && SingleSpaced(r)
    decreases |s|
  {
    if |s| > 0 {
      SqueezeSpacing(s[1..]);
      if !(IsSpace(s[0]) && |s| > 1 && IsSpace(s[1])) {
        var rest := Squeeze(s[1..]);
        assert ([if IsSpace(s[0]) then ' ' else s[0]] + rest)[1..] == rest;
      }
    }
  }

  /** Squeezing keeps every character that is not whitespace, in order. */
  lemma {:induction false} SqueezeVisible(s: string)
    ensures Visible(Squeeze(s)) == Visible(s)
    decreases |s|
  {
    if |s| > 0 {
      SqueezeVisible(s[1..]);
      if !(IsSpace(s[0]) && |s| > 1 && IsSpace(s[1])) {
        var rest := Squeeze(s[1..]);
        assert ([if IsSpace(s[0]) then ' ' else s[0]] + rest)[1..] == rest;
      }
    }
  }

  /** Squeezing a kept text gives a clean one, and adds no letter or digit. */
  lemma {:induction false} SqueezeKeeps(s: string)
    ensures AllKept(s) ==> AllClean(Squeeze(s))
    ensures NoAlnum(s) ==> NoAlnum(Squeeze(s))
    decreases |s|
  {
    if |s| > 0 {
      SqueezeKeeps(s[1..]);
      assert AllKept(s) ==> AllKept(s[1..]);
      assert NoAlnum(s) ==> NoAlnum(s[1..]);
      if !(IsSpace(s[0]) && |s| > 1 && IsSpace(s[1])) {
        var rest := Squeeze(s[1..]);
        assert ([if IsSpace(s[0]) then ' ' else s[0]] + rest)[1..] == rest;
      }
    }
  }

  /** `re.sub(r'\s+', ' ', s)`: every whitespace run becomes one space and
      every other character stays, in order. */
  function CollapseSpaces(s: string): (r: string)
    ensures |r| == 0 <==> |s| == 0
    ensures |s| > 0 && IsSpace(s[0]) ==> r[0] == ' '
    ensures |s| > 0 && !IsSpace(s[0]) ==> r[0] == s[0]
    ensures forall i :: 0 <= i < |r| && IsSpace(r[i]) ==> r[i] == ' '
    ensures SingleSpaced(r)
    ensures Visible(r) == Visible(s)
    ensures AllKept(s) ==> AllClean(r)
    ensures NoAlnum(s) ==> NoAlnum(r)
  {
    SqueezeSpacing(s);
    SqueezeVisible(s);
    SqueezeKeeps(s);
    Squeeze(s)
  }

  /** A character that is not whitespace cuts the collapsing in two. */
  lemma {:induction false} CollapseAtVisible(a: string, c: char, b: string)
    requires !IsSpace(c)
    ensures CollapseSpaces(a + [c] + b) == CollapseSpaces(a) + [c] + CollapseSpaces(b)
    decreases |a|
  {
    if |a| == 0 {
      assert a + [c] + b == [c] + b;
      assert ([c] + b)[1..] == b;
    } else {
      var s := a + [c] + b;
      assert s[0] == a[0] && s[1..] == a[1..] + [c] + b;
      CollapseAtVisible(a[1..], c, b);
      if IsSpace(a[0]) && |a| > 1 && IsSpace(a[1]) {
        assert IsSpace(s[1]);
        assert CollapseSpaces(s) == CollapseSpaces(s[1..]);
      } else {
        assert !(IsSpace(s[0]) && IsSpace(s[1]));
        var x := if IsSpace(a[0]) then ' ' else a[0];
        assert CollapseSpaces(s) == [x] + CollapseSpaces(s[1..]);
        assert CollapseSpaces(a) == [x] + CollapseSpaces(a[1..]);
      }
    }
  }

  /** A non-empty whitespace run collapses to one space. */
  lemma {:induction false} CollapseRun(w: string)
    requires |w| > 0 && forall i :: 0 <= i < |w| ==> IsSpace(w[i])
    ensures CollapseSpaces(w) == " "
    decreases |w|
  {
    if |w| > 1 {
      CollapseRun(w[1..]);
      assert Squeeze(w) == Squeeze(w[1..]);
    } else {
      assert Squeeze(w) == [' '] + Squeeze("");
    }
  }

  /** Collapsing changes nothing in a text whose only whitespace is single spaces. */
  lemma {:induction false} CollapseFixpoint(s: string)
    requires forall i :: 0 <= i < |s| && IsSpace(s[i]) ==> s[i] == ' '
    requires SingleSpaced(s)
    ensures CollapseSpaces(s) == s
    decreases |s|
  {
    if |s| > 0 {
      var t := s[1..];
      forall i | 0 <= i < |t| - 1 ensures !(t[i] == ' ' && t[i + 1] == ' ') {
        assert t[i] == s[i + 1] && t[i + 1] == s[i + 2];
      }
      forall i | 0 <= i < |t| && IsSpace(t[i]) ensures t[i] == ' ' {
        assert t[i] == s[i + 1];
      }
      CollapseFixpoint(t);
      if |s| > 1 {
        assert !(s[0] == ' ' && s[1] == ' ');
        assert !(IsSpace(s[0]) && IsSpace(s[1]));
      }
      assert (if IsSpace(s[0]) then ' ' else s[0]) == s[0];
      assert s == [s[0]] + t;
    }
  }

  lemma {:induction false} VisibleAppend(a: string, b: string)
    ensures Visible(a + b) == Visible(a) + Visible(b)
    decreases |a|
  {
    if |a| > 0 {
      assert (a + b)[1..] == a[1..] + b;
      VisibleAppend(a[1..], b);
    } else {
      assert a + b == b;
    }
  }

  lemma {:induction false} VisibleOfSpaces(w: string)
    requires forall i :: 0 <= i < |w| ==> IsSpace(w[i])
    ensures Visible(w) == ""
    decreases |w|
  {
    if |w| > 0 {
      VisibleOfSpaces(w[1..]);
    }
  }

  /** The characters `strip` keeps are those of `s` after the leading whitespace. */
  lemma StripAt(s: string, i: int)
    requires 0 <= i < |Strip(s)|
    ensures LeadingSpaces(s) + i < |s| && Strip(s)[i] == s[LeadingSpaces(s) + i]
  {
    var k, r := LeadingSpaces(s), Strip(s);
    assert r[i] == s[k..k + |r|][i];
  }

  /** Stripping keeps a cleaned text clean and single-spaced, and adds no
      letter or digit. */
  lemma StripKeeps(s: string)
    ensures AllClean(s) ==> AllClean(Strip(s))
    ensures NoAlnum(s) ==> NoAlnum(Strip(s))
    ensures SingleSpaced(s) ==> SingleSpaced(Strip(s))
  {
    var r := Strip(s);
    forall i | 0 <= i < |r| ensures r[i] == s[LeadingSpaces(s) + i] {
      StripAt(s, i);
    }
  }

  lemma {:induction false} LStripKeepsVisible(s: string)
    ensures Visible(LStrip(s)) == Visible(s)
    decreases |s|
  {
    if |s| > 0 && IsSpace(s[0]) {
      LStripKeepsVisible(s[1..]);
    }
  }

  lemma {:induction false} RStripKeepsVisible(s: string)
    ensures Visible(RStrip(s)) == Visible(s)
    decreases |s|
  {
    if |s| > 0 && IsSpace(s[|s| - 1]) {
      var init := s[..|s| - 1];
      RStripKeepsVisible(init);
      assert s == init + [s[|s| - 1]];
      VisibleAppend(init, [s[|s| - 1]]);
      assert Visible([s[|s| - 1]]) == "" + Visible([]);
    }
  }

  /** Stripping drops whitespace only. */
  lemma StripKeepsVisible(s: string)
    ensures Visible(Strip(s)) == Visible(s)
  {
    LStripKeepsVisible(s);
    RStripKeepsVisible(LStrip(s));
  }

  /** Stripping changes nothing in a text with no whitespace at either end. */
  lemma StripFixpoint(s: string)
    requires |s| > 0 ==> !IsSpace(s[0]) && !IsSpace(s[|s| - 1])
    ensures Strip(s) == s
  {
    if |s| > 0 {
      assert LeadingSpaces(s) == 0;
    }
  }

  /** `clean_text`: lower-case, replace, collapse, strip.  The result holds
      only `[a-z0-9]`, `-`, `_` and single inner spaces, and keeps every
      character of the lower-cased, replaced name that is not whitespace,
      in order. */
  function CleanText(text: string): (r: string)
    ensures AllClean(r) && SingleSpaced(r)
    ensures |r| > 0 ==> r[0] != ' ' && r[|r| - 1] != ' '
    ensures Visible(r) == Visible(ReplaceDisallowed(Lower(text)))
    ensures NoAlnum(Lower(text)) ==> NoAlnum(r)
  {
    var replaced := ReplaceDisallowed(Lower(text));
    assert AllKept(replaced);
    assert NoAlnum(Lower(text)) ==> NoAlnum(replaced);
    var collapsed := CollapseSpaces(replaced);
    var r := Strip(collapsed);
    StripKeeps(collapsed);
    StripKeepsVisible(collapsed);
    r
  }

  /** Cleaning a cleaned text changes nothing. */
  lemma CleanTextIdempotent(text: string)
    ensures CleanText(CleanText(text)) == CleanText(text)
  {
    var c := CleanText(text);
    ReplaceFixpoint(c);
    CollapseFixpoint(c);
    StripFixpoint(c);
  }

  /** Lower-casing and replacing leave a text over the cleaned alphabet unchanged. */
  lemma ReplaceFixpoint(c: string)
    requires AllClean(c)
    ensures ReplaceDisallowed(Lower(c)) == c
  {
    LowerOfNoUpper(c);
    assert forall i :: 0 <= i < |c| ==> KeptByClean(c[i]);
  }

  lemma {:induction false} AlnumsAppend(a: string, b: string)
    ensures Alnums(a + b) == Alnums(a) + Alnums(b)
    decreases |a|
  {
    if |a| > 0 {
      assert (a + b)[1..] == a[1..] + b;
      AlnumsAppend(a[1..], b);
    } else {
      assert a + b == b;
    }
  }

  /** Keeping the non-whitespace characters keeps every letter and digit. */
  lemma {:induction false} AlnumsOfVisible(s: string)
    ensures Alnums(Visible(s)) == Alnums(s)
    decreases |s|
  {
    if |s| > 0 {
      AlnumsOfVisible(s[1..]);
      AlnumsAppend(if IsSpace(s[0]) then "" else [s[0]], Visible(s[1..]));
    }
  }

  /** Replacing disallowed characters by spaces keeps every letter and digit. */
  lemma {:induction false} AlnumsOfReplaced(s: string)
    ensures Alnums(ReplaceDisallowed(s)) == Alnums(s)
    decreases |s|
  {
    if |s| > 0 {
      assert ReplaceDisallowed(s)[1..] == ReplaceDisallowed(s[1..]);
      AlnumsOfReplaced(s[1..]);
    }
  }

  /** The cleaned name holds the letters and digits of the lower-cased name, in order. */
  lemma CleanTextKeepsAlnums(text: string)
    ensures Alnums(CleanText(text)) == Alnums(Lower(text))
  {
    var replaced := ReplaceDisallowed(Lower(text));
    AlnumsOfVisible(CleanText(text));
    AlnumsOfVisible(replaced);
    AlnumsOfReplaced(Lower(text));
  }

  // ---------------------------------------------------------------------
  // split_words
  // ---------------------------------------------------------------------

  /** Membership in the class `[-_\s]`. */
  predicate IsWordDelim(c: char) {
    c == '-' || c == '_' || IsSpace(c)
  }

  /** The delimiter characters of `s`, in order. */
  function Delims(s: string): string
    decreases |s|
  {
    if |s| == 0 then "" else (if IsWordDelim(s[0]) then [s[0]] else "") + Delims(s[1..])
  }

  /** The pieces with one delimiter between consecutive ones:
      `pieces[0] + ds[0] + pieces[1] + ... + pieces[|ds|]`. */
  function Interleave(pieces: seq<string>, ds: string): string
    requires |pieces| == |ds| + 1
    decreases |ds|
  {
    if |ds| == 0 then pieces[0] else pieces[0] + [ds[0]] + Interleave(pieces[1..], ds[1..])
  }

  /** Extending the first piece extends the interleaving at its front. */
  lemma InterleaveHead(c: char, rest: seq<string>, ds: string)
    requires |rest| == |ds| + 1
    ensures Interleave([[c] + rest[0]] + rest[1..], ds) == [c] + Interleave(rest, ds)
  {
    var pieces := [[c] + rest[0]] + rest[1..];
    if |ds| > 0 {
      assert pieces[1..] == rest[1..];
    }
  }

  /** The pieces between delimiter characters, empty pieces included: one
      more piece than delimiters, and putting the delimiters back between
      them gives the text. */
  function SplitAtDelims(s: string): (r: seq<string>)
    ensures |r| == |Delims(s)| + 1
    ensures Interleave(r, Delims(s)) == s
    ensures forall i, k :: 0 <= i < |r| && 0 <= k < |r[i]| ==> !IsWordDelim(r[i][k]) && r[i][k] in s
    ensures (forall j :: 0 <= j < |s| ==> IsWordDelim(s[j])) ==> forall i :: 0 <= i < |r| ==> r[i] == ""
    decreases |s|
  {
    if |s| == 0 then [""]
    else
      var rest := SplitAtDelims(s[1..]);
      if IsWordDelim(s[0]) then
        assert ([""] + rest)[1..] == rest;
        [""] + rest
      else
        var first := [s[0]] + rest[0];
        assert forall k :: 1 <= k < |first| ==> first[k] == rest[0][k - 1];
        assert Delims(s) == Delims(s[1..]);
        InterleaveHead(s[0], rest, Delims(s[1..]));
        assert s == [s[0]] + s[1..];
        [first] + rest[1..]
  }

  /** One character in front: a delimiter opens a new empty piece, any
      other character joins the first piece. */
  lemma SplitAtDelimsCons(c: char, t: string)
    ensures SplitAtDelims([c] + t) ==
            if IsWordDelim(c) then [""] + SplitAtDelims(t)
            else [[c] + SplitAtDelims(t)[0]] + SplitAtDelims(t)[1..]
  {
    assert ([c] + t)[1..] == t;
  }

  /** A delimiter cuts the pieces in two. */
  lemma {:induction false} SplitAtDelimsAppend(a: string, d: char, b: string)
    requires IsWordDelim(d)
    ensures SplitAtDelims(a + [d] + b) == SplitAtDelims(a) + SplitAtDelims(b)
    decreases |a|
  {
    if |a| == 0 {
      assert a + [d] + b == [d] + b;
      SplitAtDelimsCons(d, b);
    } else {
      var c, a1 := a[0], a[1..];
      assert a == [c] + a1;
      assert a + [d] + b == [c] + (a1 + [d] + b);
      SplitAtDelimsAppend(a1, d, b);
      SplitAtDelimsCons(c, a1 + [d] + b);
      SplitAtDelimsCons(c, a1);
      var ra, rb := SplitAtDelims(a1), SplitAtDelims(b);
      JoinFirstPiece(c, IsWordDelim(c), ra, rb);
    }
  }

  /** Adding a character in front of the pieces and appending more pieces
      can be done in either order. */
  lemma JoinFirstPiece(c: char, isDelim: bool, ra: seq<string>, rb: seq<string>)
    requires |ra| > 0
    ensures var rest := ra + rb;
            (if isDelim then [""] + rest else [[c] + rest[0]] + rest[1..]) ==
            (if isDelim then [""] + ra else [[c] + ra[0]] + ra[1..]) + rb
  {
    var rest := ra + rb;
    assert rest[0] == ra[0] && rest[1..] == ra[1..] + rb;
  }

  /** A text without delimiters is one piece. */
  lemma {:induction false} SplitAtDelimsOfWord(w: string)
    requires forall k :: 0 <= k < |w| ==> !IsWordDelim(w[k])
    ensures SplitAtDelims(w) == [w]
    decreases |w|
  {
    if |w| > 0 {
      SplitAtDelimsOfWord(w[1..]);
      assert w == [w[0]] + w[1..];
    }
  }

  predicate NonEmpty(w: string) { |w| > 0 }

  /** `split_words`: `re.split(r'[-_\s]+', text)` without its empty pieces.
      Splitting at every delimiter and dropping empty pieces gives the same
      words as splitting at maximal delimiter runs. */
  function SplitWords(text: string): (r: seq<string>)
    ensures forall i :: 0 <= i < |r| ==> |r[i]| > 0
    ensures forall i, k :: 0 <= i < |r| && 0 <= k < |r[i]| ==> !IsWordDelim(r[i][k]) && r[i][k] in text
    ensures (forall j :: 0 <= j < |text| ==> IsWordDelim(text[j])) ==> r == []
  {
    var pieces := SplitAtDelims(text);
    var r := Filter(pieces, NonEmpty);
    assert forall i :: 0 <= i < |r| ==> r[i] in pieces;
    r
  }

  /** A delimiter separates the words before it from those after it. */
  lemma SplitWordsAtDelim(a: string, d: char, b: string)
    requires IsWordDelim(d)
    ensures SplitWords(a + [d] + b) == SplitWords(a) + SplitWords(b)
  {
    SplitAtDelimsAppend(a, d, b);
    FilterAppend(SplitAtDelims(a), SplitAtDelims(b), NonEmpty);
  }

  /** A non-empty text without delimiters is one word. */
  lemma SplitWordsOfWord(w: string)
    requires |w| > 0 && forall k :: 0 <= k < |w| ==> !IsWordDelim(w[k])
    ensures SplitWords(w) == [w]
  {
    SplitAtDelimsOfWord(w);
    assert Filter([w], NonEmpty) == [w] + Filter([w][1..], NonEmpty);
  }

  /** Dropping empty strings leaves the concatenation alone. */
  lemma {:induction false} ConcatNonEmpty(xs: seq<string>)
    ensures Concat(Filter(xs, NonEmpty)) == Concat(xs)
    decreases |xs|
  {
    if |xs| > 0 {
      ConcatNonEmpty(xs[1..]);
      if |xs[0]| > 0 {
        assert Filter(xs, NonEmpty) == [xs[0]] + Filter(xs[1..], NonEmpty);
        assert ([xs[0]] + Filter(xs[1..], NonEmpty))[1..] == Filter(xs[1..], NonEmpty);
      }
    }
  }

  /** The pieces of a cleaned text spell its letters and digits. */
  lemma {:induction false} ConcatPieces(s: string)
    requires AllClean(s)
    ensures Concat(SplitAtDelims(s)) == Alnums(s)
    decreases |s|
  {
    if |s| > 0 {
      var t := s[1..];
      assert AllClean(t);
      ConcatPieces(t);
      var rest := SplitAtDelims(t);
      if !IsWordDelim(s[0]) {
        assert IsLowerAlnum(s[0]);
        var r := [[s[0]] + rest[0]] + rest[1..];
        assert r[1..] == rest[1..];
        calc {
          Concat(r);
          r[0] + Concat(rest[1..]);
          [s[0]] + (rest[0] + Concat(rest[1..]));
          [s[0]] + Concat(rest);
          [s[0]] + Alnums(t);
          Alnums(s);
        }
      } else {
        assert !IsLowerAlnum(s[0]);
        assert ([""] + rest)[1..] == rest;
        assert Concat([""] + rest) == "" + Concat(rest);
      }
    }
  }

  /** A token produced by splitting a cleaned name: non-empty, over `[a-z0-9]`. */
  predicate IsToken(w: string) {
    |w| > 0 && forall k :: 0 <= k < |w| ==> IsLowerAlnum(w[k])
  }

  /** The tokens of a name, before any filtering: words over `[a-z0-9]`
      that, joined, spell the letters and digits of the lower-cased name. */
  function Tokens(name: string): (r: seq<string>)
    ensures forall i :: 0 <= i < |r| ==> IsToken(r[i])
    ensures Concat(r) == Alnums(Lower(name))
  {
    var cleaned := CleanText(name);
    WordsOfCleanText(cleaned);
    CleanTextKeepsAlnums(name);
    SplitWords(cleaned)
  }

  // ---------------------------------------------------------------------
  // Where the tokens break
  // ---------------------------------------------------------------------

  /** Delimiters in front of a text add no word. */
  lemma SplitWordsDropsLeading(x: string, y: string)
    requires forall k :: 0 <= k < |x| ==> IsWordDelim(x[k])
    ensures SplitWords(x + y) == SplitWords(y)
  {
    if |x| > 0 {
      var init := x[..|x| - 1];
      assert forall j :: 0 <= j < |init| ==> IsWordDelim(init[j]);
      assert SplitWords(init) == [];
      assert x + y == init + [x[|x| - 1]] + y;
      SplitWordsAtDelim(init, x[|x| - 1], y);
      assert [] + SplitWords(y) == SplitWords(y);
    } else {
      assert x + y == y;
    }
  }

  /** Delimiters behind a text add no word. */
  lemma SplitWordsDropsTrailing(y: string, z: string)
    requires forall k :: 0 <= k < |z| ==> IsWordDelim(z[k])
    ensures SplitWords(y + z) == SplitWords(y)
  {
    if |z| > 0 {
      var rest := z[1..];
      assert forall j :: 0 <= j < |rest| ==> IsWordDelim(rest[j]);
      assert SplitWords(rest) == [];
      assert y + z == y + [z[0]] + rest;
      SplitWordsAtDelim(y, z[0], rest);
      assert SplitWords(y) + [] == SplitWords(y);
    } else {
      assert y + z == y;
    }
  }

  /** Delimiters on both sides of a slice add no word. */
  lemma SplitWordsOfMiddle(s: string, k: nat, r: string)
    requires k + |r| <= |s| && r == s[k..k + |r|]
    requires forall i :: 0 <= i < k ==> IsSpace(s[i])
    requires forall i :: k + |r| <= i < |s| ==> IsSpace(s[i])
    ensures SplitWords(r) == SplitWords(s)
  {
    var head, tail := s[..k], s[k + |r|..];
    assert forall i :: 0 <= i < |head| ==> IsWordDelim(head[i]);
    assert forall i :: 0 <= i < |tail| ==> IsWordDelim(tail[i]);
    assert s == head + (r + tail);
    SplitWordsDropsLeading(head, r + tail);
    SplitWordsDropsTrailing(r, tail);
  }

  /** Stripping moves no word boundary: it drops whitespace at the ends only. */
  lemma SplitWordsOfStrip(s: string)
    ensures SplitWords(Strip(s)) == SplitWords(s)
  {
    SplitWordsOfMiddle(s, LeadingSpaces(s), Strip(s));
  }

  /** The index of the first whitespace character of `s`, or `|s|` when there is none. */
  function FirstSpace(s: string): (j: nat)
    ensures j <= |s| && (j < |s| ==> IsSpace(s[j]))
    ensures forall k :: 0 <= k < j ==> !IsSpace(s[k])
    decreases |s|
  {
    if |s| == 0 || IsSpace(s[0]) then 0 else 1 + FirstSpace(s[1..])
  }

  /** Squeezing a text that starts with whitespace either drops that
      character or makes it one space. */
  lemma SqueezeFrontShape(s: string)
    requires |s| > 0 && IsSpace(s[0])
    ensures Squeeze(s) == Squeeze(s[1..]) || Squeeze(s) == [' '] + Squeeze(s[1..])
  {
  }

  /** A delimiter in front adds no word. */
  lemma SplitWordsDelimCons(d: char, t: string)
    requires IsWordDelim(d)
    ensures SplitWords([d] + t) == SplitWords(t)
  {
    assert [d] + t == "" + [d] + t;
    SplitWordsAtDelim("", d, t);
    assert SplitWords("") == [];
  }

  /** A delimiter in front adds no word, whether it is dropped or kept as one space. */
  lemma SplitWordsDelimFront(s: string, cs: string, cb: string)
    requires |s| > 0 && IsWordDelim(s[0])
    requires SplitWords(cb) == SplitWords(s[1..])
    requires cs == cb || cs == [' '] + cb
    ensures SplitWords(cs) == SplitWords(s)
  {
    assert s == [s[0]] + s[1..];
    SplitWordsDelimCons(s[0], s[1..]);
    if cs != cb {
      SplitWordsDelimCons(' ', cb);
    }
  }

  /** A whitespace character in front adds no word, squeezed or not. */
  lemma SplitWordsOfSqueezeFront(s: string)
    requires |s| > 0 && IsSpace(s[0])
    requires SplitWords(Squeeze(s[1..])) == SplitWords(s[1..])
    ensures SplitWords(Squeeze(s)) == SplitWords(s)
  {
    SqueezeFrontShape(s);
    SplitWordsDelimFront(s, Squeeze(s), Squeeze(s[1..]));
  }

  /** A text that starts with whitespace squeezes to one that starts with a space. */
  lemma SqueezeStartsWithSpace(t: string)
    requires |t| > 0 && IsSpace(t[0])
    ensures |Squeeze(t)| > 0 && Squeeze(t)[0] == ' '
  {
    SqueezeSpacing(t);
  }

  predicate NoSpace(w: string) { forall k :: 0 <= k < |w| ==> !IsSpace(w[k]) }

  /** A prefix without whitespace squeezes to itself. */
  lemma {:induction false} SqueezeAfterWord(w: string, t: string)
    requires NoSpace(w)
    ensures Squeeze(w + t) == w + Squeeze(t)
    decreases |w|
  {
    if |w| == 0 {
      assert w + t == t;
    } else {
      var tail := w[1..];
      assert (w + t)[1..] == tail + t;
      assert NoSpace(tail) by {
        forall k | 0 <= k < |tail| ensures !IsSpace(tail[k]) { assert tail[k] == w[k + 1]; }
      }
      SqueezeAfterWord(tail, t);
      assert w == [w[0]] + tail;
    }
  }

  /** A text that starts with a delimiter adds its words after those before it. */
  lemma SplitWordsAtDelimFront(a: string, b: string)
    requires |b| > 0 && IsWordDelim(b[0])
    ensures SplitWords(a + b) == SplitWords(a) + SplitWords(b)
  {
    var rest := b[1..];
    assert b == [b[0]] + rest;
    assert a + b == a + [b[0]] + rest;
    SplitWordsAtDelim(a, b[0], rest);
    SplitWordsDelimCons(b[0], rest);
  }

  /** Words on both sides of a delimiter stay apart when the delimiter and
      what follows it are rewritten into words-equivalent text. */
  lemma SplitWordsAfterWord(a: string, t: string, u: string, cs: string)
    requires |t| > 0 && IsWordDelim(t[0])
    requires SplitWords([' '] + u) == SplitWords(t)
    requires cs == a + ([' '] + u)
    ensures SplitWords(cs) == SplitWords(a + t)
  {
    SplitWordsAtDelimFront(a, [' '] + u);
    SplitWordsAtDelimFront(a, t);
  }

  /** Squeezing whitespace runs moves no word boundary. */
  lemma {:induction false} SplitWordsOfSqueeze(s: string)
    ensures SplitWords(Squeeze(s)) == SplitWords(s)
    decreases |s|
  {
    var j := FirstSpace(s);
    if j == |s| {
      SqueezeAfterWord(s, "");
      assert s + "" == s;
    } else if j == 0 {
      SplitWordsOfSqueeze(s[1..]);
      SplitWordsOfSqueezeFront(s);
    } else {
      var a, t := s[..j], s[j..];
      assert s == a + t;
      SplitWordsOfSqueeze(t);
      SqueezeAfterWordSpace(a, t);
      SplitWordsAfterWord(a, t, Squeeze(t)[1..], Squeeze(s));
    }
  }

  /** A whitespace-free prefix in front of whitespace squeezes to itself
      followed by one space. */
  lemma SqueezeAfterWordSpace(a: string, t: string)
    requires NoSpace(a) && |t| > 0 && IsSpace(t[0])
    ensures |Squeeze(t)| > 0 && Squeeze(t) == [' '] + Squeeze(t)[1..]
    ensures Squeeze(a + t) == a + ([' '] + Squeeze(t)[1..])
  {
    SqueezeStartsWithSpace(t);
    assert Squeeze(t) == [' '] + Squeeze(t)[1..];
    SqueezeAfterWord(a, t);
  }

  /** The tokens are the words of the lower-cased name with every character
      outside `[a-z0-9\s\-_]` made a space: collapsing and stripping move no
      boundary. */
  lemma TokensOfReplaced(name: string)
    ensures Tokens(name) == SplitWords(ReplaceDisallowed(Lower(name)))
  {
    var replaced := ReplaceDisallowed(Lower(name));
    assert CleanText(name) == Strip(Squeeze(replaced));
    SplitWordsOfStrip(Squeeze(replaced));
    SplitWordsOfSqueeze(replaced);
  }

  /** A character that is no letter or digit once lower-cased separates the
      tokens on its two sides. */
  lemma TokensAtSeparator(a: string, c: char, b: string)
    requires !IsLowerAlnum(LowerChar(c))
    ensures Tokens(a + [c] + b) == Tokens(a) + Tokens(b)
  {
    var d := if KeptByClean(LowerChar(c)) then LowerChar(c) else ' ';
    var ra, rb := ReplaceDisallowed(Lower(a)), ReplaceDisallowed(Lower(b));
    var s := a + [c] + b;
    assert ReplaceDisallowed(Lower(s)) == ra + [d] + rb by {
      forall k | 0 <= k < |s| ensures ReplaceDisallowed(Lower(s))[k] == (ra + [d] + rb)[k] {
        if k < |a| {
          assert s[k] == a[k];
        } else if k > |a| {
          assert s[k] == b[k - |a| - 1];
        }
      }
    }
    TokensOfReplaced(s);
    TokensOfReplaced(a);
    TokensOfReplaced(b);
    SplitWordsAtDelim(ra, d, rb);
  }

  /** A non-empty run of letters and digits is one token, lower-cased. */
  lemma TokensOfWord(w: string)
    requires |w| > 0 && forall k :: 0 <= k < |w| ==> IsLowerAlnum(LowerChar(w[k]))
    ensures Tokens(w) == [Lower(w)]
  {
    var l := Lower(w);
    assert SplitWords(ReplaceDisallowed(l)) == [l] by {
      assert ReplaceDisallowed(l) == l;
      SplitWordsOfWord(l);
    }
    TokensOfReplaced(w);
  }

  /** The words of a cleaned text are made of its letters and digits only,
      and spell all of them. */
  lemma WordsOfCleanText(text: string)
    requires AllClean(text)
    ensures forall i :: 0 <= i < |SplitWords(text)| ==> IsToken(SplitWords(text)[i])
    ensures Concat(SplitWords(text)) == Alnums(text)
  {
    var r := SplitWords(text);
    forall i, k | 0 <= i < |r| && 0 <= k < |r[i]| ensures IsLowerAlnum(r[i][k]) {
      var j :| 0 <= j < |text| && text[j] == r[i][k];
      assert IsCleanChar(text[j]);
    }
    ConcatNonEmpty(SplitAtDelims(text));
    ConcatPieces(text);
  }

  // ---------------------------------------------------------------------
  // remove_stopwords, expand_abbreviation
  // ---------------------------------------------------------------------

  /** A word whose lower case is no stopword. */
  predicate NotStopword(w: string) { Lower(w) !in Stopwords }

  /** `remove_stopwords`. */
  function RemoveStopwords(words: seq<string>): (r: seq<string>)
    ensures forall i :: 0 <= i < |r| ==> Lower(r[i]) !in Stopwords && r[i] in words
    ensures forall i :: 0 <= i < |words| && Lower(words[i]) !in Stopwords ==> words[i] in r
  {
    Filter(words, NotStopword)
  }

  /** `dict.get(key)` on the abbreviation table: the first entry with that key. */
  function LookupAbbreviation(table: seq<(string, string)>, key: string): (r: Option<string>)
    ensures r.Some? <==> exists i :: 0 <= i < |table| && table[i].0 == key
    ensures r.Some? ==> exists i :: 0 <= i < |table| && table[i].0 == key && table[i].1 == r.value
    decreases |table|
  {
    if |table| == 0 then None
    else if table[0].0 == key then Some(table[0].1)
    else
      var r := LookupAbbreviation(table[1..], key);
      assert forall i :: 1 <= i < |table| ==> table[i] == table[1..][i - 1];
      r
  }

  /** The table's keys are distinct, as those of a dictionary are. */
  lemma AbbreviationKeysDistinct()
    ensures forall i, j :: 0 <= i < j < |Abbreviations| ==> Abbreviations[i].0 != Abbreviations[j].0
  {
  }

  /** `expand_abbreviation`: the table value for the lower-cased word, else the word. */
  function ExpandAbbreviation(word: string): (r: string)
    ensures r == word || IsAbbreviationValue(r)
  {
    match LookupAbbreviation(Abbreviations, Lower(word))
    case Some(v) => v
    case None => word
  }

  /**
   * `ABBREVIATIONS.get(word.lower(), word)`: the value stored under the
   * lower-cased word when there is one (the keys are distinct, so it is
   * the only one), and the word itself unchanged otherwise.
   */
  lemma ExpandAbbreviationLookup(word: string)
    ensures forall i :: 0 <= i < |Abbreviations| && Abbreviations[i].0 == Lower(word) ==>
              ExpandAbbreviation(word) == Abbreviations[i].1
    ensures (forall i :: 0 <= i < |Abbreviations| ==> Abbreviations[i].0 != Lower(word)) ==>
              ExpandAbbreviation(word) == word
  {
    AbbreviationKeysDistinct();
    forall i | 0 <= i < |Abbreviations| && Abbreviations[i].0 == Lower(word)
      ensures ExpandAbbreviation(word) == Abbreviations[i].1
    {
      LookupDistinct(Abbreviations, Lower(word), i);
    }
  }

  /** In a table with distinct keys, a lookup finds the entry holding the key. */
  lemma {:induction false} LookupDistinct(table: seq<(string, string)>, key: string, i: int)
    requires forall i, j :: 0 <= i < j < |table| ==> table[i].0 != table[j].0
    requires 0 <= i < |table| && table[i].0 == key
    ensures LookupAbbreviation(table, key) == Some(table[i].1)
    decreases |table|
  {
    if i > 0 {
      var t := table[1..];
      assert table[0].0 != key;
      assert forall a, b :: 0 <= a < b < |t| ==> t[a].0 == table[a + 1].0 && t[b].0 == table[b + 1].0;
      assert t[i - 1] == table[i];
      LookupDistinct(t, key, i - 1);
    }
  }

  /** No expansion is a stopword, so expanding cannot reintroduce one. */
  lemma AbbreviationValuesAreNotStopwords(v: string)
    requires IsAbbreviationValue(v)
    ensures v !in Stopwords
  {
    var i :| 0 <= i < |Abbreviations| && Abbreviations[i].1 == v;
    assert |v| >= 3;
  }

  // ---------------------------------------------------------------------
  // extract_keywords
  // ---------------------------------------------------------------------

  /** `[expand_abbreviation(w) for w in words]` when expansion is on. */
  function ExpandAll(words: seq<string>, expand: bool): (r: seq<string>)
    ensures |r| == |words|
    ensures forall i :: 0 <= i < |r| ==> r[i] == if expand then ExpandAbbreviation(words[i]) else words[i]
  {
    if expand then Map(words, ExpandAbbreviation) else words
  }

  /** A word that is not all digits. */
  predicate NotNumber(w: string) { !IsAllDigits(w) }

  /** `[w for w in words if not w.isdigit()]` when number removal is on. */
  function DropNumbers(words: seq<string>, remove: bool): (r: seq<string>)
    ensures forall i :: 0 <= i < |r| ==> r[i] in words
    ensures remove ==> forall i :: 0 <= i < |r| ==> !IsAllDigits(r[i])
    ensures remove ==> forall i :: 0 <= i < |words| && !IsAllDigits(words[i]) ==> words[i] in r
    ensures !remove ==> r == words
  {
    if remove then Filter(words, NotNumber) else words
  }

  /** `[w for w in words if len(w) >= min_length]`. */
  function DropShort(words: seq<string>, minLength: int): (r: seq<string>)
    ensures forall i :: 0 <= i < |r| ==> |r[i]| >= minLength
    ensures forall i :: 0 <= i < |words| && |words[i]| >= minLength ==> words[i] in r
  {
    Filter(words, (w: string) => |w| >= minLength)
  }

  /** What may reach the output: no stopword, and a raw token or an expansion. */
  predicate Acceptable(cfg: Config, w: string) {
    w !in Stopwords && (IsToken(w) || (cfg.expandAbbreviations && IsAbbreviationValue(w)))
  }

  /** The list stages of `extract_keywords` applied to a token list, before truncation. */
  function Pipeline(cfg: Config, tokens: seq<string>): seq<string> {
    DropShort(DropNumbers(ExpandAll(RemoveStopwords(tokens), cfg.expandAbbreviations), cfg.removeNumbers),
              cfg.minLength)
  }

  /** The tokens of a name that survive stopword removal, expansion and the
      filters, before the list is cut to `maxKeywords`. */
  function Candidates(cfg: Config, name: string): seq<string> {
    Pipeline(cfg, Tokens(name))
  }

  /** What one token contributes, taken on its own: nothing for a stopword;
      otherwise the token, expanded when expansion is on, unless it is all
      digits and numbers are removed, or it is shorter than the minimum. */
  function KeywordOf(cfg: Config, t: string): Option<string> {
    if !NotStopword(t) then None
    else
      var w := if cfg.expandAbbreviations then ExpandAbbreviation(t) else t;
      if cfg.removeNumbers && IsAllDigits(w) then None
      else if |w| < cfg.minLength then None
      else Some(w)
  }

  /** What one token contributes, as a list. */
  function Contribution(cfg: Config, t: string): seq<string> {
    match KeywordOf(cfg, t)
    case Some(w) => [w]
    case None => []
  }

  /** The contributions of the tokens, in token order. */
  function PerToken(cfg: Config, tokens: seq<string>): seq<string>
    decreases |tokens|
  {
    if |tokens| == 0 then []
    else
      Contribution(cfg, tokens[0]) + PerToken(cfg, tokens[1..])
  }

  lemma RemoveStopwordsCons(t: string, ts: seq<string>)
    ensures RemoveStopwords([t] + ts) == (if NotStopword(t) then [t] else []) + RemoveStopwords(ts)
  {
    FilterCons(t, ts, NotStopword);
  }

  lemma ExpandAllCons(w: string, ws: seq<string>, expand: bool)
    ensures ExpandAll([w] + ws, expand) == [if expand then ExpandAbbreviation(w) else w] + ExpandAll(ws, expand)
  {
    if expand {
      MapCons(w, ws, ExpandAbbreviation);
    }
  }

  lemma DropNumbersCons(w: string, ws: seq<string>, remove: bool)
    ensures DropNumbers([w] + ws, remove) == (if remove && IsAllDigits(w) then [] else [w]) + DropNumbers(ws, remove)
  {
    if remove {
      FilterCons(w, ws, NotNumber);
    }
  }

  lemma DropShortCons(w: string, ws: seq<string>, minLength: int)
    ensures DropShort([w] + ws, minLength) == (if |w| >= minLength then [w] else []) + DropShort(ws, minLength)
  {
    assert ([w] + ws)[1..] == ws;
  }

  /** The list stages of one token in front of the rest: its contribution
      followed by what the rest gives. */
  lemma PipelineCons(cfg: Config, t: string, rest: seq<string>)
    ensures Pipeline(cfg, [t] + rest) == Contribution(cfg, t) + Pipeline(cfg, rest)
  {
    var e, rn, ml := cfg.expandAbbreviations, cfg.removeNumbers, cfg.minLength;
    var kept := RemoveStopwords(rest);
    RemoveStopwordsCons(t, rest);
    if NotStopword(t) {
      var w := if e then ExpandAbbreviation(t) else t;
      var ex := ExpandAll(kept, e);
      ExpandAllCons(t, kept, e);
      assert ExpandAll(RemoveStopwords([t] + rest), e) == [w] + ex;
      var dn := DropNumbers(ex, rn);
      DropNumbersCons(w, ex, rn);
      if rn && IsAllDigits(w) {
        assert DropNumbers([w] + ex, rn) == dn;
      } else {
        assert DropNumbers([w] + ex, rn) == [w] + dn;
        DropShortCons(w, dn, ml);
      }
    }
  }

  /** The list stages taken one after the other give what the tokens
      contribute one at a time: the keywords keep the order of the tokens
      they come from. */
  lemma {:induction false} PipelinePerToken(cfg: Config, tokens: seq<string>)
    ensures Pipeline(cfg, tokens) == PerToken(cfg, tokens)
    decreases |tokens|
  {
    if |tokens| > 0 {
      var t, rest := tokens[0], tokens[1..];
      assert tokens == [t] + rest;
      PipelinePerToken(cfg, rest);
      PipelineCons(cfg, t, rest);
    }
  }

  /** What the output may hold under `cfg`: long enough, acceptable, and
      not all digits when numbers are removed. */
  predicate Kept(cfg: Config, w: string) {
    |w| >= cfg.minLength && Acceptable(cfg, w) && (cfg.removeNumbers ==> !IsAllDigits(w))
  }

  /** `extract_keywords`: the first `maxKeywords` (a Python slice) of what
      the name's tokens contribute, in token order; every keyword is long
      enough, no stopword, not numeric when numbers are removed, and either
      a `[a-z0-9]+` token or an abbreviation's expansion. */
  function ExtractKeywords(cfg: Config, name: string): (r: seq<string>)
    ensures r == Take(PerToken(cfg, Tokens(name)), cfg.maxKeywords)
    ensures |r| <= |Candidates(cfg, name)| && r == Candidates(cfg, name)[..|r|]
    ensures cfg.maxKeywords >= 0 ==> |r| <= cfg.maxKeywords
    ensures cfg.maxKeywords >= 0 && cfg.maxKeywords <= |Candidates(cfg, name)| ==> |r| == cfg.maxKeywords
    ensures cfg.maxKeywords >= |Candidates(cfg, name)| ==> r == Candidates(cfg, name)
    ensures forall i :: 0 <= i < |r| ==> |r[i]| >= cfg.minLength
    ensures forall i :: 0 <= i < |r| ==> Acceptable(cfg, r[i])
    ensures cfg.removeNumbers ==> forall i :: 0 <= i < |r| ==> !IsAllDigits(r[i])
  {
    var c := Candidates(cfg, name);
    CandidatesKept(cfg, name);
    PipelinePerToken(cfg, Tokens(name));
    var r := Take(c, cfg.maxKeywords);
    PrefixKept(cfg, c, |r|);
    r
  }

  /** Every word of a list of kept words. */
  predicate EveryKept(cfg: Config, ws: seq<string>) {
    forall i :: 0 <= i < |ws| ==> Kept(cfg, ws[i])
  }

  /** A prefix of kept words is kept. */
  lemma PrefixKept(cfg: Config, ws: seq<string>, n: nat)
    requires EveryKept(cfg, ws) && n <= |ws|
    ensures EveryKept(cfg, ws[..n])
  {
    assert forall i :: 0 <= i < n ==> ws[..n][i] == ws[i];
  }

  /** Every candidate is kept: stopwords go before expansion, no expansion
      is a stopword, and the two filters come last. */
  lemma CandidatesKept(cfg: Config, name: string)
    ensures EveryKept(cfg, Candidates(cfg, name))
  {
    var kept := RemoveStopwords(Tokens(name));
    KeptTokensAcceptable(cfg, kept);
    var expanded := ExpandAll(kept, cfg.expandAbbreviations);
    ExpansionAcceptable(cfg, kept);
    FiltersKeep(cfg, expanded);
  }

  /** The number and length filters keep only kept words of acceptable ones. */
  lemma FiltersKeep(cfg: Config, expanded: seq<string>)
    requires forall i :: 0 <= i < |expanded| ==> Acceptable(cfg, expanded[i])
    ensures EveryKept(cfg, DropShort(DropNumbers(expanded, cfg.removeNumbers), cfg.minLength))
  {
    var numbersOut := DropNumbers(expanded, cfg.removeNumbers);
    forall i | 0 <= i < |numbersOut| ensures Acceptable(cfg, numbersOut[i]) {
      var j :| 0 <= j < |expanded| && expanded[j] == numbersOut[i];
    }
    var out := DropShort(numbersOut, cfg.minLength);
    forall i | 0 <= i < |out| ensures Kept(cfg, out[i]) {
      var j :| 0 <= j < |numbersOut| && numbersOut[j] == out[i];
    }
  }

  /** Tokens that passed stopword removal are acceptable. */
  lemma KeptTokensAcceptable(cfg: Config, kept: seq<string>)
    requires forall i :: 0 <= i < |kept| ==> IsToken(kept[i]) && Lower(kept[i]) !in Stopwords
    ensures forall i :: 0 <= i < |kept| ==> Acceptable(cfg, kept[i])
  {
    forall i | 0 <= i < |kept| ensures Acceptable(cfg, kept[i]) {
      TokenIsLower(kept[i]);
    }
  }

  /** Expansion keeps every word acceptable: an expansion is no stopword. */
  lemma ExpansionAcceptable(cfg: Config, kept: seq<string>)
    requires forall i :: 0 <= i < |kept| ==> Acceptable(cfg, kept[i])
    ensures forall i :: 0 <= i < |ExpandAll(kept, cfg.expandAbbreviations)| ==>
              Acceptable(cfg, ExpandAll(kept, cfg.expandAbbreviations)[i])
  {
    var expanded := ExpandAll(kept, cfg.expandAbbreviations);
    forall i | 0 <= i < |expanded| ensures Acceptable(cfg, expanded[i]) {
      if expanded[i] != kept[i] {
        AbbreviationValuesAreNotStopwords(expanded[i]);
      }
    }
  }

  /** A token is already lower case. */
  lemma TokenIsLower(w: string)
    requires IsToken(w)
    ensures Lower(w) == w
  {
    assert forall k :: 0 <= k < |w| ==> Lower(w)[k] == w[k];
  }

  /** Every abbreviation key starts with a letter. */
  lemma AbbreviationKeysStartWithLetters()
    ensures forall t :: 0 <= t < |Abbreviations| ==> |Abbreviations[t].0| > 0 && IsAsciiLower(Abbreviations[t].0[0])
  {
  }

  /** An all-digit word is no abbreviation key, so expansion leaves it alone. */
  lemma DigitWordNotExpanded(w: string)
    requires IsToken(w) && IsAllDigits(w)
    ensures ExpandAbbreviation(w) == w
  {
    TokenIsLower(w);
    assert IsDigit(w[0]);
    AbbreviationKeysStartWithLetters();
    assert forall t :: 0 <= t < |Abbreviations| ==> Abbreviations[t].0 != Lower(w);
    ExpandAbbreviationLookup(w);
  }

  /** A word starting with a digit is no stopword. */
  lemma DigitWordNotStopword(w: string)
    requires |w| > 0 && IsDigit(w[0])
    ensures w !in Stopwords
  {
    forall v | v in Stopwords ensures |v| > 0 && !IsDigit(v[0]) { }
  }

  /** Without number removal, an all-digit token that is long enough reaches
      the candidates unchanged: digits are no stopword and no abbreviation key. */
  lemma DigitTokensSurvive(cfg: Config, name: string, w: string)
    requires !cfg.removeNumbers
    requires w in Tokens(name) && IsAllDigits(w) && |w| >= cfg.minLength
    ensures w in Candidates(cfg, name)
  {
    var tokens := Tokens(name);
    var j :| 0 <= j < |tokens| && tokens[j] == w;
    assert IsToken(w);
    TokenIsLower(w);
    DigitWordNotStopword(w);
    var kept := RemoveStopwords(tokens);
    assert w in kept;
    var i :| 0 <= i < |kept| && kept[i] == w;
    DigitWordNotExpanded(w);
    var expanded := ExpandAll(kept, cfg.expandAbbreviations);
    assert expanded[i] == w;
    var numbersOut := DropNumbers(expanded, cfg.removeNumbers);
    assert numbersOut == expanded;
    assert DropShort(numbersOut, cfg.minLength) == Candidates(cfg, name);
  }

  /** A name with nothing in `[A-Za-z0-9]` yields no keywords. */
  lemma NoAlnumNoKeywords(cfg: Config, name: string)
    requires forall i :: 0 <= i < |name| ==> !IsLowerAlnum(LowerChar(name[i]))
    ensures ExtractKeywords(cfg, name) == []
  {
    var cleaned := CleanText(name);
    assert NoAlnum(Lower(name));
    assert forall i :: 0 <= i < |cleaned| ==> IsWordDelim(cleaned[i]);
  }
}

=== FILE: localimages.dfy ===
/** Matching SKUs with image files in a local folder.

    The folder is indexed once: for each supported extension in turn, and
    for each file name ending with it in listing order, the lower-cased stem
    of the name becomes a key; the first file seen for a key wins.  Lookup is
    case-insensitive, and a file that cannot be read is reported as absent.
 */
module LocalImages {
  import opened PyText
  import opened Outcomes

  /** The extensions indexed, in the order they are scanned. */
  const Extensions: seq<string> := [".jpg", ".jpeg", ".png", ".gif", ".webp"]

  // ---------------------------------------------------------------------
  // File names
  // ---------------------------------------------------------------------

  /** The index of the last `c` in `s`, or -1. */
  function RFind(s: string, c: char): (i: int)
    ensures -1 <= i < |s|
    ensures i >= 0 ==> s[i] == c
    ensures forall j :: i < j < |s| ==> s[j] != c
    decreases |s|
  {
    if |s| == 0 then -1
    else if s[|s| - 1] == c then |s| - 1
    else RFind(s[..|s| - 1], c)
  }

  /** Whether a name has a suffix in the path-library sense: a last dot that
      is neither its first nor its last character. */
  predicate HasSuffix(name: string) {
    0 < RFind(name, '.') < |name| - 1
  }

  /** The final component's name without its suffix. */
  function Stem(name: string): (r: string)
    ensures |r| <= |name| && r == name[..|r|]
  {
    if HasSuffix(name) then name[..RFind(name, '.')] else name
  }

  /** The suffix, dot included, or "" when there is none. */
  function Suffix(name: string): (r: string)
    ensures |r| <= |name| && r == name[|name| - |r|..]
    ensures |r| > 0 ==> r[0] == '.' && '.' !in r[1..]
  {
    if HasSuffix(name) then name[RFind(name, '.')..] else ""
  }

  /** Stem and suffix split the name. */
  lemma StemSuffixSplit(name: string)
    ensures Stem(name) + Suffix(name) == name
  {
  }

  /** An extension as scanned: a dot followed by at least one character, none a dot. */
  predicate IsExtension(ext: string) {
    |ext| >= 2 && ext[0] == '.' && '.' !in ext[1..]
  }

  lemma ExtensionsWellFormed()
    ensures forall i :: 0 <= i < |Extensions| ==> IsExtension(Extensions[i])
  {
  }

  /** A file found for an extension has that extension as its suffix and the
      rest of its name as its stem, unless the name is the bare extension. */
  lemma StemOfMatch(name: string, ext: string)
    requires IsExtension(ext) && EndsWith(name, ext) && |name| > |ext|
    ensures Suffix(name) == ext && Stem(name) == name[..|name| - |ext|]
  {
    var d := |name| - |ext|;
    assert name[d..] == ext;
    assert name[d] == '.';
    forall j | d < j < |name| ensures name[j] != '.' {
      assert name[j] == ext[j - d] == ext[1..][j - d - 1];
    }
    assert RFind(name, '.') == d;
  }

  /** A file named exactly like an extension has no suffix: it is its own stem. */
  lemma BareExtensionIsStem(ext: string)
    requires IsExtension(ext)
    ensures Stem(ext) == ext && Suffix(ext) == ""
  {
    forall j | 0 < j < |ext| ensures ext[j] != '.' {
      assert ext[j] == ext[1..][j - 1];
    }
    assert RFind(ext, '.') == 0;
  }

  /** The index key of a file: its lower-cased stem. */
  function KeyOf(name: string): string {
    Lower(Stem(name))
  }

  // ---------------------------------------------------------------------
  // Building the index
  // ---------------------------------------------------------------------

  /** The files in scanning order: by extension, then in listing order. */
  function Candidates(exts: seq<string>, listing: seq<string>): (r: seq<string>)
    ensures forall i :: 0 <= i < |r| ==> r[i] in listing
    decreases |exts|
  {
    if |exts| == 0 then []
    else Filter(listing, (n: string) => EndsWith(n, exts[0])) + Candidates(exts[1..], listing)
  }

  /** A file is scanned exactly when its name ends with a supported extension. */
  lemma {:induction false} CandidatesExact(exts: seq<string>, listing: seq<string>, name: string)
    requires name in listing
    ensures name in Candidates(exts, listing) <==> exists i :: 0 <= i < |exts| && EndsWith(name, exts[i])
    decreases |exts|
  {
    if |exts| > 0 {
      CandidatesExact(exts[1..], listing, name);
      var f := Filter(listing, (n: string) => EndsWith(n, exts[0]));
      if EndsWith(name, exts[0]) {
        var j :| 0 <= j < |listing| && listing[j] == name;
        assert name in f;
      }
      if exists i :: 0 <= i < |exts| && EndsWith(name, exts[i]) {
        var i :| 0 <= i < |exts| && EndsWith(name, exts[i]);
        if i > 0 {
          assert exts[1..][i - 1] == exts[i];
        }
      }
      if name in Candidates(exts[1..], listing) {
        var i :| 0 <= i < |exts[1..]| && EndsWith(name, exts[1..][i]);
        assert exts[i + 1] == exts[1..][i];
      }
    }
  }

  /** The index: (key, file name) entries in insertion order. */
  type Index = seq<(string, string)>

  /** The file stored under `k`, if any. */
  function Lookup(index: Index, k: string): (r: Option<string>)
    ensures r.None? <==> forall i :: 0 <= i < |index| ==> index[i].0 != k
    decreases |index|
  {
    if |index| == 0 then None
    else if index[0].0 == k then Some(index[0].1)
    else Lookup(index[1..], k)
  }

  /** A lookup in an index grown by one entry. */
  lemma {:induction false} LookupSnoc(index: Index, e: (string, string), k: string)
    ensures Lookup(index + [e], k)
         == if Lookup(index, k).Some? then Lookup(index, k) else if e.0 == k then Some(e.1) else None
    decreases |index|
  {
    if |index| == 0 {
      assert index + [e] == [e];
    } else {
      assert (index + [e])[1..] == index[1..] + [e];
      LookupSnoc(index[1..], e, k);
    }
  }

  /** Every entry is keyed by its file's key. */
  predicate WellKeyed(index: Index) {
    forall i :: 0 <= i < |index| ==> index[i].0 == KeyOf(index[i].1)
  }

  predicate DistinctKeys(index: Index) {
    forall i, j :: 0 <= i < j < |index| ==> index[i].0 != index[j].0
  }

  /** Scanning one file: a new key is added, a duplicate is ignored. */
  function Insert(index: Index, name: string): (r: Index)
    ensures WellKeyed(index) ==> WellKeyed(r)
    ensures DistinctKeys(index) ==> DistinctKeys(r)
    ensures |index| <= |r| <= |index| + 1 && r[..|index|] == index
  {
    var k := KeyOf(name);
    if Lookup(index, k).Some? then index else index + [(k, name)]
  }

  /** The index after scanning `files` in order, starting from `index`. */
  function BuildFrom(index: Index, files: seq<string>): (r: Index)
    ensures WellKeyed(index) ==> WellKeyed(r)
    ensures DistinctKeys(index) ==> DistinctKeys(r)
    ensures |r| <= |index| + |files|
    decreases |files|
  {
    if |files| == 0 then index else BuildFrom(Insert(index, files[0]), files[1..])
  }

  /** The first file in `files` whose key is `k`: the reference for what the
      index holds. */
  function FirstFor(files: seq<string>, k: string): (r: Option<string>)
    ensures r.Some? ==> r.value in files && KeyOf(r.value) == k
    ensures r.None? <==> forall i :: 0 <= i < |files| ==> KeyOf(files[i]) != k
    decreases |files|
  {
    if |files| == 0 then None
    else if KeyOf(files[0]) == k then Some(files[0])
    else FirstFor(files[1..], k)
  }

  /** Scanning keeps, for every key, the first file seen with that key:
      later duplicates never replace it. */
  lemma {:induction false} BuildKeepsFirst(index: Index, files: seq<string>, k: string)
    ensures Lookup(BuildFrom(index, files), k)
         == if Lookup(index, k).Some? then Lookup(index, k) else FirstFor(files, k)
    decreases |files|
  {
    if |files| > 0 {
      InsertLookup(index, files[0], k);
      BuildKeepsFirst(Insert(index, files[0]), files[1..], k);
    }
  }

  /** A lookup after scanning one more file. */
  lemma InsertLookup(index: Index, name: string, k: string)
    ensures Lookup(Insert(index, name), k)
         == if Lookup(index, k).Some? then Lookup(index, k) else if KeyOf(name) == k then Some(name) else None
  {
    if Lookup(index, KeyOf(name)).None? {
      LookupSnoc(index, (KeyOf(name), name), k);
    }
  }

  /** `_build_sku_index` over the folder's file names. */
  function BuildIndex(listing: seq<string>): (index: Index)
    ensures WellKeyed(index) && DistinctKeys(index)
  {
    BuildFrom([], Candidates(Extensions, listing))
  }

  // ---------------------------------------------------------------------
  // The service
  // ---------------------------------------------------------------------

  /** What the file system says about the images folder. */
  datatype Folder = Folder(present: bool, isDirectory: bool, listing: seq<string>)

  datatype Service = Service(folder: string, index: Index)

  /** Opening the service on a folder: it must exist and be a directory. */
  function Open(path: string, f: Folder): (r: Reply<Service>)
    ensures !f.present ==> r == Threw("Images folder does not exist: " + path)
    ensures f.present && !f.isDirectory ==> r == Threw("Images path is not a directory: " + path)
    ensures r.Returned? ==> f.present && f.isDirectory && r.value.folder == path
    ensures r.Returned? ==> forall k :: Lookup(r.value.index, k) == FirstFor(Candidates(Extensions, f.listing), k)
  {
    if !f.present then Threw("Images folder does not exist: " + path)
    else if !f.isDirectory then Threw("Images path is not a directory: " + path)
    else
      var s := Service(path, BuildIndex(f.listing));
      assert forall k :: Lookup(s.index, k) == FirstFor(Candidates(Extensions, f.listing), k) by {
        forall k { BuildKeepsFirst([], Candidates(Extensions, f.listing), k); }
      }
      Returned(s)
  }

  /** `refresh_index`: the old index is discarded and the folder rescanned. */
  function Refresh(svc: Service, listing: seq<string>): (r: Service)
    ensures r.folder == svc.folder
    ensures forall k :: Lookup(r.index, k) == FirstFor(Candidates(Extensions, listing), k)
  {
    var r := svc.(index := BuildIndex(listing));
    assert forall k :: Lookup(r.index, k) == FirstFor(Candidates(Extensions, listing), k) by {
      forall k { BuildKeepsFirst([], Candidates(Extensions, listing), k); }
    }
    r
  }

  /** A found image: the SKU asked for, the file's name and its bytes. */
  datatype LocalImage = LocalImage(sku: string, fileName: string, data: seq<bv8>)

  /** `find_image_for_sku`; `read` stands for reading a file's bytes. */
  function Find(svc: Service, sku: string, read: string -> Reply<seq<bv8>>): (r: Option<LocalImage>)
    ensures Lookup(svc.index, Lower(sku)).None? ==> r.None?
    ensures Lookup(svc.index, Lower(sku)).Some? && read(Lookup(svc.index, Lower(sku)).value).Threw? ==> r.None?
    ensures r.Some? ==> r.value.sku == sku && Lookup(svc.index, Lower(sku)) == Some(r.value.fileName)
                        && read(r.value.fileName) == Returned(r.value.data)
    ensures r.Some? && WellKeyed(svc.index) ==> KeyOf(r.value.fileName) == Lower(sku)
  {
    match Lookup(svc.index, Lower(sku))
    case None => None
    case Some(name) =>
      LookupFindsEntry(svc.index, Lower(sku));
      match read(name)
      case Threw(_) => None
      case Returned(data) => Some(LocalImage(sku, name, data))
  }

  /** A successful lookup returns the file of an entry with that key. */
  lemma {:induction false} LookupFindsEntry(index: Index, k: string)
    requires Lookup(index, k).Some?
    ensures exists i :: 0 <= i < |index| && index[i] == (k, Lookup(index, k).value)
    decreases |index|
  {
    if index[0].0 != k {
      LookupFindsEntry(index[1..], k);
      var i :| 0 <= i < |index[1..]| && index[1..][i] == (k, Lookup(index, k).value);
      assert index[i + 1] == index[1..][i];
    }
  }

  /** Lookup ignores case: SKUs equal after lower-casing find the same image. */
  lemma FindIgnoresCase(svc: Service, a: string, b: string, read: string -> Reply<seq<bv8>>)
    requires Lower(a) == Lower(b)
    ensures Find(svc, a, read).Some? <==> Find(svc, b, read).Some?
    ensures Find(svc, a, read).Some? ==>
              Find(svc, a, read).value.fileName == Find(svc, b, read).value.fileName
              && Find(svc, a, read).value.data == Find(svc, b, read).value.data
  {
  }

  /** `get_available_skus`: the original-case stem of each indexed file, in
      index order. */
  function Available(svc: Service): (r: seq<string>)
    ensures |r| == |svc.index|
    ensures WellKeyed(svc.index) ==> forall i :: 0 <= i < |r| ==> Lower(r[i]) == svc.index[i].0
  {
    seq(|svc.index|, i requires 0 <= i < |svc.index| => Stem(svc.index[i].1))
  }

  /** Every available SKU is found again by lookup, and no two of them differ
      only in case. */
  lemma AvailableAreIndexed(svc: Service, i: int)
    requires WellKeyed(svc.index) && DistinctKeys(svc.index) && 0 <= i < |Available(svc)|
    ensures Lookup(svc.index, Lower(Available(svc)[i])) == Some(svc.index[i].1)
    ensures forall j :: 0 <= j < |Available(svc)| && j != i ==> Lower(Available(svc)[j]) != Lower(Available(svc)[i])
  {
    LookupAt(svc.index, i);
  }

  /** In an index with distinct keys, looking up an entry's key finds that entry. */
  lemma {:induction false} LookupAt(index: Index, i: int)
    requires DistinctKeys(index) && 0 <= i < |index|
    ensures Lookup(index, index[i].0) == Some(index[i].1)
    decreases |index|
  {
    if i > 0 {
      assert index[0].0 != index[i].0;
      assert DistinctKeys(index[1..]) by {
        forall a, b | 0 <= a < b < |index[1..]| ensures index[1..][a].0 != index[1..][b].0 {
          assert index[1..][a] == index[a + 1] && index[1..][b] == index[b + 1];
        }
      }
      LookupAt(index[1..], i - 1);
      assert index[1..][i - 1] == index[i];
    }
  }
}

=== FILE: manualrun.dfy ===
/** The worklist helpers of the manual-SKU script: reading SKU ids from a
    file or a comma-separated argument, dropping those already processed
    successfully, applying the limit, and classifying each result. */
module ManualRun {
  import opened PyText
  import opened Models
  import opened StateStore
  import Processor

  // ---------------------------------------------------------------------
  // Reading the worklist
  // ---------------------------------------------------------------------

  /** Whether a stripped line names a SKU: it is not blank and not a comment. */
  predicate IsSkuLine(s: string) {
    |s| > 0 && !StartsWith(s, "#")
  }

  /** `load_skus_from_file` over the file's lines: the stripped lines that
      name a SKU, in file order. */
  function LoadSkuLines(lines: seq<string>): (r: seq<string>)
    ensures |r| <= |lines|
    ensures forall i :: 0 <= i < |r| ==> IsSkuLine(r[i]) && Strip(r[i]) == r[i]
    decreases |lines|
  {
    if |lines| == 0 then []
    else
      var rest := LoadSkuLines(lines[..|lines| - 1]);
      var s := Strip(lines[|lines| - 1]);
      StripIdempotent(lines[|lines| - 1]);
      if IsSkuLine(s) then rest + [s] else rest
  }

  /** Stripping twice is stripping once. */
  lemma StripIdempotent(s: string)
    ensures Strip(Strip(s)) == Strip(s)
  {
    var r := Strip(s);
    if |r| > 0 {
      assert LeadingSpaces(r) == 0;
      assert Strip(r) == r[..|Strip(r)|];
    }
  }

  /** Loading is the comprehension over the stripped lines: every line
      that names a SKU after stripping is kept, in file order, and nothing
      else. */
  lemma {:induction false} LoadSkuLinesIsFilter(lines: seq<string>)
    ensures LoadSkuLines(lines) == Filter(StripEach(lines), IsSkuLine)
    decreases |lines|
  {
    if |lines| > 0 {
      var init := lines[..|lines| - 1];
      LoadSkuLinesIsFilter(init);
      assert StripEach(lines) == StripEach(init) + [Strip(lines[|lines| - 1])];
      FilterSnoc(StripEach(init), Strip(lines[|lines| - 1]), IsSkuLine);
    }
  }

  /** The `--skus` argument: split on commas, each piece stripped; empty
      pieces stay. */
  function ParseSkuArg(arg: string): (r: seq<string>)
    ensures |r| == |Split(arg, ',')| && |r| >= 1
    ensures forall i :: 0 <= i < |r| ==> r[i] == Strip(Split(arg, ',')[i])
  {
    StripEach(Split(arg, ','))
  }

  function StripEach(xs: seq<string>): (r: seq<string>)
    ensures |r| == |xs|
    ensures forall i :: 0 <= i < |r| ==> r[i] == Strip(xs[i])
  {
    if |xs| == 0 then [] else [Strip(xs[0])] + StripEach(xs[1..])
  }

  /** When no piece carries surrounding spaces, joining the parsed ids with
      commas gives back the argument. */
  lemma ParseSkuArgRoundTrip(arg: string)
    requires forall i :: 0 <= i < |Split(arg, ',')| ==> Strip(Split(arg, ',')[i]) == Split(arg, ',')[i]
    ensures JoinWith(ParseSkuArg(arg), ",") == arg
  {
    assert ParseSkuArg(arg) == Split(arg, ',');
    SplitJoinRoundTrip(arg, ',');
  }

  // ---------------------------------------------------------------------
  // Filtering and limiting
  // ---------------------------------------------------------------------

  /** The ids, in order, with no successful processing record. */
  function Unprocessed(st: Store, ids: seq<string>): (r: seq<string>)
    ensures |r| <= |ids|
    ensures forall i :: 0 <= i < |r| ==> !IsSkuProcessed(st, r[i])
    decreases |ids|
  {
    if |ids| == 0 then []
    else
      var rest := Unprocessed(st, ids[..|ids| - 1]);
      if IsSkuProcessed(st, ids[|ids| - 1]) then rest else rest + [ids[|ids| - 1]]
  }

  /** Whether an id still needs processing: it has no successful record. */
  predicate Pending(st: Store, id: string) {
    !IsSkuProcessed(st, id)
  }

  /** The worklist is the comprehension over the ids: every pending id is
      kept, in input order, and nothing else. */
  lemma {:induction false} UnprocessedIsFilter(st: Store, ids: seq<string>)
    ensures Unprocessed(st, ids) == Filter(ids, id => Pending(st, id))
    decreases |ids|
  {
    if |ids| > 0 {
      var init := ids[..|ids| - 1];
      UnprocessedIsFilter(st, init);
      assert ids == init + [ids[|ids| - 1]];
      FilterSnoc(init, ids[|ids| - 1], id => Pending(st, id));
    }
  }

  /** `filter_already_processed`: with `force` everything is kept and nothing
      counted; otherwise the ids with a successful record are dropped and
      counted, the others kept in order. */
  method FilterAlreadyProcessed(ids: seq<string>, st: Store, force: bool) returns (toProcess: seq<string>, already: nat)
    ensures force ==> toProcess == ids && already == 0
    ensures !force ==> toProcess == Unprocessed(st, ids)
    ensures |toProcess| + already == |ids|
  {
    if force {
      return ids, 0;
    }
    toProcess, already := [], 0;
    var i := 0;
    while i < |ids|
      invariant 0 <= i <= |ids|
      invariant toProcess == Unprocessed(st, ids[..i])
      invariant |toProcess| + already == i
    {
      assert ids[..i + 1][..i] == ids[..i];
      var rec := GetRecord(st, ids[i]);
      if rec.None? {
        toProcess := toProcess + [ids[i]];
      } else if rec.value.status == Success {
        already := already + 1;
      } else {
        toProcess := toProcess + [ids[i]];
      }
      i := i + 1;
    }
    assert ids[..|ids|] == ids;
  }

  /** The SKUs to process this run and the number skipped as already done.
      With `skipCheck` the first `limit` ids are taken unfiltered; otherwise
      the limit applies after filtering.  Slicing follows Python, so a
      negative limit drops ids from the end. */
  method SelectWorklist(ids: seq<string>, st: Store, skipCheck: bool, force: bool, limit: int)
    returns (toProcess: seq<string>, skipped: nat)
    ensures skipCheck ==> toProcess == Take(ids, limit) && skipped == 0
    ensures !skipCheck && !force ==> toProcess == Take(Unprocessed(st, ids), limit)
    ensures !skipCheck && force ==> toProcess == Take(ids, limit) && skipped == 0
    ensures !skipCheck && !force ==> skipped == |ids| - |Unprocessed(st, ids)|
    ensures limit >= 0 ==> |toProcess| <= limit
  {
    if skipCheck {
      return Take(ids, limit), 0;
    }
    var filtered;
    filtered, skipped := FilterAlreadyProcessed(ids, st, force);
    toProcess := Take(filtered, limit);
  }

  // ---------------------------------------------------------------------
  // Classifying results
  // ---------------------------------------------------------------------

  datatype Verdict = Succeeded | ForReview | FailedRun

  const NoImageMarker: string := "No suitable image found"

  /** How the script counts one result: success first, then an error
      mentioning that no image was found, then everything else, a skipped
      SKU (no error) included. */
  function Classify(r: ProcessingResult): (v: Verdict)
    ensures v == Succeeded <==> r.success
    ensures v == ForReview <==> !r.success && r.error.Some? && Contains(r.error.value, NoImageMarker)
  {
    if r.success then Succeeded
    else if r.error.Some? && |r.error.value| > 0 && Contains(r.error.value, NoImageMarker) then ForReview
    else FailedRun
  }

  datatype Counts = Counts(successful: nat, failed: nat, needsReview: nat)

  /** The three counters after classifying every result. */
  function CountResults(results: seq<ProcessingResult>): (c: Counts)
    ensures c.successful + c.failed + c.needsReview == |results|
    decreases |results|
  {
    if |results| == 0 then Counts(0, 0, 0)
    else
      var c := CountResults(results[..|results| - 1]);
      match Classify(results[|results| - 1])
      case Succeeded => c.(successful := c.successful + 1)
      case ForReview => c.(needsReview := c.needsReview + 1)
      case FailedRun => c.(failed := c.failed + 1)
  }

  /** The successes counted are exactly the successful results. */
  lemma {:induction false} SuccessfulCounted(results: seq<ProcessingResult>)
    ensures CountResults(results).successful == |SuccessfulIndices(results)|
    decreases |results|
  {
    if |results| > 0 {
      var init := results[..|results| - 1];
      SuccessfulCounted(init);
      var n := |results| - 1;
      var a := SuccessfulIndices(init);
      assert SuccessfulIndices(results) == if results[n].success then a + {n} else a;
      assert n !in a;
    }
  }

  /** The positions of the successful results. */
  function SuccessfulIndices(results: seq<ProcessingResult>): (s: set<nat>)
    ensures forall i: nat :: i in s <==> i < |results| && results[i].success
  {
    set i: nat | i < |results| && results[i].success
  }

  /** The positions of the results the script classifies as `v`. */
  function VerdictIndices(results: seq<ProcessingResult>, v: Verdict): (s: set<nat>)
    ensures forall i: nat :: i in s <==> i < |results| && Classify(results[i]) == v
  {
    set i: nat | i < |results| && Classify(results[i]) == v
  }

  /** Each counter is the number of results with its verdict: the review
      counter those that failed with an error mentioning that no image was
      found, the failure counter every other unsuccessful one. */
  lemma {:induction false} VerdictsCounted(results: seq<ProcessingResult>)
    ensures CountResults(results).successful == |VerdictIndices(results, Succeeded)|
    ensures CountResults(results).needsReview == |VerdictIndices(results, ForReview)|
    ensures CountResults(results).failed == |VerdictIndices(results, FailedRun)|
    decreases |results|
  {
    if |results| > 0 {
      var init := results[..|results| - 1];
      VerdictsCounted(init);
      VerdictStep(results, Succeeded);
      VerdictStep(results, ForReview);
      VerdictStep(results, FailedRun);
    }
  }

  /** One more result adds its own position to its verdict's set. */
  lemma VerdictStep(results: seq<ProcessingResult>, v: Verdict)
    requires |results| > 0
    ensures |VerdictIndices(results, v)|
         == |VerdictIndices(results[..|results| - 1], v)| + (if Classify(results[|results| - 1]) == v then 1 else 0)
  {
    var n := |results| - 1;
    var a := VerdictIndices(results[..n], v);
    assert VerdictIndices(results, v) == if Classify(results[n]) == v then a + {n} else a;
    assert n !in a;
  }

  /** A SKU skipped by the processor, having no error, is counted as failed. */
  lemma SkippedCountsAsFailed(skuId: string)
    ensures Classify(PlainResult(skuId, false)) == FailedRun
  {
  }

  /** A SKU the processor sends to review is counted under review. */
  lemma ReviewCountedAsReview(svc: Processor.Services, st: Store, skuId: string, name: string)
    requires Processor.ProcessSingle(svc, st, skuId, name).write.Some?
    requires Processor.ProcessSingle(svc, st, skuId, name).write.value.status == NeedsReview
    ensures Classify(Processor.ProcessSingle(svc, st, skuId, name).result) == ForReview
  {
    assert StartsWith(Processor.NotFoundError, NoImageMarker);
  }
}

=== FILE: models.dfy ===
/** The records the pipeline passes between its components: processing
    status, image source, SKU, image search result, processing record,
    per-SKU result, batch report and execution history.  Timestamps are
    integer clock readings in seconds.
 */
module Models {
  import opened Outcomes

  // ---------------------------------------------------------------------
  // Enumerations and their stored string values
  // ---------------------------------------------------------------------

  datatype ProcessingStatus = Success | Failed | NeedsReview | Pending

  /** The `.value` string stored for a status. */
  function StatusValue(s: ProcessingStatus): string {
    match s
    case Success => "success"
    case Failed => "failed"
    case NeedsReview => "needs_review"
    case Pending => "pending"
  }

  /** `ProcessingStatus(v)`: the status whose value is `v`, if any. */
  function ParseStatus(v: string): (r: Option<ProcessingStatus>)
    ensures r.Some? ==> StatusValue(r.value) == v
  {
    if v == "success" then Some(Success)
    else if v == "failed" then Some(Failed)
    else if v == "needs_review" then Some(NeedsReview)
    else if v == "pending" then Some(Pending)
    else None
  }

  /** The stored values are exactly the four statuses: parsing inverts `StatusValue`. */
  lemma StatusValueRoundTrip(s: ProcessingStatus, v: string)
    ensures ParseStatus(StatusValue(s)) == Some(s)
    ensures ParseStatus(v).None? <==> v !in {"success", "failed", "needs_review", "pending"}
  {
  }

  datatype ImageSource = Freepik | Pexels | Pixabay | WebScraper | Manual

  /** All image sources, in declaration order. */
  const AllSources: seq<ImageSource> := [Freepik, Pexels, Pixabay, WebScraper, Manual]

  /** The `.value` string of an image source. */
  function SourceValue(s: ImageSource): string {
    match s
    case Freepik => "freepik"
    case Pexels => "pexels"
    case Pixabay => "pixabay"
    case WebScraper => "web_scraper"
    case Manual => "manual"
  }

  /** `ImageSource(v)`: the source whose value is `v`; `None` where Python raises `ValueError`. */
  function ParseSource(v: string): (r: Option<ImageSource>)
    ensures r.Some? ==> SourceValue(r.value) == v
  {
    if v == "freepik" then Some(Freepik)
    else if v == "pexels" then Some(Pexels)
    else if v == "pixabay" then Some(Pixabay)
    else if v == "web_scraper" then Some(WebScraper)
    else if v == "manual" then Some(Manual)
    else None
  }

  /** The source values are exactly five strings, and parsing inverts `SourceValue`. */
  lemma SourceValueRoundTrip(s: ImageSource, v: string)
    ensures ParseSource(SourceValue(s)) == Some(s)
    ensures ParseSource(v).None? <==> v !in {"freepik", "pexels", "pixabay", "web_scraper", "manual"}
    ensures s in AllSources
  {
  }

  /** The message of the `ValueError` raised by `ImageSource(v)` for an unknown value. */
  function NotAnImageSourceMessage(v: string): string {
    "'" + v + "' is not a valid ImageSource"
  }

  // ---------------------------------------------------------------------
  // Records
  // ---------------------------------------------------------------------

  datatype Sku = Sku(id: string, name: string, description: Option<string>,
                     category: Option<string>, hasImage: bool)

  /** A candidate image found by a provider.  `relevanceScore` is set by the search service. */
  datatype ImageResult = ImageResult(
    id: string,
    url: string,
    downloadUrl: string,
    source: ImageSource,
    title: Option<string>,
    width: int,
    height: int,
    fileSize: Option<int>,
    relevanceScore: real,
    photographer: Option<string>,
    photographerUrl: Option<string>)

  /** `width / height if height > 0 else 0`: an image's aspect ratio, as the
      `aspect_ratio` property and the validator compute it. */
  function AspectRatio(width: int, height: int): (r: real)
    ensures height > 0 ==> r * height as real == width as real
    ensures height <= 0 ==> r == 0.0
    ensures height > 0 && width >= 0 ==> r >= 0.0
  {
    if height > 0 then width as real / height as real else 0.0
  }

  /** One row of the per-SKU processing table. */
  datatype ProcessingRecord = ProcessingRecord(
    id: Option<nat>,
    skuId: string,
    status: ProcessingStatus,
    imageSource: Option<ImageSource>,
    imageUrl: Option<string>,
    relevanceScore: Option<real>,
    processedAt: int,
    attempts: int,
    lastError: Option<string>,
    createdAt: int)

  /** A record built with only the required fields: the defaults apply. */
  function NewProcessingRecord(skuId: string, status: ProcessingStatus, now: int): (r: ProcessingRecord)
    ensures r.skuId == skuId && r.status == status
    ensures r.attempts == 1
    ensures r.id.None? && r.imageSource.None? && r.imageUrl.None?
    ensures r.relevanceScore.None? && r.lastError.None?
    ensures r.processedAt == now && r.createdAt == now
  {
    ProcessingRecord(None, skuId, status, None, None, None, now, 1, None, now)
  }

  /** The outcome of processing one SKU. */
  datatype ProcessingResult = ProcessingResult(
    skuId: string,
    success: bool,
    imageAttached: bool,
    imageSource: Option<ImageSource>,
    relevanceScore: Option<real>,
    error: Option<string>)

  /** A result built with only `sku_id` and `success`. */
  function PlainResult(skuId: string, success: bool): ProcessingResult {
    ProcessingResult(skuId, success, false, None, None, None)
  }

  /** The summary of one batch.  `sourceBreakdown` counts successes per source. */
  datatype ProcessingReport = ProcessingReport(
    total: nat,
    successful: nat,
    failed: nat,
    skipped: nat,
    needsReview: nat,
    sourceBreakdown: map<ImageSource, nat>,
    errorSummary: seq<string>)

  /** A fresh report: every counter zero, no breakdown, no errors. */
  function NewReport(): (r: ProcessingReport)
    ensures r.total == 0 && r.successful == 0 && r.failed == 0
    ensures r.skipped == 0 && r.needsReview == 0
    ensures |r.sourceBreakdown| == 0 && |r.errorSummary| == 0
  {
    ProcessingReport(0, 0, 0, 0, 0, map[], [])
  }

  /** Percentage of successful SKUs, 0 for an empty batch. */
  function SuccessRate(r: ProcessingReport): (rate: real)
    ensures r.total == 0 ==> rate == 0.0
    ensures r.total > 0 ==> rate * r.total as real == r.successful as real * 100.0
    ensures r.total > 0 && r.successful <= r.total ==> 0.0 <= rate <= 100.0
  {
    if r.total == 0 then 0.0 else (r.successful as real / r.total as real) * 100.0
  }

  /** The count stored for `s` in a per-source breakdown, 0 when absent. */
  function CountFor(m: map<ImageSource, nat>, s: ImageSource): nat {
    if s in m then m[s] else 0
  }

  /** The sum of the values of a per-source breakdown. */
  function BreakdownTotal(m: map<ImageSource, nat>): nat {
    CountFor(m, Freepik) + CountFor(m, Pexels) + CountFor(m, Pixabay)
    + CountFor(m, WebScraper) + CountFor(m, Manual)
  }

  /** Adding one success for `s` raises that source's count and the total by one. */
  function Bump(m: map<ImageSource, nat>, s: ImageSource): (r: map<ImageSource, nat>)
    ensures BreakdownTotal(r) == BreakdownTotal(m) + 1
    ensures CountFor(r, s) == CountFor(m, s) + 1
    ensures forall t :: t != s ==> CountFor(r, t) == CountFor(m, t)
  {
    var r := m[s := CountFor(m, s) + 1];
    assert s == Freepik || s == Pexels || s == Pixabay || s == WebScraper || s == Manual;
    r
  }

  /** One row of the execution history table. */
  datatype ExecutionHistory = ExecutionHistory(
    id: nat,
    startedAt: int,
    completedAt: Option<int>,
    totalSkus: Option<int>,
    successful: Option<int>,
    failed: Option<int>,
    skipped: Option<int>,
    durationSeconds: Option<int>,
    triggerType: string)
}

=== FILE: outcomes.dfy ===
/** Optional values and the replies of collaborators that may raise.

    The pipeline calls code it cannot see (photo providers, the inventory
    service, the image decoder, the file system).  Each such call either
    returns a value or raises a Python exception; a raised exception is
    represented here by the text `str(e)` the pipeline would record.
 */
module Outcomes {

  /** Python's `Optional[T]`: `None` or a present value. */
  datatype Option<+T> = None | Some(value: T) {

    /** The value, or `default` when absent (Python's `x or default` for optionals). */
    function GetOr(default: T): T {
      match this
      case Some(v) => v
      case None => default
    }
  }

  /** What a call into a collaborator produced: a value, or an exception with its message. */
  datatype Reply<+T> = Returned(value: T) | Threw(message: string)
}

=== FILE: processor.dfy ===
/** Per-SKU orchestration and the batch tally.

    Processing one SKU is a decision tree over its collaborators: skip a SKU
    already processed, else extract keywords, search, download, validate and
    attach, recording exactly one state write on every other path.  Any
    exception after the skip check is recorded as a failure with its message.
    The batch counts each SKU once, as a success, a failure (any result with
    a non-empty error, needs-review ones included) or a skip.
 */
module Processor {
  import opened PyText
  import opened Outcomes
  import opened Models
  import opened StateStore
  import Keywords
  import Search
  import Validator

  /** Downloaded image bytes: their length and what decoding them gives. */
  datatype Payload = Payload(length: nat, decoded: Reply<Validator.Decoded>)

  /** The collaborators of the processor.  `download` and `attach` stand for
      the inventory service's file download and image attachment calls. */
  datatype Services = Services(
    keywords: Keywords.Config,
    search: Search.Env,
    validation: Validator.Config,
    download: string -> Reply<Payload>,
    attach: (string, Payload, string) -> Reply<bool>)

  /** A call into a collaborator that may have a visible effect or cost. */
  datatype Call =
    | Searched(keywords: seq<string>)
    | Downloaded(url: string)
    | Attached(skuId: string, fileName: string)

  /** The arguments of one `mark_sku_processed` call. */
  datatype Write = Write(status: ProcessingStatus, source: Option<ImageSource>, url: Option<string>,
                         score: Option<real>, error: Option<string>)

  /** What processing one SKU produced: its result, the state write it made
      (none for a skip) and the collaborator calls, in order. */
  datatype Attempt = Attempt(result: ProcessingResult, write: Option<Write>, calls: seq<Call>)

  const NoKeywordsError: string := "No keywords extracted from SKU name"
  const NotFoundError: string := "No suitable image found"
  const AttachFailedError: string := "Failed to attach image to SKU"

  /** The error recorded for an image that failed validation. */
  function ValidationError(errors: seq<Validator.ValidationError>): string {
    "Image validation failed: " + JoinWith(Validator.ErrorTexts(errors), ", ")
  }

  /** The uploaded file's name. */
  function FileName(skuId: string): string {
    skuId + ".jpg"
  }

  /** The write and the result of an attempt that reached the state store
      agree: same error, success exactly for a SUCCESS write, which records
      the image and no error; any other write is FAILED or NEEDS_REVIEW,
      carries an error and records no image. */
  predicate Recorded(a: Attempt) {
    a.write.Some? && a.write.value.error == a.result.error
    && (a.result.success <==> a.write.value.status == Success)
    && (a.result.success ==> a.result.imageAttached && a.result.imageSource.Some?
                             && a.result.error.None? && a.result.relevanceScore.Some?)
    && (a.write.value.status == Success ==>
          a.write.value.source.Some? && a.write.value.url.Some? && a.write.value.score.Some?)
    && (!a.result.success ==>
          (a.write.value.status == Failed || a.write.value.status == NeedsReview)
          && a.result.error.Some? && !a.result.imageAttached
          && a.write.value.source.None? && a.write.value.url.None? && a.write.value.score.None?)
    && (a.write.value.status == NeedsReview ==> a.result.error == Some(NotFoundError))
  }

  /** A failure with `error`: one FAILED write carrying it, and a result saying so. */
  function Fail(skuId: string, status: ProcessingStatus, error: string, calls: seq<Call>): (a: Attempt)
    ensures !a.result.success && !a.result.imageAttached && a.result.error == Some(error)
    ensures a.result.skuId == skuId
    ensures a.write == Some(Write(status, None, None, None, Some(error))) && a.calls == calls
    ensures status == Failed || (status == NeedsReview && error == NotFoundError) ==> Recorded(a)
  {
    Attempt(ProcessingResult(skuId, false, false, None, None, Some(error)),
            Some(Write(status, None, None, None, Some(error))), calls)
  }

  /** `process_single_sku` from the attach step on. */
  function AttachStep(svc: Services, skuId: string, image: ImageResult, payload: Payload,
                      calls: seq<Call>): (a: Attempt)
    ensures a.result.skuId == skuId && Recorded(a)
    ensures a.calls == calls + [Attached(skuId, FileName(skuId))]
  {
    var calls := calls + [Attached(skuId, FileName(skuId))];
    match svc.attach(skuId, payload, FileName(skuId))
    case Threw(m) => Fail(skuId, Failed, m, calls)
    case Returned(false) => Fail(skuId, Failed, AttachFailedError, calls)
    case Returned(true) =>
      Attempt(ProcessingResult(skuId, true, true, Some(image.source), Some(image.relevanceScore), None),
              Some(Write(Success, Some(image.source), Some(image.url), Some(image.relevanceScore), None)),
              calls)
  }

  /** `process_single_sku` from the download step on. */
  function DownloadStep(svc: Services, skuId: string, image: ImageResult, calls: seq<Call>): (a: Attempt)
    ensures a.result.skuId == skuId && Recorded(a)
    ensures |calls| + 1 <= |a.calls| <= |calls| + 2 && a.calls[..|calls|] == calls
    ensures a.calls[|calls|] == Downloaded(image.downloadUrl)
    ensures |a.calls| == |calls| + 2 ==> a.calls[|calls| + 1] == Attached(skuId, FileName(skuId))
    ensures a.result.success ==> |a.calls| == |calls| + 2
  {
    var calls := calls + [Downloaded(image.downloadUrl)];
    match svc.download(image.downloadUrl)
    case Threw(m) => Fail(skuId, Failed, m, calls)
    case Returned(payload) =>
      var v := Validator.Validate(svc.validation, payload.length, payload.decoded);
      if !v.isValid then Fail(skuId, Failed, ValidationError(v.errors), calls)
      else AttachStep(svc, skuId, image, payload, calls)
  }

  /** `process_single_sku` from the search on, for a non-empty keyword list. */
  function SearchStep(svc: Services, skuId: string, keywords: seq<string>): (a: Attempt)
    ensures a.result.skuId == skuId && Recorded(a)
    ensures 1 <= |a.calls| <= 3 && a.calls[0] == Searched(keywords)
    ensures |a.calls| >= 2 ==> a.calls[1].Downloaded?
    ensures |a.calls| == 3 ==> a.calls[2] == Attached(skuId, FileName(skuId))
    ensures a.result.success ==> |a.calls| == 3
  {
    var calls := [Searched(keywords)];
    match Search.SearchImage(svc.search, keywords)
    case Raised(m) => Fail(skuId, Failed, m, calls)
    case NotFound => Fail(skuId, NeedsReview, NotFoundError, calls)
    case Found(image) => DownloadStep(svc, skuId, image, calls)
  }

  /** `process_single_sku`, given the state store it reads. */
  function ProcessSingle(svc: Services, st: Store, skuId: string, name: string): (a: Attempt)
    ensures a.result.skuId == skuId
    ensures IsSkuProcessed(st, skuId) ==> a == Attempt(PlainResult(skuId, false), None, [])
    ensures !IsSkuProcessed(st, skuId) ==> Recorded(a)
    ensures |a.calls| <= 3
    ensures |a.calls| >= 1 ==> a.calls[0] == Searched(Keywords.ExtractKeywords(svc.keywords, name))
    ensures |a.calls| >= 2 ==> a.calls[1].Downloaded?
    ensures |a.calls| == 3 ==> a.calls[2] == Attached(skuId, FileName(skuId))
    ensures a.result.success ==> |a.calls| == 3
  {
    if IsSkuProcessed(st, skuId) then Attempt(PlainResult(skuId, false), None, [])
    else
      var keywords := Keywords.ExtractKeywords(svc.keywords, name);
      if |keywords| == 0 then Fail(skuId, Failed, NoKeywordsError, [])
      else SearchStep(svc, skuId, keywords)
  }

  /** A SKU without keywords is failed with the fixed message and never searched. */
  lemma NoKeywordsNoSearch(svc: Services, st: Store, skuId: string, name: string)
    requires !IsSkuProcessed(st, skuId) && Keywords.ExtractKeywords(svc.keywords, name) == []
    ensures ProcessSingle(svc, st, skuId, name).calls == []
    ensures ProcessSingle(svc, st, skuId, name).write == Some(Write(Failed, None, None, None, Some(NoKeywordsError)))
  {
  }

  /** A search that finds nothing sends the SKU to review, with no download. */
  lemma NotFoundNeedsReview(svc: Services, st: Store, skuId: string, name: string)
    requires !IsSkuProcessed(st, skuId) && |Keywords.ExtractKeywords(svc.keywords, name)| > 0
    requires Search.SearchImage(svc.search, Keywords.ExtractKeywords(svc.keywords, name)).NotFound?
    ensures ProcessSingle(svc, st, skuId, name).write == Some(Write(NeedsReview, None, None, None, Some(NotFoundError)))
    ensures |ProcessSingle(svc, st, skuId, name).calls| == 1
  {
  }

  /** An image that fails validation is never uploaded, and the failure
      lists every validation error. */
  lemma InvalidImageNotUploaded(svc: Services, st: Store, skuId: string, name: string, image: ImageResult,
                                payload: Payload)
    requires !IsSkuProcessed(st, skuId) && |Keywords.ExtractKeywords(svc.keywords, name)| > 0
    requires Search.SearchImage(svc.search, Keywords.ExtractKeywords(svc.keywords, name)) == Search.Found(image)
    requires svc.download(image.downloadUrl) == Returned(payload)
    requires !Validator.Validate(svc.validation, payload.length, payload.decoded).isValid
    ensures |ProcessSingle(svc, st, skuId, name).calls| == 2
    ensures ProcessSingle(svc, st, skuId, name).write
         == Some(Write(Failed, None, None, None,
                       Some(ValidationError(Validator.Validate(svc.validation, payload.length, payload.decoded).errors))))
  {
  }

  /** A search that raises fails the SKU with the exception's message, before any download. */
  lemma SearchRaisesFails(svc: Services, st: Store, skuId: string, name: string, m: string)
    requires !IsSkuProcessed(st, skuId) && |Keywords.ExtractKeywords(svc.keywords, name)| > 0
    requires Search.SearchImage(svc.search, Keywords.ExtractKeywords(svc.keywords, name)) == Search.Raised(m)
    ensures ProcessSingle(svc, st, skuId, name).write == Some(Write(Failed, None, None, None, Some(m)))
    ensures ProcessSingle(svc, st, skuId, name).result.error == Some(m)
    ensures |ProcessSingle(svc, st, skuId, name).calls| == 1
  {
  }

  /** A download that raises fails the SKU with the exception's message, with no upload. */
  lemma DownloadRaisesFails(svc: Services, st: Store, skuId: string, name: string, image: ImageResult,
                            m: string)
    requires !IsSkuProcessed(st, skuId) && |Keywords.ExtractKeywords(svc.keywords, name)| > 0
    requires Search.SearchImage(svc.search, Keywords.ExtractKeywords(svc.keywords, name)) == Search.Found(image)
    requires svc.download(image.downloadUrl) == Threw(m)
    ensures ProcessSingle(svc, st, skuId, name).write == Some(Write(Failed, None, None, None, Some(m)))
    ensures ProcessSingle(svc, st, skuId, name).result.error == Some(m)
    ensures |ProcessSingle(svc, st, skuId, name).calls| == 2
  {
  }

  /** An upload the inventory service refuses fails the SKU with the fixed message. */
  lemma AttachRefusedFails(svc: Services, st: Store, skuId: string, name: string, image: ImageResult,
                           payload: Payload)
    requires !IsSkuProcessed(st, skuId) && |Keywords.ExtractKeywords(svc.keywords, name)| > 0
    requires Search.SearchImage(svc.search, Keywords.ExtractKeywords(svc.keywords, name)) == Search.Found(image)
    requires svc.download(image.downloadUrl) == Returned(payload)
    requires Validator.Validate(svc.validation, payload.length, payload.decoded).isValid
    requires svc.attach(skuId, payload, FileName(skuId)) == Returned(false)
    ensures !ProcessSingle(svc, st, skuId, name).result.success
    ensures ProcessSingle(svc, st, skuId, name).write == Some(Write(Failed, None, None, None, Some(AttachFailedError)))
    ensures |ProcessSingle(svc, st, skuId, name).calls| == 3
  {
  }

  /** An upload that raises fails the SKU with the exception's message. */
  lemma AttachRaisesFails(svc: Services, st: Store, skuId: string, name: string, image: ImageResult,
                          payload: Payload, m: string)
    requires !IsSkuProcessed(st, skuId) && |Keywords.ExtractKeywords(svc.keywords, name)| > 0
    requires Search.SearchImage(svc.search, Keywords.ExtractKeywords(svc.keywords, name)) == Search.Found(image)
    requires svc.download(image.downloadUrl) == Returned(payload)
    requires Validator.Validate(svc.validation, payload.length, payload.decoded).isValid
    requires svc.attach(skuId, payload, FileName(skuId)) == Threw(m)
    ensures !ProcessSingle(svc, st, skuId, name).result.success
    ensures ProcessSingle(svc, st, skuId, name).write == Some(Write(Failed, None, None, None, Some(m)))
    ensures |ProcessSingle(svc, st, skuId, name).calls| == 3
  {
  }

  /** A successful upload records the found image's source, page URL and score. */
  lemma SuccessRecordsImage(svc: Services, st: Store, skuId: string, name: string, image: ImageResult,
                            payload: Payload)
    requires !IsSkuProcessed(st, skuId) && |Keywords.ExtractKeywords(svc.keywords, name)| > 0
    requires Search.SearchImage(svc.search, Keywords.ExtractKeywords(svc.keywords, name)) == Search.Found(image)
    requires svc.download(image.downloadUrl) == Returned(payload)
    requires Validator.Validate(svc.validation, payload.length, payload.decoded).isValid
    requires svc.attach(skuId, payload, FileName(skuId)) == Returned(true)
    ensures ProcessSingle(svc, st, skuId, name).result.success
    ensures ProcessSingle(svc, st, skuId, name).write
         == Some(Write(Success, Some(image.source), Some(image.url), Some(image.relevanceScore), None))
  {
  }

  /** The store after an attempt's write, made at time `now`. */
  function Apply(st: Store, skuId: string, a: Attempt, now: int): (r: Store)
    ensures a.write.None? ==> r == st
    ensures Valid(st) ==> Valid(r)
  {
    match a.write
    case None => st
    case Some(w) => Mark(st, skuId, w.status, w.source, w.url, w.score, w.error, now)
  }

  /** After an attempt, the SKU counts as processed exactly when it already
      did or the attempt succeeded; no other SKU is touched. */
  lemma ProcessedAfterAttempt(svc: Services, st: Store, skuId: string, name: string, now: int, other: string)
    ensures var a := ProcessSingle(svc, st, skuId, name);
      IsSkuProcessed(Apply(st, skuId, a, now), skuId) <==> IsSkuProcessed(st, skuId) || a.result.success
    ensures var a := ProcessSingle(svc, st, skuId, name);
      other != skuId ==> (other in Apply(st, skuId, a, now).records <==> other in st.records)
                         && (other in st.records ==> Apply(st, skuId, a, now).records[other] == st.records[other])
  {
  }

  /** What the processor keeps true of every stored record: a success
      records the image's source, URL and score; a failure or a review
      records an error. */
  predicate Consistent(st: Store) {
    forall k :: k in st.records ==>
      (st.records[k].status == Success ==>
         st.records[k].imageSource.Some? && st.records[k].imageUrl.Some? && st.records[k].relevanceScore.Some?)
      && (st.records[k].status == Failed || st.records[k].status == NeedsReview ==> st.records[k].lastError.Some?)
  }

  /** Applying what processing a SKU wrote keeps the store consistent. */
  lemma ApplyKeepsConsistent(svc: Services, st: Store, skuId: string, name: string, now: int)
    requires Consistent(st)
    ensures Consistent(Apply(st, skuId, ProcessSingle(svc, st, skuId, name), now))
  {
    var a := ProcessSingle(svc, st, skuId, name);
    var r := Apply(st, skuId, a, now);
    forall k | k in r.records
      ensures (r.records[k].status == Success ==>
                 r.records[k].imageSource.Some? && r.records[k].imageUrl.Some? && r.records[k].relevanceScore.Some?)
              && (r.records[k].status == Failed || r.records[k].status == NeedsReview ==> r.records[k].lastError.Some?)
    {
      if k != skuId || a.write.None? {
        assert r.records[k] == st.records[k];
      }
    }
  }

  /** Processing a SKU the store already counts as processed leaves the
      store as it was. */
  lemma ProcessedSkuUntouched(svc: Services, st: Store, skuId: string, name: string, now: int)
    requires IsSkuProcessed(st, skuId)
    ensures Apply(st, skuId, ProcessSingle(svc, st, skuId, name), now) == st
  {
  }

  // ---------------------------------------------------------------------
  // Batch tally
  // ---------------------------------------------------------------------

  /** Whether a result carries a non-empty error (Python truthiness). */
  predicate HasError(r: ProcessingResult) {
    r.error.Some? && |r.error.value| > 0
  }

  /** The report after counting one more result. */
  function Tally(report: ProcessingReport, skuId: string, r: ProcessingResult): (out: ProcessingReport)
    requires r.success ==> r.imageSource.Some?
    ensures out.total == report.total && out.needsReview == report.needsReview
    ensures out.successful + out.failed + out.skipped == report.successful + report.failed + report.skipped + 1
    ensures r.success ==> out.successful == report.successful + 1
                          && BreakdownTotal(out.sourceBreakdown) == BreakdownTotal(report.sourceBreakdown) + 1
                          && CountFor(out.sourceBreakdown, r.imageSource.value)
                             == CountFor(report.sourceBreakdown, r.imageSource.value) + 1
    ensures !r.success ==> out.sourceBreakdown == report.sourceBreakdown
    ensures !r.success && HasError(r) ==>
              out.failed == report.failed + 1 && out.errorSummary == report.errorSummary + [skuId + ": " + r.error.value]
    ensures !r.success && !HasError(r) ==> out.skipped == report.skipped + 1 && out.errorSummary == report.errorSummary
  {
    if r.success then
      report.(successful := report.successful + 1,
              sourceBreakdown := Bump(report.sourceBreakdown, r.imageSource.value))
    else if HasError(r) then
      report.(failed := report.failed + 1, errorSummary := report.errorSummary + [skuId + ": " + r.error.value])
    else
      report.(skipped := report.skipped + 1)
  }

  /** A SKU sent to review is tallied as a failure. */
  lemma NeedsReviewCountsAsFailed(svc: Services, st: Store, sku: Sku, report: ProcessingReport)
    requires ProcessSingle(svc, st, sku.id, sku.name).write.Some?
    requires ProcessSingle(svc, st, sku.id, sku.name).write.value.status == NeedsReview
    ensures Tally(report, sku.id, ProcessSingle(svc, st, sku.id, sku.name).result).failed == report.failed + 1
    ensures Tally(report, sku.id, ProcessSingle(svc, st, sku.id, sku.name).result).needsReview == report.needsReview
  {
    var a := ProcessSingle(svc, st, sku.id, sku.name);
    assert a.result.error == Some(NotFoundError);
  }

  /** The counters a batch report keeps consistent. */
  predicate Balanced(report: ProcessingReport, counted: nat) {
    report.successful + report.failed + report.skipped == counted
    && BreakdownTotal(report.sourceBreakdown) == report.successful
    && |report.errorSummary| == report.failed
    && report.needsReview == 0
  }

  /** What `Tally` needs of every attempt it counts: a success names its source. */
  predicate Tallyable(attempts: seq<Attempt>) {
    forall j :: 0 <= j < |attempts| ==> (attempts[j].result.success ==> attempts[j].result.imageSource.Some?)
  }

  /** The processing of one SKU as a step of a batch. */
  function Processing(svc: Services): (Store, string, string) -> Attempt {
    (st: Store, skuId: string, name: string) => ProcessSingle(svc, st, skuId, name)
  }

  /** The first `n` SKUs of a batch, processed one after the other by
      `process`: each against the store its predecessors left, its write
      applied by `apply` (the batch uses `Apply`) at `clock(k)` for the
      k-th SKU.  Gives the final store and the attempts, in SKU order. */
  function BatchRun(process: (Store, string, string) -> Attempt,
                    apply: (Store, string, Attempt, int) -> Store, st: Store, skus: seq<Sku>,
                    clock: nat -> int, n: nat): (r: (Store, seq<Attempt>))
    requires n <= |skus|
    ensures |r.1| == n
    decreases n
  {
    if n == 0 then (st, [])
    else
      var prev := BatchRun(process, apply, st, skus, clock, n - 1);
      var a := process(prev.0, skus[n - 1].id, skus[n - 1].name);
      (apply(prev.0, skus[n - 1].id, a, clock(n)), prev.1 + [a])
  }

  /** The last attempt of a batch is the processing of its last SKU. */
  lemma BatchRunLast(process: (Store, string, string) -> Attempt,
                    apply: (Store, string, Attempt, int) -> Store, st: Store, skus: seq<Sku>,
                     clock: nat -> int, n: nat)
    requires 0 < n <= |skus|
    ensures BatchRun(process, apply, st, skus, clock, n).1[n - 1]
         == process(BatchRun(process, apply, st, skus, clock, n - 1).0, skus[n - 1].id, skus[n - 1].name)
  {
    var prev := BatchRun(process, apply, st, skus, clock, n - 1);
    assert BatchRun(process, apply, st, skus, clock, n).1
        == prev.1 + [process(prev.0, skus[n - 1].id, skus[n - 1].name)];
  }

  /** A batch's earlier attempts are those of the shorter batch. */
  lemma BatchRunPrefix(process: (Store, string, string) -> Attempt,
                    apply: (Store, string, Attempt, int) -> Store, st: Store, skus: seq<Sku>,
                       clock: nat -> int, n: nat, j: nat)
    requires j < n - 1 && n <= |skus|
    ensures BatchRun(process, apply, st, skus, clock, n).1[j] == BatchRun(process, apply, st, skus, clock, n - 1).1[j]
  {
    var prev := BatchRun(process, apply, st, skus, clock, n - 1);
    assert BatchRun(process, apply, st, skus, clock, n).1
        == prev.1 + [process(prev.0, skus[n - 1].id, skus[n - 1].name)];
  }

  /** The j-th attempt of a batch is the processing of the j-th SKU against
      the store the SKUs before it left. */
  lemma {:induction false} BatchRunAttempt(process: (Store, string, string) -> Attempt,
                    apply: (Store, string, Attempt, int) -> Store, st: Store, skus: seq<Sku>,
                                           clock: nat -> int, n: nat, j: nat)
    requires j < n <= |skus|
    ensures BatchRun(process, apply, st, skus, clock, n).1[j]
         == process(BatchRun(process, apply, st, skus, clock, j).0, skus[j].id, skus[j].name)
    decreases n
  {
    if j < n - 1 {
      BatchRunPrefix(process, apply, st, skus, clock, n, j);
      BatchRunAttempt(process, apply, st, skus, clock, n - 1, j);
    } else {
      assert j == n - 1;
      BatchRunLast(process, apply, st, skus, clock, n);
    }
  }

  /** The report after tallying the attempts for the first `|attempts|` SKUs, in order. */
  function TallyAll(report: ProcessingReport, skus: seq<Sku>, attempts: seq<Attempt>): (out: ProcessingReport)
    requires |attempts| <= |skus| && Tallyable(attempts)
    ensures out.total == report.total && out.needsReview == report.needsReview
    decreases |attempts|
  {
    if |attempts| == 0 then report
    else
      var n := |attempts| - 1;
      Tally(TallyAll(report, skus, attempts[..n]), skus[n].id, attempts[n].result)
  }

  /** The counter of a report a result goes to. */
  datatype Counter = SuccessfulCount | FailedCount | SkippedCount

  function CounterOf(r: ProcessingResult): Counter {
    if r.success then SuccessfulCount else if HasError(r) then FailedCount else SkippedCount
  }

  function CounterValue(report: ProcessingReport, c: Counter): nat {
    match c
    case SuccessfulCount => report.successful
    case FailedCount => report.failed
    case SkippedCount => report.skipped
  }

  /** The positions of the attempts whose result goes to counter `c`. */
  function CountedAt(attempts: seq<Attempt>, c: Counter): (ix: set<nat>)
    ensures forall j :: j in ix <==> 0 <= j < |attempts| && CounterOf(attempts[j].result) == c
  {
    set j | 0 <= j < |attempts| && CounterOf(attempts[j].result) == c
  }

  /** One more attempt adds its own position to its counter's set. */
  lemma CountedStep(attempts: seq<Attempt>, c: Counter)
    requires |attempts| > 0
    ensures |CountedAt(attempts, c)|
         == |CountedAt(attempts[..|attempts| - 1], c)| + (if CounterOf(attempts[|attempts| - 1].result) == c then 1 else 0)
  {
    var n := |attempts| - 1;
    var prev := CountedAt(attempts[..n], c);
    assert CountedAt(attempts, c) == if CounterOf(attempts[n].result) == c then prev + {n} else prev;
    assert n !in prev;
  }

  /** Each counter of a tallied report grows by the number of attempts whose
      result goes to it. */
  lemma {:induction false} TallyAllCounts(report: ProcessingReport, skus: seq<Sku>, attempts: seq<Attempt>, c: Counter)
    requires |attempts| <= |skus| && Tallyable(attempts)
    ensures CounterValue(TallyAll(report, skus, attempts), c) == CounterValue(report, c) + |CountedAt(attempts, c)|
    decreases |attempts|
  {
    if |attempts| > 0 {
      var n := |attempts| - 1;
      assert Tallyable(attempts[..n]);
      TallyAllCounts(report, skus, attempts[..n], c);
      CountedStep(attempts, c);
    } else {
      assert CountedAt(attempts, c) == {};
    }
  }

  /** What a write needs for the store to stay consistent, and what `Tally`
      needs of the result: a success names its source, a SUCCESS write
      records the image and a FAILED or NEEDS_REVIEW write an error. */
  predicate WritesConsistently(a: Attempt) {
    (a.result.success ==> a.result.imageSource.Some?)
    && (a.write.Some? && a.write.value.status == Success ==>
          a.write.value.source.Some? && a.write.value.url.Some? && a.write.value.score.Some?)
    && (a.write.Some? && (a.write.value.status == Failed || a.write.value.status == NeedsReview) ==>
          a.write.value.error.Some?)
  }

  /** What the batch relies on of its per-SKU step: a SKU already processed
      is not written, and every attempt writes consistently. */
  ghost predicate WellBehaved(process: (Store, string, string) -> Attempt) {
    (forall s: Store, id: string, name: string :: IsSkuProcessed(s, id) ==> process(s, id, name).write.None?)
    && (forall s: Store, id: string, name: string :: WritesConsistently(process(s, id, name)))
  }

  /** `process_single_sku` is such a step. */
  lemma ProcessingWellBehaved(svc: Services)
    ensures WellBehaved(Processing(svc))
  {
    forall s: Store, id: string, name: string ensures WritesConsistently(Processing(svc)(s, id, name)) {
      var a := ProcessSingle(svc, s, id, name);
      assert IsSkuProcessed(s, id) || Recorded(a);
    }
  }

  /** Applying a consistent write keeps the store consistent. */
  lemma ApplyWriteKeepsConsistent(st: Store, skuId: string, a: Attempt, now: int)
    requires Consistent(st) && WritesConsistently(a)
    ensures Consistent(Apply(st, skuId, a, now))
  {
    var r := Apply(st, skuId, a, now);
    forall k | k in r.records
      ensures (r.records[k].status == Success ==>
                 r.records[k].imageSource.Some? && r.records[k].imageUrl.Some? && r.records[k].relevanceScore.Some?)
              && (r.records[k].status == Failed || r.records[k].status == NeedsReview ==> r.records[k].lastError.Some?)
    {
      if k != skuId || a.write.None? {
        assert r.records[k] == st.records[k];
      }
    }
  }

  /** One more SKU extends the batch run by its attempt against the store so far. */
  lemma BatchRunStep(process: (Store, string, string) -> Attempt, apply: (Store, string, Attempt, int) -> Store,
                     st0: Store, skus: seq<Sku>, clock: nat -> int,
                     i: nat, st: Store, attempts: seq<Attempt>, a: Attempt)
    requires i < |skus| && (st, attempts) == BatchRun(process, apply, st0, skus, clock, i)
    requires a == process(st, skus[i].id, skus[i].name)
    ensures (apply(st, skus[i].id, a, clock(i + 1)), attempts + [a]) == BatchRun(process, apply, st0, skus, clock, i + 1)
  {
  }

  /** One more tallyable attempt extends the tally by its result. */
  lemma TallyAllStep(report: ProcessingReport, skus: seq<Sku>, attempts: seq<Attempt>, a: Attempt)
    requires |attempts| < |skus| && Tallyable(attempts)
    requires a.result.success ==> a.result.imageSource.Some?
    ensures Tallyable(attempts + [a])
    ensures TallyAll(report, skus, attempts + [a]) == Tally(TallyAll(report, skus, attempts), skus[|attempts|].id, a.result)
  {
    assert (attempts + [a])[..|attempts|] == attempts;
  }

  /** What a batch keeps of the store it started from: validity, the
      execution rows, every key, the record of every SKU already processed,
      and consistency. */
  ghost predicate Kept(st0: Store, st: Store) {
    Valid(st) && st.executions == st0.executions
    && st.records.Keys >= st0.records.Keys
    && (forall id :: IsSkuProcessed(st0, id) ==> id in st.records && st.records[id] == st0.records[id])
    && (Consistent(st0) ==> Consistent(st))
  }

  /** A consistent write that leaves processed SKUs alone keeps what the batch keeps. */
  lemma KeptStep(st0: Store, st: Store, skuId: string, a: Attempt, now: int)
    requires Kept(st0, st) && WritesConsistently(a)
    requires IsSkuProcessed(st, skuId) ==> a.write.None?
    ensures Kept(st0, Apply(st, skuId, a, now))
  {
    if Consistent(st) {
      ApplyWriteKeepsConsistent(st, skuId, a, now);
    }
  }

  /** Tallying one more result keeps the report balanced. */
  lemma BalancedStep(report: ProcessingReport, skuId: string, r: ProcessingResult, counted: nat)
    requires Balanced(report, counted) && (r.success ==> r.imageSource.Some?)
    ensures Balanced(Tally(report, skuId, r), counted + 1)
  {
  }

  /** The state of the batch loop after the first `i` SKUs: the store and
      the attempts are the batch run's, the report their tally. */
  ghost predicate BatchAt(process: (Store, string, string) -> Attempt, st0: Store, skus: seq<Sku>,
                          clock: nat -> int, i: nat, st: Store, report: ProcessingReport, attempts: seq<Attempt>)
  {
    i <= |skus| && (st, attempts) == BatchRun(process, Apply, st0, skus, clock, i)
    && Tallyable(attempts) && report == TallyAll(NewReport().(total := |skus|), skus, attempts)
    && report.total == |skus| && Balanced(report, i) && Kept(st0, st)
  }

  /** Processing the next SKU moves the batch loop on by one. */
  lemma BatchAtStep(process: (Store, string, string) -> Attempt, st0: Store, skus: seq<Sku>, clock: nat -> int,
                    i: nat, st: Store, report: ProcessingReport, attempts: seq<Attempt>)
    requires WellBehaved(process) && i < |skus| && BatchAt(process, st0, skus, clock, i, st, report, attempts)
    ensures var a := process(st, skus[i].id, skus[i].name);
      (a.result.success ==> a.result.imageSource.Some?)
      && BatchAt(process, st0, skus, clock, i + 1, Apply(st, skus[i].id, a, clock(i + 1)),
                 Tally(report, skus[i].id, a.result), attempts + [a])
  {
    var a := process(st, skus[i].id, skus[i].name);
    assert WritesConsistently(a) && (IsSkuProcessed(st, skus[i].id) ==> a.write.None?);
    KeptStep(st0, st, skus[i].id, a, clock(i + 1));
    BalancedStep(report, skus[i].id, a.result, i);
    BatchRunStep(process, Apply, st0, skus, clock, i, st, attempts, a);
    TallyAllStep(NewReport().(total := |skus|), skus, attempts, a);
  }

  /** The loop of `process_all_skus` over `skus`, with `process` for the
      per-SKU step: the store and the report it leaves are the batch run and
      the tally of its attempts, each counter holds the number of SKUs whose
      result goes to it, a SKU already processed keeps its record and a
      consistent store stays consistent. */
  method RunBatch(process: (Store, string, string) -> Attempt, st0: Store, skus: seq<Sku>, clock: nat -> int)
    returns (st: Store, report: ProcessingReport)
    requires Valid(st0) && WellBehaved(process)
    ensures var run := BatchRun(process, Apply, st0, skus, clock, |skus|);
      st == run.0 && Tallyable(run.1) && report == TallyAll(NewReport().(total := |skus|), skus, run.1)
    ensures forall c :: CounterValue(report, c) == |CountedAt(BatchRun(process, Apply, st0, skus, clock, |skus|).1, c)|
    ensures report.total == |skus| && Balanced(report, |skus|) && Kept(st0, st)
  {
    st, report := st0, NewReport().(total := |skus|);
    ghost var attempts: seq<Attempt> := [];
    var i := 0;
    while i < |skus|
      invariant BatchAt(process, st0, skus, clock, i, st, report, attempts)
    {
      BatchAtStep(process, st0, skus, clock, i, st, report, attempts);
      var a := process(st, skus[i].id, skus[i].name);
      st := Apply(st, skus[i].id, a, clock(i + 1));
      report := Tally(report, skus[i].id, a.result);
      attempts := attempts + [a];
      i := i + 1;
    }
    forall c ensures CounterValue(report, c) == |CountedAt(attempts, c)| {
      TallyAllCounts(NewReport().(total := |skus|), skus, attempts, c);
    }
  }

  /** What a batch kept of the store it ran on, it kept of the store before
      the execution row was added and after it was completed. */
  lemma KeptAround(st0: Store, created: Store, mid: Store, st: Store)
    requires created.records == st0.records && Kept(created, mid) && st.records == mid.records
    ensures st.records.Keys >= st0.records.Keys
    ensures forall id :: IsSkuProcessed(st0, id) ==> id in st.records && st.records[id] == st0.records[id]
    ensures Consistent(st0) ==> Consistent(st)
  {
  }

  /** `st`'s execution history is `st0`'s with one more row, `id`, started
      at `startedAt` and completed at `completedAt`; every earlier row is
      left as it was. */
  ghost predicate AddsCompletedRow(st0: Store, st: Store, id: nat, startedAt: int, completedAt: int) {
    id !in st0.executions && (forall e :: e in st.executions <==> e in st0.executions || e == id)
    && (forall e :: e in st0.executions ==> st.executions[e] == st0.executions[e])
    && st.executions[id].startedAt == startedAt && st.executions[id].completedAt == Some(completedAt)
    && st.executions[id].durationSeconds == Some(completedAt - startedAt)
  }

  /** Completing the row a batch created adds exactly that row to the
      execution history it started from, and leaves every earlier row. */
  lemma CompletedAround(st0: Store, now0: int, mid: Store, total: int, successful: int, failed: int,
                        skipped: int, now1: int)
    requires Valid(st0) && mid.executions == CreateExecution(st0, ManualTrigger, now0).0.executions
    ensures AddsCompletedRow(st0, UpdateExecution(mid, st0.nextExecutionId, total, successful, failed, skipped, now1),
                             st0.nextExecutionId, now0, now1)
  {
  }

  datatype BatchOutcome = Completed(report: ProcessingReport, executionId: nat) | BatchRaised(message: string)

  /** The trigger type `process_all_skus` records for its execution. */
  const ManualTrigger: string := "manual"

  /** `process_all_skus`.  `fetch` is what the inventory service returned for
      the SKUs without images, and `clock(i)` the time of the i-th state
      access (0 for the execution record, i for the i-th SKU, then the update).
      The "manual" execution row is created before the fetch, so a failed
      fetch leaves the store with that row added and nothing else; a
      completed batch adds exactly that row, completed, and leaves every
      earlier row as it was.
      The report and the records are those of processing the SKUs one after
      the other, each against the store its predecessors left; each counter
      holds the number of SKUs whose result goes to it.  A SKU the store
      already counted as processed keeps its record as it was, and a
      consistent store stays consistent. */
  method ProcessAll(svc: Services, st0: Store, fetch: Reply<seq<Sku>>, clock: nat -> int)
    returns (outcome: BatchOutcome, st: Store)
    requires Valid(st0)
    ensures Valid(st)
    ensures forall id :: IsSkuProcessed(st0, id) ==> id in st.records && st.records[id] == st0.records[id]
    ensures Consistent(st0) ==> Consistent(st)
    ensures fetch.Threw? ==> outcome == BatchRaised(fetch.message)
    ensures fetch.Returned? ==> outcome.Completed?
    ensures outcome.Completed? ==>
              outcome.report.total == |fetch.value| && Balanced(outcome.report, |fetch.value|)
    ensures outcome.Completed? ==>
              outcome.executionId in st.executions
              && st.executions[outcome.executionId].totalSkus == Some(outcome.report.total)
              && st.executions[outcome.executionId].successful == Some(outcome.report.successful)
              && st.executions[outcome.executionId].failed == Some(outcome.report.failed)
              && st.executions[outcome.executionId].skipped == Some(outcome.report.skipped)
              && st.executions[outcome.executionId].triggerType == ManualTrigger
    ensures fetch.Threw? ==> st == CreateExecution(st0, ManualTrigger, clock(0)).0
    ensures outcome.Completed? ==>
              outcome.executionId == st0.nextExecutionId
              && AddsCompletedRow(st0, st, outcome.executionId, clock(0), clock(|fetch.value| + 1))
    ensures st.records.Keys >= st0.records.Keys
    ensures fetch.Returned? ==>
              var run := BatchRun(Processing(svc), Apply, CreateExecution(st0, ManualTrigger, clock(0)).0,
                                  fetch.value, clock, |fetch.value|);
              st.records == run.0.records && Tallyable(run.1)
              && outcome.report == TallyAll(NewReport().(total := |fetch.value|), fetch.value, run.1)
              && forall c :: CounterValue(outcome.report, c) == |CountedAt(run.1, c)|
  {
    var created := CreateExecution(st0, ManualTrigger, clock(0));
    st := created.0;
    var executionId := created.1;
    match fetch {
      case Threw(m) =>
        outcome := BatchRaised(m);
        assert st.records == st0.records;
      case Returned(skus) =>
        ProcessingWellBehaved(svc);
        var report;
        st, report := RunBatch(Processing(svc), st, skus, clock);
        ghost var mid := st;
        st := UpdateExecution(st, executionId, report.total, report.successful, report.failed, report.skipped,
                              clock(|skus| + 1));
        KeptAround(st0, created.0, mid, st);
        CompletedAround(st0, clock(0), mid, report.total, report.successful, report.failed, report.skipped,
                        clock(|skus| + 1));
        outcome := Completed(report, executionId);
    }
  }
}

=== FILE: pytext.dfy ===
/** The Python string and list primitives the pipeline relies on, with the
    exact edge-case behaviour of CPython: `str.isspace`, `str.lower` (on
    ASCII), `str.strip`, `str.split(sep)`, `sep.join`, the `in` substring
    test, prefix slicing `xs[:n]` (negative `n` included), `str(int)` and
    `str.ljust`.
 */
module PyText {

  // ---------------------------------------------------------------------
  // Character classes
  // ---------------------------------------------------------------------

  /** The characters for which `str.isspace()` holds; `\s` in a `str`
      regular expression and argument-less `str.strip()` use the same set. */
  predicate IsSpace(c: char) {
    || c == ' '
    || ('\t' <= c <= '\r')
    || ('\U{1c}' <= c <= '\U{1f}')
    || c == '\U{85}' || c == '\U{a0}' || c == '\U{1680}'
    || ('\U{2000}' <= c <= '\U{200a}')
    || c == '\U{2028}' || c == '\U{2029}' || c == '\U{202f}'
    || c == '\U{205f}' || c == '\U{3000}'
  }

  predicate IsAsciiLower(c: char) { 'a' <= c <= 'z' }

  predicate IsAsciiUpper(c: char) { 'A' <= c <= 'Z' }

  predicate IsDigit(c: char) { '0' <= c <= '9' }

  /** Membership in the regular-expression class `[a-z0-9]`. */
  predicate IsLowerAlnum(c: char) { IsAsciiLower(c) || IsDigit(c) }

  /** `str.isdigit()` on strings over ASCII: non-empty and all decimal digits. */
  predicate IsAllDigits(s: string) {
    |s| > 0 && forall i :: 0 <= i < |s| ==> IsDigit(s[i])
  }

  // ---------------------------------------------------------------------
  // Case mapping
  // ---------------------------------------------------------------------

  function LowerChar(c: char): (r: char)
    ensures IsAsciiUpper(c) ==> IsAsciiLower(r) && r as int == c as int + 32
    ensures !IsAsciiUpper(c) ==> r == c
  {
    if IsAsciiUpper(c) then (c as int + 32) as char else c
  }

  /** Lower-casing a string without ASCII capitals changes nothing. */
  lemma LowerOfNoUpper(s: string)
    requires forall i :: 0 <= i < |s| ==> !IsAsciiUpper(s[i])
    ensures Lower(s) == s
  {
    assert forall i :: 0 <= i < |s| ==> Lower(s)[i] == s[i];
  }

  /** `s.lower()`, with the case mapping restricted to ASCII letters. */
  function Lower(s: string): (r: string)
    ensures |r| == |s|
    ensures forall i :: 0 <= i < |s| ==> r[i] == LowerChar(s[i])
    ensures forall i :: 0 <= i < |r| ==> !IsAsciiUpper(r[i])
  {
    seq(|s|, i requires 0 <= i < |s| => LowerChar(s[i]))
  }

  // ---------------------------------------------------------------------
  // Stripping, prefixes, substrings
  // ---------------------------------------------------------------------

  function LStrip(s: string): (r: string)
    ensures |r| <= |s| && r == s[|s| - |r|..]
    ensures forall i :: 0 <= i < |s| - |r| ==> IsSpace(s[i])
    ensures |r| > 0 ==> !IsSpace(r[0])
    decreases |s|
  {
    if |s| > 0 && IsSpace(s[0]) then LStrip(s[1..]) else s
  }

  function RStrip(s: string): (r: string)
    ensures |r| <= |s| && r == s[..|r|]
    ensures forall i :: |r| <= i < |s| ==> IsSpace(s[i])
    ensures |r| > 0 ==> !IsSpace(r[|r| - 1])
    decreases |s|
  {
    if |s| > 0 && IsSpace(s[|s| - 1]) then RStrip(s[..|s| - 1]) else s
  }

  /** The number of whitespace characters `s` starts with. */
  function LeadingSpaces(s: string): (k: nat)
    ensures k <= |s|
    ensures forall i :: 0 <= i < k ==> IsSpace(s[i])
    ensures k < |s| ==> !IsSpace(s[k])
    decreases |s|
  {
    if |s| > 0 && IsSpace(s[0]) then 1 + LeadingSpaces(s[1..]) else 0
  }

  /** `s.strip()`: the slice of `s` left once the leading and the trailing
      whitespace are dropped; only whitespace is dropped. */
  function Strip(s: string): (r: string)
    ensures LeadingSpaces(s) + |r| <= |s|
    ensures r == s[LeadingSpaces(s)..LeadingSpaces(s) + |r|]
    ensures forall i :: LeadingSpaces(s) + |r| <= i < |s| ==> IsSpace(s[i])
    ensures |r| > 0 ==> !IsSpace(r[0]) && !IsSpace(r[|r| - 1])
  {
    var l := LStrip(s);
    var r := RStrip(l);
    LStripDropsLeadingSpaces(s);
    r
  }

  lemma {:induction false} LStripDropsLeadingSpaces(s: string)
    ensures LStrip(s) == s[LeadingSpaces(s)..]
    decreases |s|
  {
    if |s| > 0 && IsSpace(s[0]) {
      LStripDropsLeadingSpaces(s[1..]);
    }
  }

  predicate StartsWith(s: string, prefix: string) {
    |prefix| <= |s| && s[..|prefix|] == prefix
  }

  predicate EndsWith(s: string, suffix: string) {
    |suffix| <= |s| && s[|s| - |suffix|..] == suffix
  }

  /** `needle` occurs in `hay` starting at index `i`. */
  predicate OccursAt(hay: string, needle: string, i: int) {
    0 <= i && i + |needle| <= |hay| && hay[i..i + |needle|] == needle
  }

  /** Python's `needle in hay` for strings. */
  predicate Contains(hay: string, needle: string)
    decreases |hay|
  {
    StartsWith(hay, needle) || (|hay| > 0 && Contains(hay[1..], needle))
  }

  /** The recursive substring test agrees with the positional definition. */
  lemma {:induction false} ContainsIffOccurs(hay: string, needle: string)
    ensures Contains(hay, needle) <==> exists i :: OccursAt(hay, needle, i)
    decreases |hay|
  {
    if exists i :: OccursAt(hay, needle, i) {
      var i :| OccursAt(hay, needle, i);
      if i == 0 {
        assert hay[..|needle|] == hay[0..|needle|];
      } else {
        assert hay[1..][i - 1..i - 1 + |needle|] == hay[i..i + |needle|];
        assert OccursAt(hay[1..], needle, i - 1);
        ContainsIffOccurs(hay[1..], needle);
      }
    }
    if Contains(hay, needle) {
      if StartsWith(hay, needle) {
        assert hay[0..|needle|] == hay[..|needle|];
        assert OccursAt(hay, needle, 0);
      } else {
        ContainsIffOccurs(hay[1..], needle);
        var i :| OccursAt(hay[1..], needle, i);
        assert hay[1..][i..i + |needle|] == hay[i + 1..i + 1 + |needle|];
        assert OccursAt(hay, needle, i + 1);
      }
    }
  }

  // ---------------------------------------------------------------------
  // Splitting and joining
  // ---------------------------------------------------------------------

  /** `s.split(sep)` for a one-character separator: the pieces between
      separators, empty pieces kept, always at least one piece. */
  function Split(s: string, sep: char): (r: seq<string>)
    ensures |r| >= 1
    ensures forall i :: 0 <= i < |r| ==> sep !in r[i]
    decreases |s|
  {
    if |s| == 0 then [""]
    else
      var rest := Split(s[1..], sep);
      if s[0] == sep then [""] + rest
      else [[s[0]] + rest[0]] + rest[1..]
  }

  /** `d.join(xs)`. */
  function JoinWith(xs: seq<string>, d: string): string
    decreases |xs|
  {
    if |xs| == 0 then ""
    else if |xs| == 1 then xs[0]
    else xs[0] + d + JoinWith(xs[1..], d)
  }

  /** Joining the pieces of a split with the separator gives the text back. */
  lemma {:induction false} SplitJoinRoundTrip(s: string, sep: char)
    ensures JoinWith(Split(s, sep), [sep]) == s
    decreases |s|
  {
    if |s| > 0 {
      var rest := Split(s[1..], sep);
      SplitJoinRoundTrip(s[1..], sep);
      if s[0] == sep {
        assert JoinWith([""] + rest, [sep]) == "" + [sep] + JoinWith(rest, [sep]);
      } else if |rest| == 1 {
        assert Split(s, sep) == [[s[0]] + rest[0]];
      } else {
        var pieces := [[s[0]] + rest[0]] + rest[1..];
        assert pieces[1..] == rest[1..];
        assert JoinWith(rest, [sep]) == rest[0] + [sep] + JoinWith(rest[1..], [sep]);
        assert JoinWith(pieces, [sep]) == [s[0]] + rest[0] + [sep] + JoinWith(rest[1..], [sep]);
      }
    }
  }

  /** A text without the separator splits into exactly one piece: itself. */
  lemma {:induction false} SplitWithoutSeparator(s: string, sep: char)
    requires sep !in s
    ensures Split(s, sep) == [s]
    decreases |s|
  {
    if |s| > 0 {
      assert sep !in s[1..];
      SplitWithoutSeparator(s[1..], sep);
      assert s[0] != sep;
      assert [s[0]] + s[1..] == s;
    }
  }

  /** The list comprehension `[x for x in xs if p(x)]`. */
  function Filter<T>(xs: seq<T>, p: T -> bool): (r: seq<T>)
    ensures |r| <= |xs|
    ensures forall i :: 0 <= i < |r| ==> p(r[i]) && r[i] in xs
    ensures forall i :: 0 <= i < |xs| && p(xs[i]) ==> xs[i] in r
    ensures (forall i :: 0 <= i < |xs| ==> !p(xs[i])) ==> r == []
    decreases |xs|
  {
    if |xs| == 0 then []
    else if p(xs[0]) then [xs[0]] + Filter(xs[1..], p)
    else Filter(xs[1..], p)
  }

  /** Filtering distributes over a leading element. */
  lemma FilterCons<T>(x: T, xs: seq<T>, p: T -> bool)
    ensures Filter([x] + xs, p) == (if p(x) then [x] else []) + Filter(xs, p)
  {
    assert ([x] + xs)[1..] == xs;
  }

  /** Filtering distributes over a trailing element. */
  lemma {:induction false} FilterSnoc<T>(xs: seq<T>, x: T, p: T -> bool)
    ensures Filter(xs + [x], p) == Filter(xs, p) + (if p(x) then [x] else [])
    decreases |xs|
  {
    if |xs| == 0 {
      assert xs + [x] == [x];
    } else {
      var h, ys := xs[0], xs[1..];
      var head: seq<T> := if p(h) then [h] else [];
      var tail: seq<T> := if p(x) then [x] else [];
      assert xs + [x] == [h] + (ys + [x]);
      assert [h] + ys == xs;
      calc {
        Filter(xs + [x], p);
        { FilterCons(h, ys + [x], p); }
        head + Filter(ys + [x], p);
        { FilterSnoc(ys, x, p); }
        head + (Filter(ys, p) + tail);
        (head + Filter(ys, p)) + tail;
        { FilterCons(h, ys, p); }
        Filter(xs, p) + tail;
      }
    }
  }

  /** Filtering distributes over concatenation. */
  lemma {:induction false} FilterAppend<T>(xs: seq<T>, ys: seq<T>, p: T -> bool)
    ensures Filter(xs + ys, p) == Filter(xs, p) + Filter(ys, p)
    decreases |xs|
  {
    if |xs| > 0 {
      var x, rest := xs[0], xs[1..];
      var head: seq<T> := if p(x) then [x] else [];
      assert xs + ys == [x] + (rest + ys);
      assert xs == [x] + rest;
      calc {
        Filter(xs + ys, p);
        { FilterCons(x, rest + ys, p); }
        head + Filter(rest + ys, p);
        { FilterAppend(rest, ys, p); }
        head + (Filter(rest, p) + Filter(ys, p));
        (head + Filter(rest, p)) + Filter(ys, p);
        { FilterCons(x, rest, p); }
        Filter(xs, p) + Filter(ys, p);
      }
    } else {
      assert xs + ys == ys;
    }
  }

  /** `[f(x) for x in xs]`. */
  function Map<T, U>(xs: seq<T>, f: T -> U): (r: seq<U>)
    ensures |r| == |xs|
    ensures forall i :: 0 <= i < |xs| ==> r[i] == f(xs[i])
    decreases |xs|
  {
    if |xs| == 0 then []
    else
      var rest := Map(xs[1..], f);
      assert forall i :: 1 <= i < |xs| ==> xs[i] == xs[1..][i - 1];
      [f(xs[0])] + rest
  }

  lemma MapCons<T, U>(x: T, xs: seq<T>, f: T -> U)
    ensures Map([x] + xs, f) == [f(x)] + Map(xs, f)
  {
    assert ([x] + xs)[1..] == xs;
  }

  /** `"".join(xs)`. */
  function Concat(xs: seq<string>): string
    decreases |xs|
  {
    if |xs| == 0 then "" else xs[0] + Concat(xs[1..])
  }

  /** A property every element has is kept by filtering. */
  lemma FilterPreserves<T>(xs: seq<T>, p: T -> bool, q: T -> bool)
    requires forall i :: 0 <= i < |xs| ==> q(xs[i])
    ensures forall i :: 0 <= i < |Filter(xs, p)| ==> q(Filter(xs, p)[i])
  {
    var r := Filter(xs, p);
    forall i | 0 <= i < |r| ensures q(r[i]) {
      var j :| 0 <= j < |xs| && xs[j] == r[i];
    }
  }

  // ---------------------------------------------------------------------
  // Slicing
  // ---------------------------------------------------------------------

  /** The stop index Python uses for `xs[:n]` on a sequence of length `len`. */
  function SliceEnd(len: nat, n: int): (k: nat)
    ensures k <= len
    ensures n >= 0 ==> k == if n < len then n else len
    ensures n < 0 ==> k == if len + n > 0 then len + n else 0
  {
    if n >= 0 then (if n < len then n else len)
    else if len + n > 0 then len + n else 0
  }

  /** `xs[:n]`: a prefix of `xs`; with a negative `n`, all but the last `-n` elements. */
  function Take<T>(xs: seq<T>, n: int): (r: seq<T>)
    ensures |r| <= |xs| && r == xs[..|r|]
    ensures n >= 0 ==> |r| == if n < |xs| then n else |xs|
    ensures n < 0 ==> |r| == if |xs| + n > 0 then |xs| + n else 0
  {
    xs[..SliceEnd(|xs|, n)]
  }

  // ---------------------------------------------------------------------
  // Number rendering and padding
  // ---------------------------------------------------------------------

  function DigitChar(d: nat): (c: char)
    requires d < 10
    ensures IsDigit(c) && c as int - '0' as int == d
  {
    ('0' as int + d) as char
  }

  /** `str(n)` for a non-negative integer: decimal digits, no leading zero. */
  function NatToString(n: nat): (r: string)
    ensures |r| > 0 && (forall i :: 0 <= i < |r| ==> IsDigit(r[i]))
    ensures |r| > 1 ==> r[0] != '0'
    decreases n
  {
    if n < 10 then [DigitChar(n)] else NatToString(n / 10) + [DigitChar(n % 10)]
  }

  /** The value of a string of decimal digits. */
  function DigitsValue(s: string): nat
    requires forall i :: 0 <= i < |s| ==> IsDigit(s[i])
    decreases |s|
  {
    if |s| == 0 then 0
    else
      assert IsDigit(s[|s| - 1]);
      DigitsValue(s[..|s| - 1]) * 10 + (s[|s| - 1] as int - '0' as int)
  }

  /** Reading back the rendered digits gives the number. */
  lemma {:induction false} NatToStringRoundTrip(n: nat)
    ensures DigitsValue(NatToString(n)) == n
    decreases n
  {
    if n >= 10 {
      NatToStringRoundTrip(n / 10);
      var s := NatToString(n);
      assert s[..|s| - 1] == NatToString(n / 10);
    }
  }

  /** `str(n)` for any integer. */
  function IntToString(n: int): (r: string)
    ensures |r| > 0
    ensures n >= 0 ==> r == NatToString(n)
    ensures n < 0 ==> r == "-" + NatToString(-n)
  {
    if n < 0 then "-" + NatToString(-n) else NatToString(n)
  }

  /** `c * n` for a one-character string `c`. */
  function Repeat(c: char, n: nat): (r: string)
    ensures |r| == n && forall i :: 0 <= i < n ==> r[i] == c
  {
    seq(n, _ => c)
  }

  /** `s.ljust(w)`, which is also what the format spec `{s:<w}` produces. */
  function LJust(s: string, w: int): (r: string)
    ensures |r| == if |s| < w then w else |s|
    ensures r[..|s|] == s
    ensures forall i :: |s| <= i < |r| ==> r[i] == ' '
  {
    if |s| < w then s + Repeat(' ', w - |s|) else s
  }
}

=== FILE: reviewreport.dfy ===
/** The text report listing SKUs that need manual review, as its lines.
    The file is these lines, each followed by a line break. */
module ReviewReport {
  import opened PyText
  import opened Outcomes
  import opened Models

  const Title: string := "SKUs Requiring Manual Review - Image Not Found"
  const UnknownError: string := "Unknown error"
  const Separator: string := " | "

  /** The SKU column: the id cut to 24 characters, padded to 25. */
  function SkuCell(id: string): (r: string)
    ensures |r| == 25
    ensures |id| <= 24 ==> r[..|id|] == id
    ensures |id| > 24 ==> r[..24] == id[..24] && r[24] == ' '
    ensures forall i :: (if |id| < 24 then |id| else 24) <= i < 25 ==> r[i] == ' '
  {
    LJust(Take(id, 24), 25)
  }

  /** The error shown for a record: its last error, or a placeholder when
      there is none or it is empty. */
  function ShownError(rec: ProcessingRecord): (e: string)
    ensures rec.lastError.None? || rec.lastError == Some("") ==> e == UnknownError
    ensures rec.lastError.Some? && rec.lastError.value != "" ==> e == rec.lastError.value
  {
    match rec.lastError
    case Some(m) => if |m| > 0 then m else UnknownError
    case None => UnknownError
  }

  /** The error column: the shown error cut to 29 characters, padded to 30. */
  function ErrorCell(rec: ProcessingRecord): (r: string)
    ensures |r| == 30
    ensures var e := ShownError(rec); var n := if |e| < 29 then |e| else 29;
            r[..n] == e[..n] && forall i :: n <= i < 30 ==> r[i] == ' '
  {
    LJust(Take(ShownError(rec), 29), 30)
  }

  /** One table row; `stamp` renders a record's processing time. */
  function Row(rec: ProcessingRecord, stamp: int -> string): (r: string)
    ensures |r| == 25 + 3 + |LJust(stamp(rec.processedAt), 20)| + 3 + 30
    ensures r[..25] == SkuCell(rec.skuId) && r[25..28] == Separator
    ensures r[28..|r| - 33] == LJust(stamp(rec.processedAt), 20)
    ensures r[|r| - 30..] == ErrorCell(rec) && r[|r| - 33..|r| - 30] == Separator
  {
    var a := SkuCell(rec.skuId);
    var b := LJust(stamp(rec.processedAt), 20);
    var c := ErrorCell(rec);
    var r := a + Separator + b + Separator + c;
    assert r[..25] == a;
    assert r[25..28] == Separator;
    assert r[28..|r| - 33] == b;
    assert r[|r| - 30..] == c;
    assert r[|r| - 33..|r| - 30] == Separator;
    r
  }

  /** The rows, one per record, in input order. */
  function Rows(recs: seq<ProcessingRecord>, stamp: int -> string): (r: seq<string>)
    ensures |r| == |recs|
    ensures forall i :: 0 <= i < |r| ==> r[i] == Row(recs[i], stamp)
    decreases |recs|
  {
    if |recs| == 0 then [] else [Row(recs[0], stamp)] + Rows(recs[1..], stamp)
  }

  /** Three cells joined by separators: where each cell and separator sits. */
  lemma Joined(a: string, b: string, c: string)
    ensures var r := a + Separator + b + Separator + c;
      |r| == |a| + |b| + |c| + 6
      && r[..|a|] == a && r[|a|..|a| + 3] == Separator && r[|a| + 3..|a| + 3 + |b|] == b
      && r[|a| + 3 + |b|..|a| + 6 + |b|] == Separator && r[|a| + 6 + |b|..] == c
  {
    var r := a + Separator + b + Separator + c;
    assert r == a + (Separator + (b + (Separator + c)));
  }

  /** The column headings, padded to the widths of the row's cells. */
  function ColumnHeads(): (r: string)
    ensures |r| == 81 && r[..25] == LJust("SKU ID", 25) && r[28..48] == LJust("Processed At", 20)
            && r[51..] == LJust("Last Error", 30)
    ensures r[25..28] == Separator && r[48..51] == Separator
  {
    var a, b, c := LJust("SKU ID", 25), LJust("Processed At", 20), LJust("Last Error", 30);
    Joined(a, b, c);
    a + Separator + b + Separator + c
  }

  /** The dash line under the headings, with the separators in place. */
  function DashLine(): (r: string)
    ensures |r| == 81 && forall i :: 0 <= i < 81 && !(25 <= i < 28) && !(48 <= i < 51) ==> r[i] == '-'
    ensures r[25..28] == Separator && r[48..51] == Separator
  {
    var a, b, c := Repeat('-', 25), Repeat('-', 20), Repeat('-', 30);
    Joined(a, b, c);
    var r := a + Separator + b + Separator + c;
    assert forall i :: 0 <= i < 81 && !(25 <= i < 28) && !(48 <= i < 51) ==> r[i] == '-' by {
      forall i | 0 <= i < 81 && !(25 <= i < 28) && !(48 <= i < 51) ensures r[i] == '-' {
        if i < 25 { assert r[i] == r[..25][i]; }
        else if i < 48 { assert r[i] == r[28..48][i - 28]; }
        else { assert r[i] == r[51..][i - 51]; }
      }
    }
    r
  }

  /** The lines before the rows: the title, the generation time, a rule of
      80 `=`, the count, and the column headings over a dash line, both 81
      characters with the separators at columns 25 and 48. */
  function Header(count: nat, generated: string): (r: seq<string>)
    ensures |r| == 8
    ensures r[0] == Title && r[1] == "Generated: " + generated && r[3] == "" && r[5] == ""
    ensures |r[2]| == 80 && forall i :: 0 <= i < 80 ==> r[2][i] == '='
    ensures r[4] == "Total SKUs Needing Review: " + NatToString(count)
    ensures |r[6]| == 81 && r[6][..25] == LJust("SKU ID", 25) && r[6][28..48] == LJust("Processed At", 20)
            && r[6][51..] == LJust("Last Error", 30)
    ensures |r[7]| == 81 && forall i :: 0 <= i < 81 && !(25 <= i < 28) && !(48 <= i < 51) ==> r[7][i] == '-'
    ensures r[6][25..28] == r[7][25..28] == Separator && r[6][48..51] == r[7][48..51] == Separator
  {
    [ Title,
      "Generated: " + generated,
      Repeat('=', 80),
      "",
      "Total SKUs Needing Review: " + NatToString(count),
      "",
      ColumnHeads(),
      DashLine() ]
  }

  /** The lines after the rows. */
  const Footer: seq<string> := [
    "",
    Repeat('=', 80),
    "",
    "Next Steps:",
    "1. Review SKU names for clarity and searchability",
    "2. Manually source images for these products",
    "3. Update SKU database with better keywords/descriptions",
    "4. Re-run bot after making changes"
  ]

  /** Where the header's lines, the rows and the footer sit once stacked. */
  lemma Stacked(h: seq<string>, rows: seq<string>, f: seq<string>)
    requires |h| == 8
    ensures var lines := h + rows + f;
      |lines| == 8 + |rows| + |f| && lines[0] == h[0] && lines[4] == h[4]
      && (forall i :: 0 <= i < |rows| ==> lines[8 + i] == rows[i]) && lines[8 + |rows|..] == f
  {
    var lines := h + rows + f;
    assert lines[8 + |rows|..] == f;
  }

  /** `write_needs_review_report`: nothing for an empty list, otherwise the
      report's lines; `generated` is the rendered generation time. */
  function NeedsReviewReport(recs: seq<ProcessingRecord>, generated: string, stamp: int -> string)
    : (r: Option<seq<string>>)
    ensures r.None? <==> |recs| == 0
    ensures r.Some? ==> |r.value| == 8 + |recs| + 8
    ensures r.Some? ==> r.value[0] == Title && r.value[4] == "Total SKUs Needing Review: " + NatToString(|recs|)
    ensures r.Some? ==> forall i :: 0 <= i < |recs| ==> r.value[8 + i] == Row(recs[i], stamp)
    ensures r.Some? ==> r.value[8 + |recs|..] == Footer
  {
    if |recs| == 0 then None
    else
      var h, rows := Header(|recs|, generated), Rows(recs, stamp);
      Stacked(h, rows, Footer);
      Some(h + rows + Footer)
  }

  /** A row whose time stamp fits its 20 columns, as `%Y-%m-%d %H:%M:%S`
      (19 characters) does, lines up with the column headings: it is 81
      characters with the separators where the header has them. */
  lemma RowAlignsWithHeader(rec: ProcessingRecord, stamp: int -> string, count: nat, generated: string)
    requires |stamp(rec.processedAt)| <= 20
    ensures var row, h := Row(rec, stamp), Header(count, generated);
            |row| == |h[6]| == |h[7]| && row[25..28] == h[6][25..28] && row[48..51] == h[6][48..51]
  {
  }

  /** The count line can be read back as the number of records. */
  lemma CountReadsBack(recs: seq<ProcessingRecord>, generated: string, stamp: int -> string)
    requires |recs| > 0
    ensures var line := NeedsReviewReport(recs, generated, stamp).value[4];
            StartsWith(line, "Total SKUs Needing Review: ")
            && DigitsValue(line[|"Total SKUs Needing Review: "|..]) == |recs|
  {
    var line := NeedsReviewReport(recs, generated, stamp).value[4];
    var p := "Total SKUs Needing Review: ";
    assert line == p + NatToString(|recs|);
    assert line[|p|..] == NatToString(|recs|);
    NatToStringRoundTrip(|recs|);
  }

  /** A SKU id of at most 24 characters without trailing blanks is read back
      from its cell by stripping the padding. */
  lemma SkuCellReadsBack(id: string)
    requires |id| <= 24 && (|id| > 0 ==> !IsSpace(id[|id| - 1]))
    ensures RStrip(SkuCell(id)) == id
  {
    var s := SkuCell(id);
    if |id| > 0 {
      assert s[|id| - 1] == id[|id| - 1];
    }
    assert forall i :: |id| <= i < |s| ==> s[i] == ' ';
  }

  /** Two records whose ids agree on their first 24 characters get the same
      SKU cell: longer ids are cut. */
  lemma LongIdsCut(a: string, b: string)
    requires |a| >= 24 && |b| >= 24 && a[..24] == b[..24]
    ensures SkuCell(a) == SkuCell(b)
  {
  }
}

=== FILE: search.dfy ===
/** Relevance scoring and the provider cascade of the image search.

    Providers are visited in ascending priority.  The first provider whose
    best candidate reaches the minimum score wins outright; otherwise the
    best candidate seen anywhere is accepted at 80% of the minimum; otherwise
    the search is retried once with the first two keywords.  Providers are an
    abstract function of source and query, and each call may raise.
 */
module Search {
  import opened PyText
  import opened Outcomes
  import opened Models

  // ---------------------------------------------------------------------
  // Scoring
  // ---------------------------------------------------------------------

  /** Whether a keyword, lower-cased, occurs in `title`. */
  function InTitle(title: string): string -> bool {
    (k: string) => Contains(title, Lower(k))
  }

  /** `sum(1 for kw in keywords if kw.lower() in title_lower)`: the number of
      keywords the title contains, counted with repetition. */
  function KeywordMatches(keywords: seq<string>, title: string): (n: nat)
    ensures n <= |keywords|
    ensures n == |keywords| <==> forall i :: 0 <= i < |keywords| ==> Contains(title, Lower(keywords[i]))
    ensures n == 0 <==> forall i :: 0 <= i < |keywords| ==> !Contains(title, Lower(keywords[i]))
    decreases |keywords|
  {
    if |keywords| == 0 then 0
    else
      var rest := KeywordMatches(keywords[1..], title);
      assert forall i :: 1 <= i < |keywords| ==> keywords[i] == keywords[1..][i - 1];
      (if Contains(title, Lower(keywords[0])) then 1 else 0) + rest
  }

  /** The count is that of the keywords a list comprehension filtering on
      the title would keep. */
  lemma {:induction false} KeywordMatchesFilter(keywords: seq<string>, title: string)
    ensures KeywordMatches(keywords, title) == |Filter(keywords, InTitle(title))|
    decreases |keywords|
  {
    if |keywords| > 0 {
      var k, ks := keywords[0], keywords[1..];
      assert keywords == [k] + ks;
      KeywordMatchesFilter(ks, title);
      FilterCons(k, ks, InTitle(title));
      assert InTitle(title)(k) == Contains(title, Lower(k));
    }
  }

  /** The lower-cased title, a missing title reading as the empty string. */
  function TitleText(image: ImageResult): string {
    Lower(image.title.GetOr(""))
  }

  /** A count over a positive total, as a fraction: in [0, 1], and at either
      end exactly when the count is. */
  lemma FractionBounds(n: nat, d: nat)
    requires 0 < d && n <= d
    ensures 0.0 <= n as real / d as real <= 1.0
    ensures n as real / d as real == 1.0 <==> n == d
    ensures n as real / d as real == 0.0 <==> n == 0
  {
    var f := n as real / d as real;
    assert f * d as real == n as real;
    if n < d {
      assert f * d as real < 1.0 * d as real;
    }
  }

  /** The keyword share of the score: 0.6 times the fraction of keywords found in the title. */
  function KeywordTerm(image: ImageResult, keywords: seq<string>): (t: real)
    requires |keywords| > 0
    ensures 0.0 <= t <= 0.6
    ensures t == 0.6 <==> forall i :: 0 <= i < |keywords| ==> Contains(TitleText(image), Lower(keywords[i]))
    ensures t == 0.0 <==> forall i :: 0 <= i < |keywords| ==> !Contains(TitleText(image), Lower(keywords[i]))
  {
    var n := KeywordMatches(keywords, TitleText(image));
    var f := n as real / |keywords| as real;
    FractionBounds(n, |keywords|);
    0.6 * f
  }

  /** `(keyword_matches / len(keywords)) * 0.6`, with the matches counted
      as the keywords a filter on the title keeps. */
  lemma KeywordTermShare(image: ImageResult, keywords: seq<string>)
    requires |keywords| > 0
    ensures KeywordTerm(image, keywords)
         == 0.6 * (|Filter(keywords, InTitle(TitleText(image)))| as real / |keywords| as real)
  {
    KeywordMatchesFilter(keywords, TitleText(image));
  }

  /** The resolution tier bonus. */
  function ResolutionBonus(width: int, height: int): (b: real)
    ensures b == 0.2 <==> width >= 1920 && height >= 1080
    ensures b == 0.1 <==> !(width >= 1920 && height >= 1080) && width >= 1280 && height >= 720
    ensures b == 0.0 <==> !(width >= 1920 && height >= 1080) && !(width >= 1280 && height >= 720)
  {
    if width >= 1920 && height >= 1080 then 0.2
    else if width >= 1280 && height >= 720 then 0.1
    else 0.0
  }

  /** A larger image never earns a smaller resolution bonus. */
  lemma ResolutionBonusMonotone(w1: int, h1: int, w2: int, h2: int)
    requires w1 <= w2 && h1 <= h2
    ensures ResolutionBonus(w1, h1) <= ResolutionBonus(w2, h2)
    ensures ResolutionBonus(w1, h1) == 0.2 ==> ResolutionBonus(w2, h2) == 0.2
  {
  }

  /** The source bonus table, keyed by the source's value; 0.05 for values not in it. */
  function SourceBonus(value: string): (b: real)
    ensures 0.05 <= b <= 0.2
  {
    if value == "unsplash" then 0.2
    else if value == "pexels" then 0.15
    else if value == "pixabay" then 0.1
    else 0.05
  }

  /** The bonus each image source actually earns: the table's `unsplash`
      key matches no source, so no source earns more than 0.15. */
  lemma SourceBonusPerSource(s: ImageSource)
    ensures SourceBonus(SourceValue(s)) == (match s case Pexels => 0.15 case Pixabay => 0.1 case _ => 0.05)
    ensures SourceBonus(SourceValue(s)) <= 0.15
  {
  }

  /** `score_image_relevance`: the weighted sum, capped at 1.0.  The sum
      never reaches the cap, so the score is exactly the sum of its three
      terms and lies in [0.05, 0.95]. */
  function Score(image: ImageResult, keywords: seq<string>): (r: real)
    requires |keywords| > 0
    ensures r == KeywordTerm(image, keywords) + ResolutionBonus(image.width, image.height)
                 + SourceBonus(SourceValue(image.source))
    ensures 0.05 <= r <= 0.95
    ensures 0.0 <= r <= 1.0
  {
    var sum := KeywordTerm(image, keywords) + ResolutionBonus(image.width, image.height)
               + SourceBonus(SourceValue(image.source));
    SourceBonusPerSource(image.source);
    if sum < 1.0 then sum else 1.0
  }

  type Scored = (ImageResult, real)

  /** Every score in `s` is below `m`. */
  predicate AllBelow(s: seq<Scored>, m: real) {
    forall k :: 0 <= k < |s| ==> s[k].1 < m
  }

  /** Every score in `s` lies in [0.05, 0.95]. */
  predicate InRange(s: seq<Scored>) {
    forall k :: 0 <= k < |s| ==> 0.05 <= s[k].1 <= 0.95
  }

  lemma ConcatKeepsBounds(a: seq<Scored>, b: seq<Scored>, m: real)
    ensures InRange(a) && InRange(b) ==> InRange(a + b)
    ensures AllBelow(a, m) && AllBelow(b, m) ==> AllBelow(a + b, m)
  {
    assert forall k :: 0 <= k < |a + b| ==> (a + b)[k] == if k < |a| then a[k] else b[k - |a|];
  }

  /** The message of the `ZeroDivisionError` scoring raises for an empty keyword list. */
  const DivisionByZero: string := "division by zero"

  /** `[(r, score(r, keywords)) for r in results]`: raises when there are
      results to score against an empty keyword list. */
  function ScoreAll(results: seq<ImageResult>, keywords: seq<string>): (r: Reply<seq<Scored>>)
    ensures r.Threw? <==> |keywords| == 0 && |results| > 0
    ensures r.Returned? ==> |r.value| == |results| && InRange(r.value)
    ensures r.Returned? ==> forall k :: 0 <= k < |results| ==>
              |keywords| > 0 && r.value[k] == (results[k], Score(results[k], keywords))
  {
    if |keywords| == 0 && |results| > 0 then Threw(DivisionByZero)
    else if |results| == 0 then Returned([])
    else Returned(seq(|results|, k requires 0 <= k < |results| => (results[k], Score(results[k], keywords))))
  }

  /** Python's `max(s, key=score)`: the index of the FIRST highest score. */
  function BestIndex(s: seq<Scored>): (i: nat)
    requires |s| > 0
    ensures i < |s|
    ensures forall j :: 0 <= j < |s| ==> s[j].1 <= s[i].1
    ensures forall j :: 0 <= j < i ==> s[j].1 < s[i].1
    decreases |s|
  {
    if |s| == 1 then 0
    else
      var k := BestIndex(s[..|s| - 1]);
      if s[|s| - 1].1 > s[k].1 then |s| - 1 else k
  }

  /** The chosen candidate, with its `relevance_score` set to its score. */
  function Accept(s: Scored): (image: ImageResult)
    ensures image.relevanceScore == s.1
    ensures image.(relevanceScore := s.0.relevanceScore) == s.0
  {
    s.0.(relevanceScore := s.1)
  }

  // ---------------------------------------------------------------------
  // Priority order
  // ---------------------------------------------------------------------

  /** A `source_priorities` entry: source value and priority. */
  type Priority = (string, int)

  predicate SortedByPriority(s: seq<Priority>) {
    forall i, j :: 0 <= i < j < |s| ==> s[i].1 <= s[j].1
  }

  /** Places `x` before the first entry whose priority is not lower than its own. */
  function InsertByPriority(x: Priority, s: seq<Priority>): (r: seq<Priority>)
    ensures |r| == |s| + 1
    ensures r[0] == x || (|s| > 0 && r[0] == s[0])
    ensures SortedByPriority(s) ==> SortedByPriority(r)
    decreases |s|
  {
    if |s| == 0 || x.1 <= s[0].1 then [x] + s
    else
      var rest := InsertByPriority(x, s[1..]);
      assert s == [s[0]] + s[1..];
      assert SortedByPriority(s) ==> s[0].1 <= rest[0].1;
      [s[0]] + rest
  }

  /** Insertion adds exactly `x`. */
  lemma {:induction false} InsertAddsOne(x: Priority, s: seq<Priority>)
    ensures multiset(InsertByPriority(x, s)) == multiset(s) + multiset{x}
    decreases |s|
  {
    if |s| > 0 && x.1 > s[0].1 {
      InsertAddsOne(x, s[1..]);
      assert s == [s[0]] + s[1..];
    }
  }

  /** `sorted(priorities.items(), key=priority)`: ascending and stable. */
  function SortByPriority(entries: seq<Priority>): (r: seq<Priority>)
    ensures SortedByPriority(r)
    ensures multiset(r) == multiset(entries)
    ensures |r| == |entries|
    decreases |entries|
  {
    if |entries| == 0 then []
    else
      assert entries == [entries[0]] + entries[1..];
      InsertAddsOne(entries[0], SortByPriority(entries[1..]));
      InsertByPriority(entries[0], SortByPriority(entries[1..]))
  }

  /** The entries with priority `p`, in order. */
  function WithPriority(s: seq<Priority>, p: int): seq<Priority>
    decreases |s|
  {
    if |s| == 0 then [] else (if s[0].1 == p then [s[0]] else []) + WithPriority(s[1..], p)
  }

  lemma WithPriorityCons(x: Priority, s: seq<Priority>, p: int)
    ensures WithPriority([x] + s, p) == (if x.1 == p then [x] else []) + WithPriority(s, p)
  {
    assert ([x] + s)[1..] == s;
  }

  lemma {:induction false} InsertKeepsTies(x: Priority, s: seq<Priority>, p: int)
    ensures WithPriority(InsertByPriority(x, s), p) == (if x.1 == p then [x] else []) + WithPriority(s, p)
    decreases |s|
  {
    if |s| == 0 || x.1 <= s[0].1 {
      WithPriorityCons(x, s, p);
    } else {
      InsertKeepsTies(x, s[1..], p);
      WithPriorityCons(s[0], InsertByPriority(x, s[1..]), p);
      WithPriorityCons(s[0], s[1..], p);
      assert s == [s[0]] + s[1..];
      assert s[0].1 < x.1;
    }
  }

  /** The sort is stable: the entries of each priority keep their relative order. */
  lemma {:induction false} SortIsStable(entries: seq<Priority>, p: int)
    ensures WithPriority(SortByPriority(entries), p) == WithPriority(entries, p)
    decreases |entries|
  {
    if |entries| > 0 {
      SortIsStable(entries[1..], p);
      InsertKeepsTies(entries[0], SortByPriority(entries[1..]), p);
      WithPriorityCons(entries[0], entries[1..], p);
      assert entries == [entries[0]] + entries[1..];
    }
  }

  // ---------------------------------------------------------------------
  // The cascade
  // ---------------------------------------------------------------------

  /** What the search sees of its configuration and providers.  `provider`
      stands for `client.search_images(query, per_page=5)`. */
  datatype Env = Env(
    priorities: seq<Priority>,
    enabled: set<ImageSource>,
    provider: (ImageSource, string) -> Reply<seq<ImageResult>>,
    minimumScore: real)

  /** `_search_source`: the provider's candidates, or none when it raises. */
  function SearchSource(env: Env, source: ImageSource, query: string): (r: seq<ImageResult>)
    ensures env.provider(source, query).Threw? ==> r == []
    ensures env.provider(source, query).Returned? ==> r == env.provider(source, query).value
  {
    match env.provider(source, query)
    case Returned(rs) => rs
    case Threw(_) => []
  }

  /** How one walk over the priority order ended. */
  datatype Walk =
    | Accepted(image: ImageResult, queried: seq<ImageSource>)
    | Exhausted(scored: seq<Scored>, queried: seq<ImageSource>)
    | UnknownSource(value: string)

  /** One source's candidates for the joined keywords, scored: raises
      only when there are candidates and no keywords. */
  function ScoreSource(env: Env, keywords: seq<string>, source: ImageSource): (r: Reply<seq<Scored>>)
    ensures var found := SearchSource(env, source, JoinWith(keywords, " "));
            r.Threw? <==> |keywords| == 0 && |found| > 0
    ensures r.Returned? ==> InRange(r.value)
    ensures r.Returned? ==> |r.value| == |SearchSource(env, source, JoinWith(keywords, " "))|
  {
    ScoreAll(SearchSource(env, source, JoinWith(keywords, " ")), keywords)
  }

  /** Each candidate the source returned is paired with its own score, in
      the order the provider gave them. */
  lemma ScoreSourceCandidates(env: Env, keywords: seq<string>, source: ImageSource, k: int)
    requires ScoreSource(env, keywords, source).Returned?
    requires 0 <= k < |SearchSource(env, source, JoinWith(keywords, " "))|
    ensures var found := SearchSource(env, source, JoinWith(keywords, " "));
            |keywords| > 0 && ScoreSource(env, keywords, source).value[k] == (found[k], Score(found[k], keywords))
  {
  }

  /** The early-accept test on one source's scored candidates: the first
      best one, when it reaches the minimum. */
  function EarlyAccept(these: seq<Scored>, minimum: real): (r: Option<ImageResult>)
    ensures r.Some? <==> exists k :: 0 <= k < |these| && these[k].1 >= minimum
    ensures r.Some? ==> |these| > 0 && r.value == Accept(these[BestIndex(these)])
    ensures r.Some? ==> forall k :: 0 <= k < |these| ==> these[k].1 <= r.value.relevanceScore
    ensures r.Some? ==> r.value.relevanceScore >= minimum
    ensures r.Some? && InRange(these) ==> 0.05 <= r.value.relevanceScore <= 0.95
    ensures r.None? ==> AllBelow(these, minimum)
  {
    if |these| > 0 && these[BestIndex(these)].1 >= minimum then Some(Accept(these[BestIndex(these)]))
    else None
  }

  /** What an early accept guarantees: a score reaching the minimum and in
      range, found on an enabled source, the last one queried. */
  predicate AcceptedWell(env: Env, w: Walk) {
    w.Accepted? ==>
      env.minimumScore <= w.image.relevanceScore && 0.05 <= w.image.relevanceScore <= 0.95
      && |w.queried| > 0 && w.queried[|w.queried| - 1] in env.enabled
  }

  /** The early accept on `source`'s scored candidates, when scoring them did not raise. */
  function AcceptOn(env: Env, keywords: seq<string>, source: ImageSource): Option<ImageResult> {
    match ScoreSource(env, keywords, source)
    case Returned(these) => EarlyAccept(these, env.minimumScore)
    case Threw(_) => None
  }

  /** The loop of `search_image` over the remaining `order`, with the
      candidates scored so far and the sources queried so far. */
  function WalkSources(env: Env, keywords: seq<string>, order: seq<Priority>,
                       scored: seq<Scored>, queried: seq<ImageSource>): (w: Walk)
    ensures AcceptedWell(env, w)
    decreases |order|
  {
    if |order| == 0 then Exhausted(scored, queried)
    else match ParseSource(order[0].0)
      case None => UnknownSource(order[0].0)
      case Some(source) =>
        if source !in env.enabled then WalkSources(env, keywords, order[1..], scored, queried)
        else match ScoreSource(env, keywords, source)
          case Threw(_) => WalkSources(env, keywords, order[1..], scored, queried + [source])
          case Returned(these) =>
            match EarlyAccept(these, env.minimumScore)
            case Some(image) => Accepted(image, queried + [source])
            case None => WalkSources(env, keywords, order[1..], scored + these, queried + [source])
  }

  /** Without an early accept, every candidate scored on the way was below
      the minimum (each source's best was), and every score is in range. */
  lemma {:induction false} ExhaustedScoresBelowMinimum(env: Env, keywords: seq<string>, order: seq<Priority>,
                                                       scored: seq<Scored>, queried: seq<ImageSource>)
    requires InRange(scored) && AllBelow(scored, env.minimumScore)
    ensures var w := WalkSources(env, keywords, order, scored, queried);
      w.Exhausted? ==> InRange(w.scored) && AllBelow(w.scored, env.minimumScore)
    decreases |order|
  {
    if |order| > 0 {
      match ParseSource(order[0].0)
      case None =>
      case Some(source) =>
        if source !in env.enabled {
          ExhaustedScoresBelowMinimum(env, keywords, order[1..], scored, queried);
        } else {
          match ScoreSource(env, keywords, source)
          case Threw(_) =>
            ExhaustedScoresBelowMinimum(env, keywords, order[1..], scored, queried + [source]);
          case Returned(these) =>
            if EarlyAccept(these, env.minimumScore).None? {
              ConcatKeepsBounds(scored, these, env.minimumScore);
              ExhaustedScoresBelowMinimum(env, keywords, order[1..], scored + these, queried + [source]);
            }
        }
    }
  }

  /** The sources the loop would query over `order`: the known, enabled
      ones, up to the first unknown value. */
  function EnabledSources(env: Env, order: seq<Priority>): (r: seq<ImageSource>)
    ensures forall i :: 0 <= i < |r| ==> r[i] in env.enabled
    decreases |order|
  {
    if |order| == 0 then []
    else match ParseSource(order[0].0)
      case None => []
      case Some(source) =>
        (if source in env.enabled then [source] else []) + EnabledSources(env, order[1..])
  }

  /** A walk that runs out of entries queried every known, enabled source, in order. */
  lemma {:induction false} ExhaustedQueriedAll(env: Env, keywords: seq<string>, order: seq<Priority>,
                                               scored: seq<Scored>, queried: seq<ImageSource>)
    ensures var w := WalkSources(env, keywords, order, scored, queried);
      w.Exhausted? ==> w.queried == queried + EnabledSources(env, order)
    decreases |order|
  {
    if |order| > 0 {
      var w := WalkSources(env, keywords, order, scored, queried);
      match ParseSource(order[0].0)
      case None =>
      case Some(source) =>
        if source !in env.enabled {
          assert EnabledSources(env, order) == EnabledSources(env, order[1..]);
          assert w == WalkSources(env, keywords, order[1..], scored, queried);
          ExhaustedQueriedAll(env, keywords, order[1..], scored, queried);
        } else {
          var q := queried + [source];
          assert queried + EnabledSources(env, order) == q + EnabledSources(env, order[1..]);
          match ScoreSource(env, keywords, source)
          case Threw(_) =>
            assert w == WalkSources(env, keywords, order[1..], scored, q);
            ExhaustedQueriedAll(env, keywords, order[1..], scored, q);
          case Returned(these) =>
            if EarlyAccept(these, env.minimumScore).None? {
              assert w == WalkSources(env, keywords, order[1..], scored + these, q);
              ExhaustedQueriedAll(env, keywords, order[1..], scored + these, q);
            }
        }
    }
  }

  /** An accepted walk started after `queried`: the image is the early-accept
      choice among the candidates of the last source queried, and no source
      queried since `queried` had one. */
  predicate AcceptedOnLast(env: Env, keywords: seq<string>, queried: seq<ImageSource>, w: Walk) {
    w.Accepted? ==> |w.queried| > |queried| && w.queried[..|queried|] == queried
                    && AcceptOn(env, keywords, w.queried[|w.queried| - 1]) == Some(w.image)
                    && forall i :: |queried| <= i < |w.queried| - 1 ==> AcceptOn(env, keywords, w.queried[i]).None?
  }

  lemma {:induction false} AcceptedOnLastSource(env: Env, keywords: seq<string>, order: seq<Priority>,
                                                scored: seq<Scored>, queried: seq<ImageSource>)
    ensures AcceptedOnLast(env, keywords, queried, WalkSources(env, keywords, order, scored, queried))
    decreases |order|
  {
    if |order| > 0 {
      var w := WalkSources(env, keywords, order, scored, queried);
      match ParseSource(order[0].0)
      case None =>
      case Some(source) =>
        if source !in env.enabled {
          AcceptedOnLastSource(env, keywords, order[1..], scored, queried);
          assert w == WalkSources(env, keywords, order[1..], scored, queried);
        } else {
          var q := queried + [source];
          match ScoreSource(env, keywords, source)
          case Threw(_) =>
            AcceptedOnLastSource(env, keywords, order[1..], scored, q);
            assert w == WalkSources(env, keywords, order[1..], scored, q);
            StepBack(env, keywords, queried, source, w);
          case Returned(these) =>
            if EarlyAccept(these, env.minimumScore).None? {
              AcceptedOnLastSource(env, keywords, order[1..], scored + these, q);
              assert w == WalkSources(env, keywords, order[1..], scored + these, q);
              StepBack(env, keywords, queried, source, w);
            } else {
              assert w == Accepted(EarlyAccept(these, env.minimumScore).value, q);
              assert q[..|queried|] == queried;
            }
        }
    }
  }

  /** A source without an early accept can be moved from `queried` into the walk. */
  lemma StepBack(env: Env, keywords: seq<string>, queried: seq<ImageSource>, source: ImageSource, w: Walk)
    requires AcceptOn(env, keywords, source).None?
    requires AcceptedOnLast(env, keywords, queried + [source], w)
    ensures AcceptedOnLast(env, keywords, queried, w)
  {
    if w.Accepted? {
      PrefixStep(w.queried, queried, source);
      var n := |queried|;
      forall i | n <= i < |w.queried| - 1 ensures AcceptOn(env, keywords, w.queried[i]).None? {
        if i == n {
          assert w.queried[i] == source;
        }
      }
    }
  }

  /** A sequence extending `queried + [source]` extends `queried`, with `source` next. */
  lemma PrefixStep(xs: seq<ImageSource>, queried: seq<ImageSource>, source: ImageSource)
    requires |xs| > |queried| + 1 && xs[..|queried| + 1] == queried + [source]
    ensures xs[..|queried|] == queried && xs[|queried|] == source
  {
    assert xs[..|queried|] == xs[..|queried| + 1][..|queried|];
    assert xs[|queried|] == xs[..|queried| + 1][|queried|];
  }

  /** What scoring one source collects: its scored candidates, nothing when scoring raised. */
  function SourceScored(env: Env, keywords: seq<string>, source: ImageSource): seq<Scored> {
    match ScoreSource(env, keywords, source)
    case Returned(these) => these
    case Threw(_) => []
  }

  /** What scoring `sources` in turn collects. */
  function ScoredOf(env: Env, keywords: seq<string>, sources: seq<ImageSource>): seq<Scored>
    decreases |sources|
  {
    if |sources| == 0 then [] else SourceScored(env, keywords, sources[0]) + ScoredOf(env, keywords, sources[1..])
  }

  /** The scored list of an exhausted walk is `scored` followed by what `sources` collect. */
  predicate CollectedFrom(env: Env, keywords: seq<string>, scored: seq<Scored>, sources: seq<ImageSource>, w: Walk) {
    w.Exhausted? ==> w.scored == scored + ScoredOf(env, keywords, sources)
  }

  lemma ScoredOfCons(env: Env, keywords: seq<string>, source: ImageSource, rest: seq<ImageSource>)
    ensures ScoredOf(env, keywords, [source] + rest) == SourceScored(env, keywords, source) + ScoredOf(env, keywords, rest)
  {
    assert ([source] + rest)[1..] == rest;
  }

  lemma AppendAssoc<T>(a: seq<T>, b: seq<T>, c: seq<T>)
    ensures (a + b) + c == a + (b + c)
  {
  }

  /** A source's collection can be moved from the walk's start into the list of sources. */
  lemma CollectStep(env: Env, keywords: seq<string>, scored: seq<Scored>, source: ImageSource,
                    rest: seq<ImageSource>, w: Walk)
    requires CollectedFrom(env, keywords, scored + SourceScored(env, keywords, source), rest, w)
    ensures CollectedFrom(env, keywords, scored, [source] + rest, w)
  {
    ScoredOfCons(env, keywords, source, rest);
    AppendAssoc(scored, SourceScored(env, keywords, source), ScoredOf(env, keywords, rest));
  }

  /** A walk that runs out of entries collected exactly the scored
      candidates of every known, enabled source, in priority order. */
  lemma {:induction false} ExhaustedScoredAll(env: Env, keywords: seq<string>, order: seq<Priority>,
                                              scored: seq<Scored>, queried: seq<ImageSource>)
    ensures CollectedFrom(env, keywords, scored, EnabledSources(env, order), WalkSources(env, keywords, order, scored, queried))
    decreases |order|
  {
    if |order| > 0 {
      var w := WalkSources(env, keywords, order, scored, queried);
      match ParseSource(order[0].0)
      case None =>
      case Some(source) =>
        var rest := EnabledSources(env, order[1..]);
        if source !in env.enabled {
          assert EnabledSources(env, order) == [] + rest;
          assert EnabledSources(env, order) == rest;
          ExhaustedScoredAll(env, keywords, order[1..], scored, queried);
          assert w == WalkSources(env, keywords, order[1..], scored, queried);
        } else {
          assert EnabledSources(env, order) == [source] + rest;
          var q := queried + [source];
          match ScoreSource(env, keywords, source)
          case Threw(_) =>
            ExhaustedScoredAll(env, keywords, order[1..], scored, q);
            assert w == WalkSources(env, keywords, order[1..], scored, q);
            assert scored + SourceScored(env, keywords, source) == scored;
            CollectStep(env, keywords, scored, source, rest, w);
          case Returned(these) =>
            if EarlyAccept(these, env.minimumScore).None? {
              ExhaustedScoredAll(env, keywords, order[1..], scored + these, q);
              assert w == WalkSources(env, keywords, order[1..], scored + these, q);
              CollectStep(env, keywords, scored, source, rest, w);
            }
        }
    }
  }

  /** An early accept stops the walk: the sources queried are a non-empty
      prefix of the known, enabled sources, ending with the accepting one. */
  lemma {:induction false} AcceptedQueriedPrefix(env: Env, keywords: seq<string>, order: seq<Priority>,
                                                 scored: seq<Scored>, queried: seq<ImageSource>)
    ensures var w := WalkSources(env, keywords, order, scored, queried);
      w.Accepted? ==> |queried| < |w.queried| <= |queried| + |EnabledSources(env, order)|
                      && w.queried == (queried + EnabledSources(env, order))[..|w.queried|]
    decreases |order|
  {
    if |order| > 0 {
      var w := WalkSources(env, keywords, order, scored, queried);
      match ParseSource(order[0].0)
      case None =>
      case Some(source) =>
        if source !in env.enabled {
          assert EnabledSources(env, order) == EnabledSources(env, order[1..]);
          assert w == WalkSources(env, keywords, order[1..], scored, queried);
          AcceptedQueriedPrefix(env, keywords, order[1..], scored, queried);
        } else {
          var q := queried + [source];
          assert queried + EnabledSources(env, order) == q + EnabledSources(env, order[1..]);
          match ScoreSource(env, keywords, source)
          case Threw(_) =>
            assert w == WalkSources(env, keywords, order[1..], scored, q);
            AcceptedQueriedPrefix(env, keywords, order[1..], scored, q);
          case Returned(these) =>
            if EarlyAccept(these, env.minimumScore).None? {
              assert w == WalkSources(env, keywords, order[1..], scored + these, q);
              AcceptedQueriedPrefix(env, keywords, order[1..], scored + these, q);
            } else {
              assert w.queried == q;
              assert (q + EnabledSources(env, order[1..]))[..|q|] == q;
            }
        }
    }
  }

  /** The outcome of `search_image`. */
  datatype SearchOutcome =
    | Found(image: ImageResult)
    | NotFound
    | Raised(message: string)

  /** The walk one pass makes over the sorted priority order. */
  function FirstWalk(env: Env, keywords: seq<string>): Walk {
    WalkSources(env, keywords, SortByPriority(env.priorities), [], [])
  }

  /** One pass of `search_image` over the priority order: `None` when the
      pass neither found an image nor raised, so the caller may relax.  An
      unknown source value raises; an early accept is the result; otherwise
      the first best candidate of all collected is taken exactly when some
      candidate reaches 80% of the minimum. */
  function Pass(env: Env, keywords: seq<string>): (r: Option<SearchOutcome>)
    ensures FirstWalk(env, keywords).UnknownSource? ==>
              r == Some(Raised(NotAnImageSourceMessage(FirstWalk(env, keywords).value)))
    ensures FirstWalk(env, keywords).Accepted? ==> r == Some(Found(FirstWalk(env, keywords).image))
    ensures var w := FirstWalk(env, keywords);
            w.Exhausted? ==> (r.Some? <==> exists k :: 0 <= k < |w.scored| && w.scored[k].1 >= env.minimumScore * 0.8)
    ensures var w := FirstWalk(env, keywords);
            w.Exhausted? && r.Some? ==> |w.scored| > 0 && r.value == Found(Accept(w.scored[BestIndex(w.scored)]))
    ensures r.Some? ==> !r.value.NotFound?
    ensures r.Some? && r.value.Found? ==> 0.05 <= r.value.image.relevanceScore <= 0.95
    ensures r.Some? && r.value.Found? ==>
              (r.value.image.relevanceScore >= env.minimumScore * 0.8
               || r.value.image.relevanceScore >= env.minimumScore)
  {
    ExhaustedScoresBelowMinimum(env, keywords, SortByPriority(env.priorities), [], []);
    match WalkSources(env, keywords, SortByPriority(env.priorities), [], [])
    case UnknownSource(v) => Some(Raised(NotAnImageSourceMessage(v)))
    case Accepted(image, _) => Some(Found(image))
    case Exhausted(all, _) =>
      if |all| > 0 && all[BestIndex(all)].1 >= env.minimumScore * 0.8 then
        Some(Found(Accept(all[BestIndex(all)])))
      else None
  }

  /** When a pass ends in an early accept, its image is the early-accept
      choice of the last source queried; every source queried before it,
      in priority order, had none. */
  lemma PassWhenAccepted(env: Env, keywords: seq<string>)
    ensures var w := FirstWalk(env, keywords);
      w.Accepted? ==>
        Pass(env, keywords) == Some(Found(w.image))
        && 0 < |w.queried| <= |EnabledSources(env, SortByPriority(env.priorities))|
        && w.queried == EnabledSources(env, SortByPriority(env.priorities))[..|w.queried|]
        && AcceptOn(env, keywords, w.queried[|w.queried| - 1]) == Some(w.image)
        && forall i :: 0 <= i < |w.queried| - 1 ==> AcceptOn(env, keywords, w.queried[i]).None?
  {
    var order := SortByPriority(env.priorities);
    var w := FirstWalk(env, keywords);
    AcceptedQueriedPrefix(env, keywords, order, [], []);
    AcceptedOnLastSource(env, keywords, order, [], []);
    assert [] + EnabledSources(env, order) == EnabledSources(env, order);
    if w.Accepted? {
      assert AcceptedOnLast(env, keywords, [], w);
      forall i | 0 <= i < |w.queried| - 1 ensures AcceptOn(env, keywords, w.queried[i]).None? {
        var none: seq<ImageSource> := [];
        assert |none| <= i;
      }
    }
  }

  /** When a pass runs out of sources, it has scored the candidates of every
      known, enabled source, all below the minimum; it finds the first best
      of them exactly when one reaches 80% of the minimum, and nothing
      otherwise. */
  lemma PassWhenExhausted(env: Env, keywords: seq<string>)
    ensures var w := FirstWalk(env, keywords);
      var sources := EnabledSources(env, SortByPriority(env.priorities));
      var all := ScoredOf(env, keywords, sources);
      w.Exhausted? ==>
        w.queried == sources && w.scored == all && AllBelow(all, env.minimumScore)
        && (Pass(env, keywords).Some? <==> exists k :: 0 <= k < |all| && all[k].1 >= env.minimumScore * 0.8)
        && (Pass(env, keywords).Some? ==> |all| > 0 && Pass(env, keywords) == Some(Found(Accept(all[BestIndex(all)]))))
  {
    var order := SortByPriority(env.priorities);
    ExhaustedQueriedAll(env, keywords, order, [], []);
    ExhaustedScoredAll(env, keywords, order, [], []);
    ExhaustedScoresBelowMinimum(env, keywords, order, [], []);
    assert [] + EnabledSources(env, order) == EnabledSources(env, order);
    assert [] + ScoredOf(env, keywords, EnabledSources(env, order)) == ScoredOf(env, keywords, EnabledSources(env, order));
  }

  /** The position of the first entry of `order` whose source value names
      no image source, if any. */
  function FirstUnknown(order: seq<Priority>): (r: Option<nat>)
    ensures r.Some? ==> r.value < |order| && ParseSource(order[r.value].0).None?
    ensures forall j :: 0 <= j < |order| && (r.None? || j < r.value) ==> ParseSource(order[j].0).Some?
    decreases |order|
  {
    if |order| == 0 then None
    else if ParseSource(order[0].0).None? then Some(0)
    else match FirstUnknown(order[1..])
      case None => None
      case Some(k) => Some(k + 1)
  }

  /** No source among `sources` has an early accept. */
  predicate NoneAccepts(env: Env, keywords: seq<string>, sources: seq<ImageSource>)
    decreases |sources|
  {
    |sources| == 0 || (AcceptOn(env, keywords, sources[0]).None? && NoneAccepts(env, keywords, sources[1..]))
  }

  lemma NoneAcceptsCons(env: Env, keywords: seq<string>, source: ImageSource, rest: seq<ImageSource>)
    ensures NoneAccepts(env, keywords, [source] + rest)
        <==> AcceptOn(env, keywords, source).None? && NoneAccepts(env, keywords, rest)
  {
    assert ([source] + rest)[1..] == rest;
  }

  /** The walk raises on an unknown source value exactly when the order
      holds one and no known, enabled source before the first of them has
      an early accept. */
  lemma {:induction false} UnknownSourceIff(env: Env, keywords: seq<string>, order: seq<Priority>,
                                            scored: seq<Scored>, queried: seq<ImageSource>)
    ensures WalkSources(env, keywords, order, scored, queried).UnknownSource?
        <==> FirstUnknown(order).Some? && NoneAccepts(env, keywords, EnabledSources(env, order))
    decreases |order|
  {
    if |order| > 0 {
      match ParseSource(order[0].0)
      case None =>
      case Some(source) =>
        var rest := EnabledSources(env, order[1..]);
        if source !in env.enabled {
          assert EnabledSources(env, order) == rest;
          UnknownSourceIff(env, keywords, order[1..], scored, queried);
        } else {
          assert EnabledSources(env, order) == [source] + rest;
          NoneAcceptsCons(env, keywords, source, rest);
          match ScoreSource(env, keywords, source)
          case Threw(_) =>
            UnknownSourceIff(env, keywords, order[1..], scored, queried + [source]);
          case Returned(these) =>
            UnknownSourceIff(env, keywords, order[1..], scored + these, queried + [source]);
        }
    }
  }

  /** The value a walk raises on is that of the first unknown entry. */
  lemma {:induction false} UnknownSourceValue(env: Env, keywords: seq<string>, order: seq<Priority>,
                                              scored: seq<Scored>, queried: seq<ImageSource>)
    ensures var w := WalkSources(env, keywords, order, scored, queried);
      w.UnknownSource? ==> FirstUnknown(order).Some? && w.value == order[FirstUnknown(order).value].0
    decreases |order|
  {
    if |order| > 0 {
      match ParseSource(order[0].0)
      case None =>
      case Some(source) =>
        if source !in env.enabled {
          UnknownSourceValue(env, keywords, order[1..], scored, queried);
        } else {
          match ScoreSource(env, keywords, source)
          case Threw(_) =>
            UnknownSourceValue(env, keywords, order[1..], scored, queried + [source]);
          case Returned(these) =>
            UnknownSourceValue(env, keywords, order[1..], scored + these, queried + [source]);
        }
    }
  }

  /** An order whose every entry names a source never raises. */
  lemma KnownNeverRaises(env: Env, keywords: seq<string>, order: seq<Priority>,
                         scored: seq<Scored>, queried: seq<ImageSource>)
    requires forall j :: 0 <= j < |order| ==> ParseSource(order[j].0).Some?
    ensures !WalkSources(env, keywords, order, scored, queried).UnknownSource?
  {
    UnknownSourceIff(env, keywords, order, scored, queried);
  }

  /** An unknown first entry raises on its own value, before any query. */
  lemma UnknownFirstRaises(env: Env, keywords: seq<string>, order: seq<Priority>,
                           scored: seq<Scored>, queried: seq<ImageSource>)
    requires |order| > 0 && ParseSource(order[0].0).None?
    ensures WalkSources(env, keywords, order, scored, queried) == UnknownSource(order[0].0)
  {
  }

  /** A pass raises exactly when the sorted order holds an unknown source
      value and no known, enabled source before the first of them has an
      early accept; it raises on that value. */
  lemma PassRaisesIff(env: Env, keywords: seq<string>)
    ensures var order := SortByPriority(env.priorities);
      ((Pass(env, keywords).Some? && Pass(env, keywords).value.Raised?)
         <==> FirstUnknown(order).Some? && NoneAccepts(env, keywords, EnabledSources(env, order)))
      && (Pass(env, keywords).Some? && Pass(env, keywords).value.Raised? ==>
            Pass(env, keywords).value
            == Raised(NotAnImageSourceMessage(order[FirstUnknown(order).value].0)))
  {
    var order := SortByPriority(env.priorities);
    UnknownSourceIff(env, keywords, order, [], []);
    UnknownSourceValue(env, keywords, order, [], []);
  }

  /** `search_image`: a pass with all keywords, then, when that finds
      nothing and there are more than two keywords, a pass with the first two. */
  function SearchImage(env: Env, keywords: seq<string>): (o: SearchOutcome)
    ensures o.NotFound? <==> Pass(env, keywords).None? && (|keywords| > 2 ==> Pass(env, keywords[..2]).None?)
    ensures !o.NotFound? ==>
              Pass(env, keywords) == Some(o)
              || (Pass(env, keywords).None? && |keywords| > 2 && Pass(env, keywords[..2]) == Some(o))
    ensures o.Found? ==> 0.05 <= o.image.relevanceScore <= 0.95
    ensures o.Found? && env.minimumScore >= 0.0 ==> o.image.relevanceScore >= env.minimumScore * 0.8
    decreases |keywords|
  {
    match Pass(env, keywords)
    case Some(o) => o
    case None => if |keywords| > 2 then SearchImage(env, keywords[..2]) else NotFound
  }

  /** The search relaxes at most once, and only to the first two keywords. */
  lemma RelaxesAtMostOnce(env: Env, keywords: seq<string>)
    ensures SearchImage(env, keywords) ==
      match Pass(env, keywords)
      case Some(o) => o
      case None => if |keywords| > 2 then Pass(env, keywords[..2]).GetOr(NotFound) else NotFound
  {
    if Pass(env, keywords).None? && |keywords| > 2 {
      assert |keywords[..2]| == 2;
    }
  }

  /** With no keywords there is nothing to score, so nothing is found. */
  lemma NoKeywordsFindNothing(env: Env, keywords: seq<string>)
    requires |keywords| == 0
    ensures !SearchImage(env, keywords).Found?
  {
    NoKeywordsScoreNothing(env, keywords, SortByPriority(env.priorities), []);
  }

  lemma {:induction false} NoKeywordsScoreNothing(env: Env, keywords: seq<string>, order: seq<Priority>,
                                                  queried: seq<ImageSource>)
    requires |keywords| == 0
    ensures var w := WalkSources(env, keywords, order, [], queried);
      !w.Accepted? && (w.Exhausted? ==> w.scored == [])
    decreases |order|
  {
    if |order| > 0 {
      match ParseSource(order[0].0)
      case None =>
      case Some(source) =>
        if source !in env.enabled {
          NoKeywordsScoreNothing(env, keywords, order[1..], queried);
        } else {
          var r := ScoreSource(env, keywords, source);
          assert r.Returned? ==> [] + r.value == [];
          NoKeywordsScoreNothing(env, keywords, order[1..], queried + [source]);
        }
    }
  }

  /** A provider that raises behaves exactly like one that returns no
      candidates: the cascade carries on either way. */
  function Swallowing(provider: (ImageSource, string) -> Reply<seq<ImageResult>>)
    : (p: (ImageSource, string) -> Reply<seq<ImageResult>>)
    ensures forall s, q :: p(s, q).Returned?
  {
    (s: ImageSource, q: string) =>
      match provider(s, q)
      case Returned(rs) => Returned(rs)
      case Threw(_) => Returned([])
  }

  lemma {:induction false} WalkIgnoresThrows(env: Env, keywords: seq<string>, order: seq<Priority>,
                                             scored: seq<Scored>, queried: seq<ImageSource>)
    ensures WalkSources(env, keywords, order, scored, queried)
         == WalkSources(env.(provider := Swallowing(env.provider)), keywords, order, scored, queried)
    decreases |order|
  {
    var env2 := env.(provider := Swallowing(env.provider));
    if |order| > 0 {
      match ParseSource(order[0].0)
      case None =>
      case Some(source) =>
        var query := JoinWith(keywords, " ");
        assert SearchSource(env, source, query) == SearchSource(env2, source, query);
        assert ScoreSource(env, keywords, source) == ScoreSource(env2, keywords, source);
        if source !in env.enabled {
          WalkIgnoresThrows(env, keywords, order[1..], scored, queried);
        } else {
          match ScoreSource(env, keywords, source)
          case Threw(_) =>
            WalkIgnoresThrows(env, keywords, order[1..], scored, queried + [source]);
          case Returned(these) =>
            WalkIgnoresThrows(env, keywords, order[1..], scored + these, queried + [source]);
        }
    }
  }

  /** Replacing every raise by an empty candidate list changes no search outcome. */
  lemma ThrowingProviderIsEmpty(env: Env, keywords: seq<string>)
    ensures SearchImage(env, keywords) == SearchImage(env.(provider := Swallowing(env.provider)), keywords)
    decreases |keywords|
  {
    var env2 := env.(provider := Swallowing(env.provider));
    WalkIgnoresThrows(env, keywords, SortByPriority(env.priorities), [], []);
    assert Pass(env, keywords) == Pass(env2, keywords);
    if |keywords| > 2 {
      ThrowingProviderIsEmpty(env, keywords[..2]);
    }
  }
}

=== FILE: statestore.dfy ===
/** The processing state store: one record per SKU id, plus the execution
    history.  The database becomes a map keyed by `sku_id` (the column is
    unique) with explicit row-id counters, and every operation that reads
    the clock takes the current time `now` in whole seconds.
 */
module StateStore {
  import opened Outcomes
  import opened Models

  datatype Store = Store(
    records: map<string, ProcessingRecord>,
    nextRecordId: nat,
    executions: map<nat, ExecutionHistory>,
    nextExecutionId: nat)

  /** What the schema guarantees: each record sits under its own `sku_id`
      and has a row id below the counter; each execution sits under its id. */
  predicate Valid(st: Store) {
    (forall k :: k in st.records ==>
       st.records[k].skuId == k && st.records[k].id.Some? && st.records[k].id.value < st.nextRecordId)
    && (forall e :: e in st.executions ==> st.executions[e].id == e && e < st.nextExecutionId)
  }

  /** A freshly created database: no rows, counters at 1. */
  function EmptyStore(): (st: Store)
    ensures Valid(st) && |st.records| == 0 && |st.executions| == 0
  {
    Store(map[], 1, map[], 1)
  }

  // ---------------------------------------------------------------------
  // Per-SKU records
  // ---------------------------------------------------------------------

  /** `is_sku_processed`: a record exists and its status is success. */
  predicate IsSkuProcessed(st: Store, skuId: string) {
    skuId in st.records && st.records[skuId].status == Success
  }

  /** `get_processing_record`. */
  function GetRecord(st: Store, skuId: string): (r: Option<ProcessingRecord>)
    ensures r.Some? <==> skuId in st.records
    ensures r.Some? ==> r.value == st.records[skuId]
    ensures Valid(st) && r.Some? ==> r.value.skuId == skuId
  {
    if skuId in st.records then Some(st.records[skuId]) else None
  }

  /** `mark_sku_processed`: an update of the existing record (one more
      attempt, every written field replaced, omitted ones cleared) or the
      insertion of a new one with one attempt. */
  function Mark(st: Store, skuId: string, status: ProcessingStatus, source: Option<ImageSource>,
                url: Option<string>, score: Option<real>, error: Option<string>, now: int): (r: Store)
    ensures skuId in r.records
    ensures Valid(st) ==> r.records[skuId].skuId == skuId
    ensures var rec := r.records[skuId];
      rec.status == status && rec.imageSource == source && rec.imageUrl == url
      && rec.relevanceScore == score && rec.lastError == error && rec.processedAt == now
    ensures skuId in st.records ==>
              r.records[skuId].attempts == st.records[skuId].attempts + 1
              && r.records[skuId].id == st.records[skuId].id
              && r.records[skuId].createdAt == st.records[skuId].createdAt
              && r.nextRecordId == st.nextRecordId
    ensures skuId !in st.records ==>
              r.records[skuId].attempts == 1
              && r.records[skuId].id == Some(st.nextRecordId)
              && r.records[skuId].createdAt == now
              && r.nextRecordId == st.nextRecordId + 1
    ensures r.records.Keys == st.records.Keys + {skuId}
    ensures forall k :: k in st.records && k != skuId ==> r.records[k] == st.records[k]
    ensures r.executions == st.executions && r.nextExecutionId == st.nextExecutionId
    ensures Valid(st) ==> Valid(r)
  {
    if skuId in st.records then
      var prev := st.records[skuId];
      var rec := prev.(status := status, imageSource := source, imageUrl := url, relevanceScore := score,
                      processedAt := now, attempts := prev.attempts + 1, lastError := error);
      st.(records := st.records[skuId := rec])
    else
      var rec := ProcessingRecord(Some(st.nextRecordId), skuId, status, source, url, score, now, 1, error, now);
      st.(records := st.records[skuId := rec], nextRecordId := st.nextRecordId + 1)
  }

  /** After a write, the SKU counts as processed exactly when the write said success,
      and no other SKU's answer changes. */
  lemma MarkDecidesProcessed(st: Store, skuId: string, status: ProcessingStatus, source: Option<ImageSource>,
                             url: Option<string>, score: Option<real>, error: Option<string>, now: int,
                             other: string)
    ensures IsSkuProcessed(Mark(st, skuId, status, source, url, score, error, now), skuId) <==> status == Success
    ensures other != skuId ==>
              (IsSkuProcessed(Mark(st, skuId, status, source, url, score, error, now), other)
               <==> IsSkuProcessed(st, other))
  {
  }

  /** A failure followed by a success leaves one record, on its second attempt, marked success. */
  lemma FailThenSucceed(st: Store, skuId: string, err: string, source: ImageSource, url: string, score: real,
                        t1: int, t2: int)
    requires skuId !in st.records
    ensures var s2 := Mark(Mark(st, skuId, Failed, None, None, None, Some(err), t1),
                           skuId, Success, Some(source), Some(url), Some(score), None, t2);
      s2.records.Keys == st.records.Keys + {skuId}
      && s2.records[skuId].attempts == 2
      && s2.records[skuId].status == Success
      && s2.records[skuId].lastError.None?
      && s2.records[skuId].createdAt == t1 && s2.records[skuId].processedAt == t2
  {
  }

  /** The records a `get_failed_skus(retry_limit)` query selects. */
  predicate Retryable(rec: ProcessingRecord, retryLimit: int) {
    rec.status == Failed && rec.attempts < retryLimit
  }

  predicate Distinct<T(==)>(s: seq<T>) {
    forall i, j :: 0 <= i < j < |s| ==> s[i] != s[j]
  }

  /** `get_failed_skus`: every failed SKU below the attempt limit, once each;
      the query has no ORDER BY, so the order is unspecified. */
  method GetFailedSkus(st: Store, retryLimit: int) returns (ids: seq<string>)
    ensures Distinct(ids)
    ensures forall k :: k in ids <==> k in st.records && Retryable(st.records[k], retryLimit)
  {
    var remaining := st.records.Keys;
    ids := [];
    while remaining != {}
      invariant remaining <= st.records.Keys
      invariant Distinct(ids)
      invariant forall k :: k in ids ==> k !in remaining
      invariant forall k :: k in ids <==> k in st.records && k !in remaining && Retryable(st.records[k], retryLimit)
      decreases |remaining|
    {
      var k :| k in remaining;
      remaining := remaining - {k};
      if Retryable(st.records[k], retryLimit) {
        ids := ids + [k];
      }
    }
  }

  /** The keys of the needs-review records. */
  function NeedsReviewKeys(st: Store): set<string> {
    set k | k in st.records && st.records[k].status == NeedsReview
  }

  /** A key of `keys` whose record has the latest `processed_at`. */
  lemma {:induction false} LatestExists(st: Store, keys: set<string>)
    requires keys != {} && keys <= st.records.Keys
    ensures exists k :: k in keys && forall k2 :: k2 in keys ==> st.records[k2].processedAt <= st.records[k].processedAt
    decreases |keys|
  {
    var x :| x in keys;
    if keys != {x} {
      LatestExists(st, keys - {x});
      var m :| m in keys - {x} && forall k2 :: k2 in keys - {x} ==> st.records[k2].processedAt <= st.records[m].processedAt;
      if st.records[x].processedAt > st.records[m].processedAt {
        assert forall k2 :: k2 in keys ==> st.records[k2].processedAt <= st.records[x].processedAt;
      } else {
        assert forall k2 :: k2 in keys ==> st.records[k2].processedAt <= st.records[m].processedAt;
      }
    } else {
      assert forall k2 :: k2 in keys ==> k2 == x;
    }
  }

  /** The SKU ids of a list of records. */
  function SkuIds(recs: seq<ProcessingRecord>): set<string> {
    set i | 0 <= i < |recs| :: recs[i].skuId
  }

  lemma SkuIdsAppend(recs: seq<ProcessingRecord>, rec: ProcessingRecord)
    ensures SkuIds(recs + [rec]) == SkuIds(recs) + {rec.skuId}
  {
    var r2 := recs + [rec];
    assert forall i :: 0 <= i < |recs| ==> r2[i] == recs[i];
    assert r2[|recs|] == rec;
  }

  /** Ordered by `processed_at`, latest first. */
  predicate NewestFirst(recs: seq<ProcessingRecord>) {
    forall i, j :: 0 <= i < j < |recs| ==> recs[i].processedAt >= recs[j].processedAt
  }

  predicate DistinctIds(recs: seq<ProcessingRecord>) {
    forall i, j :: 0 <= i < j < |recs| ==> recs[i].skuId != recs[j].skuId
  }

  /** Every record is the stored needs-review record for its SKU. */
  predicate StoredForReview(st: Store, recs: seq<ProcessingRecord>) {
    forall i :: 0 <= i < |recs| ==>
      recs[i].skuId in st.records && st.records[recs[i].skuId] == recs[i] && recs[i].status == NeedsReview
  }

  /** No record of `recs` is older than any record left in `keys`. */
  predicate NoneNewerLeft(st: Store, recs: seq<ProcessingRecord>, keys: set<string>)
    requires keys <= st.records.Keys
  {
    forall i, k :: 0 <= i < |recs| && k in keys ==> recs[i].processedAt >= st.records[k].processedAt
  }

  /** Appending the latest remaining record keeps the list ordered and duplicate-free. */
  lemma AppendLatest(st: Store, recs: seq<ProcessingRecord>, keys: set<string>, k: string)
    requires Valid(st) && keys <= NeedsReviewKeys(st) && k in keys
    requires SkuIds(recs) == NeedsReviewKeys(st) - keys
    requires NewestFirst(recs) && DistinctIds(recs) && StoredForReview(st, recs) && NoneNewerLeft(st, recs, keys)
    requires forall k2 :: k2 in keys ==> st.records[k2].processedAt <= st.records[k].processedAt
    ensures var out := recs + [st.records[k]];
      SkuIds(out) == NeedsReviewKeys(st) - (keys - {k})
      && NewestFirst(out) && DistinctIds(out) && StoredForReview(st, out) && NoneNewerLeft(st, out, keys - {k})
  {
    var out := recs + [st.records[k]];
    SkuIdsAppend(recs, st.records[k]);
    assert forall i :: 0 <= i < |recs| ==> out[i] == recs[i];
    assert out[|recs|] == st.records[k];
    forall i | 0 <= i < |recs| ensures recs[i].skuId != k {
      assert recs[i].skuId in SkuIds(recs);
    }
  }

  /** `get_needs_review_skus`: every needs-review record once, newest first. */
  method GetNeedsReviewSkus(st: Store) returns (out: seq<ProcessingRecord>)
    requires Valid(st)
    ensures StoredForReview(st, out)
    ensures SkuIds(out) == NeedsReviewKeys(st)
    ensures DistinctIds(out)
    ensures NewestFirst(out)
  {
    var remaining := NeedsReviewKeys(st);
    out := [];
    while remaining != {}
      invariant remaining <= NeedsReviewKeys(st)
      invariant SkuIds(out) == NeedsReviewKeys(st) - remaining
      invariant StoredForReview(st, out) && DistinctIds(out) && NewestFirst(out)
      invariant NoneNewerLeft(st, out, remaining)
      decreases |remaining|
    {
      LatestExists(st, remaining);
      var k :| k in remaining && forall k2 :: k2 in remaining ==> st.records[k2].processedAt <= st.records[k].processedAt;
      AppendLatest(st, out, remaining, k);
      out := out + [st.records[k]];
      remaining := remaining - {k};
    }
  }

  // ---------------------------------------------------------------------
  // Statistics
  // ---------------------------------------------------------------------

  /** The keys of the records with status `s`. */
  function KeysWithStatus(st: Store, s: ProcessingStatus): set<string> {
    set k | k in st.records && st.records[k].status == s
  }

  /** The keys of the successful records whose image came from `src`. */
  function KeysFromSource(st: Store, src: ImageSource): set<string> {
    set k | k in st.records && st.records[k].status == Success && st.records[k].imageSource == Some(src)
  }

  datatype Stats = Stats(total: nat, successful: nat, failed: nat, needsReview: nat,
                         sourceBreakdown: map<ImageSource, nat>)

  /** The per-source counts of successful records; sources without one are absent. */
  function SourceCounts(st: Store): (m: map<ImageSource, nat>)
    ensures forall s :: s in m <==> |KeysFromSource(st, s)| > 0
    ensures forall s :: CountFor(m, s) == |KeysFromSource(st, s)|
  {
    var all: set<ImageSource> := {Freepik, Pexels, Pixabay, WebScraper, Manual};
    assert forall s: ImageSource :: s in all by {
      forall s: ImageSource ensures s in all {
        SourceValueRoundTrip(s, "");
      }
    }
    map s | s in all && |KeysFromSource(st, s)| > 0 :: |KeysFromSource(st, s)|
  }

  /** `get_processing_stats`. */
  function GetStats(st: Store): (r: Stats)
    ensures r.total == |st.records|
    ensures r.successful == |KeysWithStatus(st, Success)| && r.failed == |KeysWithStatus(st, Failed)|
    ensures r.needsReview == |KeysWithStatus(st, NeedsReview)|
    ensures forall s :: CountFor(r.sourceBreakdown, s) == |KeysFromSource(st, s)|
  {
    Stats(|st.records|, |KeysWithStatus(st, Success)|, |KeysWithStatus(st, Failed)|,
          |KeysWithStatus(st, NeedsReview)|, SourceCounts(st))
  }

  /** The status counts never exceed the total: the statuses are disjoint. */
  lemma StatusCountsBounded(st: Store)
    ensures GetStats(st).successful + GetStats(st).failed + GetStats(st).needsReview <= GetStats(st).total
  {
    var sx, fx, nx := KeysWithStatus(st, Success), KeysWithStatus(st, Failed), KeysWithStatus(st, NeedsReview);
    DisjointUnionCard(sx, fx);
    DisjointUnionCard(sx + fx, nx);
    SubsetCard(sx + fx + nx, st.records.Keys);
  }

  /** The breakdown only counts successful records, one source each, so its
      sum never exceeds the number of successes. */
  lemma BreakdownBounded(st: Store)
    ensures BreakdownTotal(GetStats(st).sourceBreakdown) <= GetStats(st).successful
  {
    var a, b, c := KeysFromSource(st, Freepik), KeysFromSource(st, Pexels), KeysFromSource(st, Pixabay);
    var d, e := KeysFromSource(st, WebScraper), KeysFromSource(st, Manual);
    DisjointUnionCard(a, b);
    DisjointUnionCard(a + b, c);
    DisjointUnionCard(a + b + c, d);
    DisjointUnionCard(a + b + c + d, e);
    SubsetCard(a + b + c + d + e, KeysWithStatus(st, Success));
  }

  lemma DisjointUnionCard<T>(a: set<T>, b: set<T>)
    requires a !! b
    ensures |a + b| == |a| + |b|
  {
  }

  lemma SubsetCard<T>(a: set<T>, b: set<T>)
    requires a <= b
    ensures |a| <= |b|
  {
    assert b == a + (b - a);
  }

  // ---------------------------------------------------------------------
  // Retention
  // ---------------------------------------------------------------------

  const SecondsPerDay: int := 86400

  /** A record `cleanup_old_records(days)` deletes at time `now`. */
  predicate Expired(rec: ProcessingRecord, days: int, now: int) {
    rec.status == Success && rec.processedAt < now - days * SecondsPerDay
  }

  /** `cleanup_old_records`: the store without the expired successes, and how many went. */
  function Cleanup(st: Store, days: int, now: int): (r: (Store, nat))
    ensures r.0.records.Keys <= st.records.Keys
    ensures forall k :: k in st.records ==> (k in r.0.records <==> !Expired(st.records[k], days, now))
    ensures forall k :: k in r.0.records ==> r.0.records[k] == st.records[k]
    ensures r.1 == |st.records| - |r.0.records|
    ensures r.1 == |set k | k in st.records && Expired(st.records[k], days, now)|
    ensures r.0.executions == st.executions && r.0.nextRecordId == st.nextRecordId
    ensures r.0.nextExecutionId == st.nextExecutionId
    ensures Valid(st) ==> Valid(r.0)
  {
    var gone := set k | k in st.records && Expired(st.records[k], days, now);
    var kept := map k | k in st.records && !Expired(st.records[k], days, now) :: st.records[k];
    assert kept.Keys == st.records.Keys - gone;
    assert st.records.Keys == kept.Keys + gone;
    (st.(records := kept), |gone|)
  }

  /** Cleanup never removes anything but success records, so every pending
      retry and every review item survives it. */
  lemma CleanupKeepsUnfinished(st: Store, days: int, now: int, k: string)
    requires k in st.records && st.records[k].status != Success
    ensures k in Cleanup(st, days, now).0.records
    ensures Cleanup(st, days, now).0.records[k] == st.records[k]
  {
  }

  // ---------------------------------------------------------------------
  // Execution history
  // ---------------------------------------------------------------------

  /** `create_execution_record`: a new row started now, with the next id. */
  function CreateExecution(st: Store, triggerType: string, now: int): (r: (Store, nat))
    ensures r.1 == st.nextExecutionId
    ensures Valid(st) ==> r.1 !in st.executions
    ensures forall e :: e in r.0.executions <==> e in st.executions || e == r.1
    ensures r.0.executions[r.1] == ExecutionHistory(r.1, now, None, None, None, None, None, None, triggerType)
    ensures forall e :: e in st.executions && e != r.1 ==> e in r.0.executions && r.0.executions[e] == st.executions[e]
    ensures r.0.records == st.records && r.0.nextExecutionId == st.nextExecutionId + 1
    ensures Valid(st) ==> Valid(r.0)
  {
    var id := st.nextExecutionId;
    var row := ExecutionHistory(id, now, None, None, None, None, None, None, triggerType);
    (st.(executions := st.executions[id := row], nextExecutionId := id + 1), id)
  }

  /** `update_execution_record`: completes an existing row with the batch
      counts and its duration in seconds; an unknown id changes nothing. */
  function UpdateExecution(st: Store, id: nat, total: int, successful: int, failed: int, skipped: int,
                           now: int): (r: Store)
    ensures id !in st.executions ==> r == st
    ensures id in st.executions ==>
              id in r.executions
              && var e := r.executions[id];
              e.completedAt == Some(now) && e.totalSkus == Some(total) && e.successful == Some(successful)
              && e.failed == Some(failed) && e.skipped == Some(skipped)
              && e.durationSeconds == Some(now - st.executions[id].startedAt)
              && e.startedAt == st.executions[id].startedAt && e.triggerType == st.executions[id].triggerType
              && e.id == st.executions[id].id
    ensures r.executions.Keys == st.executions.Keys
    ensures forall e :: e in st.executions && e != id ==> r.executions[e] == st.executions[e]
    ensures r.records == st.records && r.nextExecutionId == st.nextExecutionId
    ensures Valid(st) ==> Valid(r)
  {
    if id !in st.executions then st
    else
      var e := st.executions[id];
      var done := e.(completedAt := Some(now), totalSkus := Some(total), successful := Some(successful),
                     failed := Some(failed), skipped := Some(skipped), durationSeconds := Some(now - e.startedAt));
      st.(executions := st.executions[id := done])
  }
}

=== FILE: validator.dfy ===
/** Image validation before upload: file size, format, dimensions and
    aspect ratio.  Decoding is done by a collaborator; what it reports (the
    format name and pixel size, or the message of the exception it raised)
    is an input here.  Errors accumulate in a fixed order and decide
    validity; an aspect ratio outside the recommended range is only a
    warning.
 */
module Validator {
  import opened PyText
  import opened Outcomes
  import Models

  /** The validator's settings, as passed to its constructor. */
  datatype Config = Config(
    minWidth: int,
    minHeight: int,
    maxFileSizeMb: int,
    allowedFormats: seq<string>,
    minAspectRatio: real,
    maxAspectRatio: real)

  /** The constructor defaults; no formats given means the default list. */
  const DefaultConfig: Config := Config(800, 600, 5, [], 0.5, 2.0)

  const DefaultFormats: seq<string> := ["JPEG", "PNG", "WebP"]

  const BytesPerMb: nat := 1024 * 1024

  /** `allowed_formats or [...]`: an empty list also falls back to the defaults. */
  function AllowedFormats(cfg: Config): (r: seq<string>)
    ensures |r| > 0
    ensures |cfg.allowedFormats| > 0 ==> r == cfg.allowedFormats
  {
    if |cfg.allowedFormats| == 0 then DefaultFormats else cfg.allowedFormats
  }

  /** The size limit in bytes. */
  function MaxFileSize(cfg: Config): int {
    cfg.maxFileSizeMb * BytesPerMb
  }

  /** What the decoder reports for a readable image. */
  datatype Decoded = Decoded(format: string, width: int, height: int)


  datatype ValidationError =
    | SizeExceeded(fileSize: nat, maxFileSizeMb: int)
    | FormatNotAllowed(format: string, allowed: seq<string>)
    | BelowMinimum(width: int, height: int, minWidth: int, minHeight: int)
    | DecodeFailed(message: string)

  datatype ValidationWarning = AspectOutOfRange(ratio: real)

  /** `ValidationResult`; the optional fields are absent when decoding failed. */
  datatype ValidationResult = ValidationResult(
    isValid: bool,
    errors: seq<ValidationError>,
    warnings: seq<ValidationWarning>,
    format: Option<string>,
    width: Option<int>,
    height: Option<int>,
    fileSize: Option<nat>,
    aspectRatio: Option<real>)

  /** The size error, if the payload is over the limit; equality is allowed. */
  function SizeErrors(cfg: Config, fileSize: nat): (r: seq<ValidationError>)
    ensures |r| <= 1
    ensures |r| == 1 <==> fileSize > MaxFileSize(cfg)
    ensures forall i :: 0 <= i < |r| ==> r[i].SizeExceeded?
  {
    if fileSize > MaxFileSize(cfg) then [SizeExceeded(fileSize, cfg.maxFileSizeMb)] else []
  }

  /** The format and dimension errors of a decoded image, in that order. */
  function ImageErrors(cfg: Config, d: Decoded): (r: seq<ValidationError>)
    ensures |r| <= 2
    ensures d.format !in AllowedFormats(cfg) <==> |r| > 0 && r[0].FormatNotAllowed?
    ensures d.width < cfg.minWidth || d.height < cfg.minHeight <==> |r| > 0 && r[|r| - 1].BelowMinimum?
    ensures |r| == 0 <==> d.format in AllowedFormats(cfg) && d.width >= cfg.minWidth && d.height >= cfg.minHeight
  {
    var formatErrors := if d.format !in AllowedFormats(cfg)
                        then [FormatNotAllowed(d.format, AllowedFormats(cfg))] else [];
    var sizeErrors := if d.width < cfg.minWidth || d.height < cfg.minHeight
                      then [BelowMinimum(d.width, d.height, cfg.minWidth, cfg.minHeight)] else [];
    formatErrors + sizeErrors
  }

  /** `validate_image`, given the payload length and what decoding it produced. */
  function Validate(cfg: Config, fileSize: nat, decoded: Reply<Decoded>): (v: ValidationResult)
    ensures v.isValid <==> |v.errors| == 0
    ensures |SizeErrors(cfg, fileSize)| <= |v.errors| && v.errors[..|SizeErrors(cfg, fileSize)|] == SizeErrors(cfg, fileSize)
    ensures decoded.Threw? ==>
              !v.isValid
              && v.errors == SizeErrors(cfg, fileSize) + [DecodeFailed(decoded.message)]
              && v.warnings == []
              && v.format.None? && v.width.None? && v.height.None?
              && v.fileSize.None? && v.aspectRatio.None?
    ensures decoded.Returned? ==>
              v.errors == SizeErrors(cfg, fileSize) + ImageErrors(cfg, decoded.value)
              && v.format == Some(decoded.value.format)
              && v.width == Some(decoded.value.width) && v.height == Some(decoded.value.height)
              && v.fileSize == Some(fileSize)
              && v.aspectRatio == Some(Models.AspectRatio(decoded.value.width, decoded.value.height))
    ensures decoded.Returned? ==>
              (|v.warnings| == 1 <==> !(cfg.minAspectRatio <= v.aspectRatio.value <= cfg.maxAspectRatio))
              && |v.warnings| <= 1
  {
    var sizeErrors := SizeErrors(cfg, fileSize);
    match decoded
    case Threw(message) =>
      ValidationResult(false, sizeErrors + [DecodeFailed(message)], [], None, None, None, None, None)
    case Returned(d) =>
      var ratio := Models.AspectRatio(d.width, d.height);
      var errors := sizeErrors + ImageErrors(cfg, d);
      var warnings := if ratio < cfg.minAspectRatio || ratio > cfg.maxAspectRatio
                      then [AspectOutOfRange(ratio)] else [];
      ValidationResult(|errors| == 0, errors, warnings, Some(d.format), Some(d.width), Some(d.height),
                       Some(fileSize), Some(ratio))
  }

  /** A decoded image is valid exactly when it is within the size limit, in
      an allowed format and at least the minimum size in both directions. */
  lemma ValidIff(cfg: Config, fileSize: nat, d: Decoded)
    ensures Validate(cfg, fileSize, Returned(d)).isValid <==>
              fileSize <= MaxFileSize(cfg) && d.format in AllowedFormats(cfg)
              && d.width >= cfg.minWidth && d.height >= cfg.minHeight
  {
  }

  /** The aspect-ratio range only produces warnings: changing it changes no
      error and no verdict. */
  lemma AspectRangeNeverInvalidates(cfg: Config, fileSize: nat, decoded: Reply<Decoded>, lo: real, hi: real)
    ensures Validate(cfg.(minAspectRatio := lo, maxAspectRatio := hi), fileSize, decoded).errors
         == Validate(cfg, fileSize, decoded).errors
    ensures Validate(cfg.(minAspectRatio := lo, maxAspectRatio := hi), fileSize, decoded).isValid
         == Validate(cfg, fileSize, decoded).isValid
  {
    var cfg2 := cfg.(minAspectRatio := lo, maxAspectRatio := hi);
    assert AllowedFormats(cfg2) == AllowedFormats(cfg);
    assert SizeErrors(cfg2, fileSize) == SizeErrors(cfg, fileSize);
    if decoded.Returned? {
      assert ImageErrors(cfg2, decoded.value) == ImageErrors(cfg, decoded.value);
    }
  }

  /** A smaller payload of a larger image in the same format stays valid. */
  lemma ValidityMonotone(cfg: Config, n1: nat, d1: Decoded, n2: nat, d2: Decoded)
    requires Validate(cfg, n1, Returned(d1)).isValid
    requires n2 <= n1 && d2.format == d1.format && d2.width >= d1.width && d2.height >= d1.height
    ensures Validate(cfg, n2, Returned(d2)).isValid
  {
    ValidIff(cfg, n1, d1);
    ValidIff(cfg, n2, d2);
  }

  // ---------------------------------------------------------------------
  // Messages
  // ---------------------------------------------------------------------

  /** `num / den` rounded to the nearest integer, ties to even, as `format`
      rounds an exactly represented value. */
  function RoundHalfEven(num: nat, den: nat): (q: nat)
    requires den > 0
    ensures -(den as int) <= 2 * (num - q * den) <= den
    ensures 2 * (num - q * den) == den ==> q % 2 == 0
    ensures 2 * (num - q * den) == -(den as int) ==> q % 2 == 0
  {
    var f := num / den;
    var rem := num % den;
    DivisionStep(num, den, f, rem);
    if 2 * rem > den || (2 * rem == den && f % 2 == 1) then f + 1 else f
  }

  lemma DivisionStep(num: nat, den: nat, f: nat, rem: nat)
    requires den > 0 && f == num / den && rem == num % den
    ensures num - f * den == rem && rem < den
    ensures num - (f + 1) * den == rem - den
  {
    assert (f + 1) * den == f * den + den;
  }

  /** Exactly two decimal digits. */
  function TwoDigits(k: nat): (r: string)
    requires k < 100
    ensures |r| == 2 && IsDigit(r[0]) && IsDigit(r[1])
  {
    [DigitChar(k / 10), DigitChar(k % 10)]
  }

  /** `f"{n/1024/1024:.2f}"` for a byte count `n`: dividing by powers of two
      is exact, so the rounding is that of the exact quotient. */
  function MbText(bytes: nat): string {
    var hundredths := RoundHalfEven(bytes * 100, BytesPerMb);
    NatToString(hundredths / 100) + "." + TwoDigits(hundredths % 100)
  }

  /** `str(float(mb))` for an integral megabyte limit. */
  function LimitMbText(mb: int): string {
    IntToString(mb) + ".0"
  }

  /** The `repr` of a list of format names. */
  function FormatsRepr(formats: seq<string>): string {
    "[" + JoinWith(seq(|formats|, i requires 0 <= i < |formats| => "'" + formats[i] + "'"), ", ") + "]"
  }

  /** The text recorded for each error. */
  function ErrorText(e: ValidationError): string {
    match e
    case SizeExceeded(n, mb) => "File size " + MbText(n) + "MB exceeds max " + LimitMbText(mb) + "MB"
    case FormatNotAllowed(f, allowed) => "Format " + f + " not in allowed formats: " + FormatsRepr(allowed)
    case BelowMinimum(w, h, mw, mh) =>
      "Dimensions " + IntToString(w) + "x" + IntToString(h) + " below minimum "
      + IntToString(mw) + "x" + IntToString(mh)
    case DecodeFailed(m) => "Failed to process image: " + m
  }

  /** The texts of a result's errors, in order. */
  function ErrorTexts(errors: seq<ValidationError>): (r: seq<string>)
    ensures |r| == |errors|
    ensures forall i :: 0 <= i < |r| ==> r[i] == ErrorText(errors[i])
  {
    seq(|errors|, i requires 0 <= i < |errors| => ErrorText(errors[i]))
  }

  // ---------------------------------------------------------------------
  // Worked examples
  // ---------------------------------------------------------------------

  /** A 100x100 JPEG is too small for the default 800x600 minimum. */
  lemma SmallImageRejected()
    ensures Validate(DefaultConfig, 1000, Returned(Decoded("JPEG", 100, 100))).errors
         == [BelowMinimum(100, 100, 800, 600)]
    ensures !Validate(DefaultConfig, 1000, Returned(Decoded("JPEG", 100, 100))).isValid
  {
    assert "JPEG" in AllowedFormats(DefaultConfig);
  }

  /** Six megabytes exceed the default five-megabyte limit. */
  lemma OversizeRejected()
    ensures Validate(DefaultConfig, 6 * BytesPerMb, Returned(Decoded("PNG", 1000, 800))).errors
         == [SizeExceeded(6 * BytesPerMb, 5)]
  {
    assert "PNG" in AllowedFormats(DefaultConfig);
    assert ImageErrors(DefaultConfig, Decoded("PNG", 1000, 800)) == [];
    assert SizeErrors(DefaultConfig, 6 * BytesPerMb) == [SizeExceeded(6 * BytesPerMb, 5)];
  }

  /** The size message shows both sizes in megabytes. */
  lemma OversizeMessage()
    ensures ErrorText(SizeExceeded(6 * BytesPerMb, 5)) == "File size 6.00MB exceeds max 5.0MB"
  {
    SixMegabytesText();
    FiveMegabyteLimitText();
    assert ErrorText(SizeExceeded(6 * BytesPerMb, 5)) == "File size " + "6.00" + "MB exceeds max " + "5.0" + "MB";
  }

  lemma FiveMegabyteLimitText()
    ensures LimitMbText(5) == "5.0"
  {
    assert IntToString(5) == "5";
  }

  lemma SixMegabytesText()
    ensures MbText(6 * BytesPerMb) == "6.00"
  {
    var h := RoundHalfEven(6 * BytesPerMb * 100, BytesPerMb);
    assert 6 * BytesPerMb * 100 == 600 * BytesPerMb;
    assert h == 600;
    assert NatToString(6) == "6";
    assert TwoDigits(0) == "00";
  }

  /** A 3.5 aspect ratio is outside [0.5, 2.0] but only warns. */
  lemma WideImageOnlyWarns()
    ensures Validate(DefaultConfig, 1000, Returned(Decoded("WebP", 3500, 1000))).isValid
    ensures Validate(DefaultConfig, 1000, Returned(Decoded("WebP", 3500, 1000))).warnings
         == [AspectOutOfRange(3.5)]
  {
    assert "WebP" in AllowedFormats(DefaultConfig);
  }

  /** Format names are compared exactly: a lower-case name is refused. */
  lemma FormatCaseSensitive()
    ensures Validate(DefaultConfig, 1000, Returned(Decoded("jpeg", 1000, 800))).errors
         == [FormatNotAllowed("jpeg", DefaultFormats)]
  {
    assert "jpeg" != "JPEG";
  }

  /** The format message lists the allowed formats as Python prints the list. */
  lemma FormatMessage()
    ensures ErrorText(FormatNotAllowed("jpeg", DefaultFormats))
         == "Format jpeg" + " not in allowed formats: " + "['JPEG', 'PNG', 'WebP']"
  {
    DefaultFormatsRepr();
  }

  lemma DefaultFormatsRepr()
    ensures FormatsRepr(DefaultFormats) == "['JPEG', 'PNG', 'WebP']"
  {
    var quoted := seq(|DefaultFormats|, i requires 0 <= i < |DefaultFormats| => "'" + DefaultFormats[i] + "'");
    assert |quoted| == 3;
    assert quoted[0] == "'JPEG'" && quoted[1] == "'PNG'" && quoted[2] == "'WebP'";
    assert JoinWith(quoted[2..], ", ") == "'WebP'";
    assert JoinWith(quoted[1..], ", ") == "'PNG'" + ", " + JoinWith(quoted[2..], ", ") by {
      assert quoted[1..][1..] == quoted[2..];
    }
    assert JoinWith(quoted, ", ") == "'JPEG'" + ", " + JoinWith(quoted[1..], ", ");
  }
}
